=== FILE: README.md ===
# A verified model of a Monkey-style tree-walking interpreter

This project models the three stages of a small interpreter written in C#: the lexer,
the Pratt parser with its AST renderings, and the evaluator with its environment and
value classes. All three are deterministic, and each is written here as a pure function.

- **Lexer** (`lexer.dfy`). `NextToken(input, pos)` skips blanks and reads one token. It
  returns the token and the position after it, or an error. `Tokenize` collects tokens up
  to and including the first EOF.
- **Parser** (`parser.dfy`). Every parse rule works on a `seq<Token>` and the index of
  the current token. It returns the node and the index of the last token it consumed.
  This mirrors the source's `curToken`/`peekToken` pair, and reading past the end gives
  EOF. The AST and its `ToString` renderings are in `ast.dfy`.
- **Evaluator** (`evaluator.dfy`, `operators.dfy`, `builtins.dfy`).
  - Evaluation threads an `Env`: a non-empty stack of frames, each a `map<string, Value>`
    (`environment.dfy`).
  - The source's environments form a chain of mutable dictionaries. A function value
    captures no environment, and a call's frame hangs off the caller's environment. That
    chain is exactly a stack, so scoping is dynamic in the source and in the model.
  - A `fuel` argument bounds the depth of user calls.
  - Exceptions become `RuntimeError` variants.
  - `+ - *` and unary `-` wrap to 32 bits. `/` truncates toward zero, as C# does.
- **Values** (`values.dfy`). These are the value classes' `Equals`, `GetHashCode`-based
  dictionary lookup, and `Inspect`. A hash is an insertion-ordered list of entries.
- **REPL** (`interpreter.dfy`). `Run` is `interpret`: it runs the three stages on one
  input line in the environment the session keeps. `Session` is the read loop: one
  environment for every line, and a line starting with `exit()` ends it.

The `*_props.dfy` files hold the lemmas. The model follows the code wherever the code and
the documented behaviour part ways:
- An array's `Equals` always answers false, because the `SequenceEqual` result is
  discarded. So an array is unequal even to itself.
- Two hashes are compared with `SequenceEqual` over the argument's pairs, so the
  argument's keys and values are the receivers of `Equals`. The model recurses over the
  receiver's pairs instead. `ValuesProps.EqualsSymmetric` shows that the side does not
  matter, and `ValuesProps.HashEqualsPairwise` states both orders.
- `print` rejects exactly two arguments and accepts every other count.
- Parameter separators and the closing bracket of an array literal are skipped without
  being checked.

## Model

| member | source | states |
|---|---|---|
| Lexer.LookupKeyword | Interpreter/Lexer/Lexer.cs:144-157 | a word is an identifier exactly when it is not one of the seven keywords |
| Lexer.SkipWhitespace | Interpreter/Lexer/Lexer.cs:159-165 | the position reached is the first non-blank at or after the start, and everything skipped is a space, tab, newline or carriage return |
| Lexer.RunEnd | Interpreter/Lexer/Lexer.cs:125-132 | the run read is maximal: every character in it belongs to the class, and the one after it does not |
| Lexer.FindQuote | Interpreter/Lexer/Lexer.cs:183-186 | the closing quote found is the first one after the opening quote; none found means there is no quote in the rest of the input |
| Lexer.NextToken | Interpreter/Lexer/Lexer.cs:43-98 | every token read advances the position, and only EOF moves past the end of the input |
| Lexer.Tokenize | Interpreter/Lexer/Lexer.cs:43-98 | a successful token stream is non-empty and ends with EOF |
| Lexer.TokenizeFrom | Interpreter/Lexer/Lexer.cs:43-98 | the tokens read from any position form a non-empty stream that ends with EOF |
| LexerProps.SingleCharSymbol | Interpreter/Lexer/Lexer.cs:47-65 | each of the seventeen symbol characters yields its own kind with itself as the literal and consumes one character |
| LexerProps.TwoCharOperators | Interpreter/Lexer/Lexer.cs:86-95 | `==` and `!=` are read by longest match and consume two characters |
| LexerProps.IdentifierIsMaximalRun | Interpreter/Lexer/Lexer.cs:72-75 | an identifier or keyword token is the maximal run of `[a-zA-Z_]`; it is an identifier exactly when the run is not a keyword |
| LexerProps.IntegerIsMaximalRun | Interpreter/Lexer/Lexer.cs:167-177 | an integer token is the maximal run of digits, with the digits as its literal |
| LexerProps.StringBetweenQuotes | Interpreter/Lexer/Lexer.cs:179-192 | a string token exists exactly when a closing quote follows; its literal is the text strictly between the quotes and both quotes are consumed |
| LexerProps.WhitespaceIsSkipped | Interpreter/Lexer/Lexer.cs:159-165 | a blank before a token does not change the token read |
| LexerProps.EndOfInputIsEof | Interpreter/Lexer/Lexer.cs:30-34 | at or past the end of the input every call yields EOF with an empty literal |
| LexerProps.OtherCharacterIsIllegal | Interpreter/Lexer/Lexer.cs:67-96 | any other character yields ILLEGAL with an empty literal and consumes exactly one character |
| LexerProps.ScanFromFirstNonBlank | Interpreter/Lexer/Lexer.cs:45 | skipping blanks is idempotent, so scanning may start at the first non-blank |
| LexerProps.SymbolKindIsPunctuation | Interpreter/Lexer/Lexer.cs:47-65 | the single-character kinds are punctuation and operators only, never a word, literal or two-character kind |
| LexerProps.ScannedTokenWellFormed | Interpreter/Lexer/Lexer.cs:43-98 | every token produced, apart from EOF and ILLEGAL, has the shape its kind demands |
| LexerProps.RescanSpelling | Interpreter/Lexer/Lexer.cs:43-98 | every token produced, apart from EOF and ILLEGAL, is read back unchanged from its own spelling |
| LexerProps.RescanWellFormed | Interpreter/Lexer/Lexer.cs:125-192 | a well-formed token round-trips through its spelling |
| LexerProps.OnlyLastTokenIsEof | Interpreter/Lexer/Lexer.cs:66 | in a token stream only the final token is EOF |
| Parser.Next | Interpreter/Parser/Parser.cs:73-77 | stepping moves one token forward and stays on the implicit EOF past the end |
| Parser.ExpectPeek | Interpreter/Parser/Parser.cs:79-90 | it advances exactly when the next token has the demanded kind, and otherwise reports the kind it found |
| Parser.ParseParams | Interpreter/Parser/Parser.cs:258-273 | `)` right after `(` gives no parameters; otherwise the names are the literals of every second token after `(`, and the list ends on the token before a `)` |
| Parser.ParseBlock | Interpreter/Parser/Parser.cs:191-208 | a parsed block ends on its closing `}` |
| Parser.PairLoop | Interpreter/Parser/Parser.cs:413-449 | the pair loop stops only when the next token is `}` |
| Parser.ElementLoop | Interpreter/Parser/Parser.cs:393-412 | the element loop stops only when the next token is not a comma |
| Parser.ArgLoop | Interpreter/Parser/Parser.cs:351-377 | the argument loop stops on the token before the closing `)` |
| Parser.ParseExpression | Interpreter/Parser/Parser.cs:210-229 | on success the expression ends at or after its first token and within the input; its shape is stated by `ParserProps.ExpressionFromPrefix`, `LeftNesting`, `RightNesting` and `NoPrefixRuleFails` |
| Parser.InfixLoop | Interpreter/Parser/Parser.cs:219-225 | on success the operator loop ends at or after the token it started on and within the input; `ParserProps.LoopStops` and `LoopContinues` state when it stops and when it goes on |
| Parser.ParsePrefix | Interpreter/Parser/Parser.cs:43-56 | on success the prefix rule ends at or after its token and within the input; `ParserProps.NoPrefixRuleFails`, `IdentifierPrefix`, `PrefixIsIf` and `PrefixIsFunction` state the table |
| Parser.ParsePrefixExpr | Interpreter/Parser/Parser.cs:283-289 | a parsed prefix expression ends strictly after its operator and within the input; `ParserProps.PrefixBindsTighter` states its shape |
| Parser.ParseGrouped | Interpreter/Parser/Parser.cs:291-303 | a parsed group ends strictly after its `(` and within the input; `ParserLists.GroupNeedsClosing` states its shape |
| Parser.ParseIf | Interpreter/Parser/Parser.cs:315-350 | a parsed `if` ends strictly after the `if` and within the input; `ParserProps.IfRuleNoElse`, `IfRuleElse` and `IfFailures` state its shape |
| Parser.ParseFunction | Interpreter/Parser/Parser.cs:251-281 | a parsed function literal ends strictly after the `fn` and within the input; `ParserProps.FunctionRule` and `FunctionFailures` state its shape |
| Parser.ParamLoop | Interpreter/Parser/Parser.cs:264-271 | on success the `)` follows the last name, each name is the literal two tokens after the previous one, and the end is two tokens per name on; `ParserLists.ParamLoopCollects` adds that the list stops at the first `)` |
| Parser.ParseArray | Interpreter/Parser/Parser.cs:393-412 | a parsed array literal ends strictly after its `[` and within the input; `ParserLists.ArrayIsElements` states its elements |
| Parser.ParseHash | Interpreter/Parser/Parser.cs:413-449 | a parsed hash literal ends strictly after its `{` and within the input; `ParserLists.HashIsPairs` and `HashEndsAtBrace` state its pairs and end |
| Parser.ParseHashPair | Interpreter/Parser/Parser.cs:430-439 | a parsed `key : value` pair ends strictly after the first token of its key (the `:` and the value follow it) and within the input |
| Parser.ParseInfixRule | Interpreter/Parser/Parser.cs:58-70 | on success the infix rule ends at or after its operator and within the input; `(` selects the call rule, `[` the index rule, any other operator the binary rule (`ParserProps.InfixOperand`) |
| Parser.ParseInfix | Interpreter/Parser/Parser.cs:305-313 | a parsed binary expression ends strictly after its operator and within the input; `ParserProps.OneInfixStep` and `InfixOperand` state its shape |
| Parser.ParseCall | Interpreter/Parser/Parser.cs:351-377 | a parsed call ends strictly after its `(` and within the input; `ParserLists.CallIsArguments` and `CallEndsAtParen` state its arguments and end |
| Parser.ParseIndex | Interpreter/Parser/Parser.cs:378-392 | a parsed index expression ends strictly after its `[` and within the input; `ParserProps.IndexRule` states its shape |
| Parser.BlockLoop | Interpreter/Parser/Parser.cs:191-208 | on success the block body ends on a `}`; `ParserLists.BlockStatements` states its statements |
| Parser.ParseStatement | Interpreter/Parser/Parser.cs:132-143 | on success the statement ends at or after its first token and within the input; `ParserLists.StatementNotAtBrace` and the `Let`/`Return` lemmas state its shape |
| Parser.ParseLet | Interpreter/Parser/Parser.cs:145-165 | a parsed `let` ends strictly after the `let` and within the input; `ParserProps.LetShape` and `LetFailures` state its shape |
| Parser.ParseReturn | Interpreter/Parser/Parser.cs:167-178 | a parsed `return` ends strictly after the `return` and within the input; `ParserProps.ReturnShape` and `ReturnNeedsSemicolon` state its shape |
| Parser.ParseExpressionStatement | Interpreter/Parser/Parser.cs:180-189 | a parsed expression statement ends within the input; `ParserProps.ExpressionStatementSemicolonOptional` states its shape |
| ParserProps.PrecedenceLadder | Interpreter/Parser/Parser.cs:19-41 | the levels strictly increase from Lowest to Call, and each operator token has exactly the level the table gives it |
| ParserProps.LoopStops | Interpreter/Parser/Parser.cs:220 | the operator loop returns its left operand unchanged at a semicolon or a token binding no more tightly |
| ParserProps.OneInfixStep | Interpreter/Parser/Parser.cs:305-313 | a binary operator followed by any complete prefix expression, which a token binding no more tightly than the operator then ends, builds an infix node with that expression as its right operand |
| ParserProps.InfixOperand | Interpreter/Parser/Parser.cs:305-313 | a binary operator's right operand is whatever the parser reads at the operator's own level |
| ParserProps.LoopContinues | Interpreter/Parser/Parser.cs:219-225 | the operator loop goes on from the infix node when the next token binds more tightly than the current level and is not `;` |
| ParserProps.ExpressionFromPrefix | Interpreter/Parser/Parser.cs:210-229 | an expression is its prefix rule's result carried through the operator loop |
| ParserProps.LeftNesting | Interpreter/Parser/Parser.cs:210-229 | for any complete prefix expressions `a`, `b`, `c`, `a o1 b o2 c` nests to the left when `o1` binds at least as tightly as `o2` and both bind more tightly than the level it is read at |
| ParserProps.RightNesting | Interpreter/Parser/Parser.cs:210-229 | for any complete prefix expressions `a`, `b`, `c`, `a o1 b o2 c` nests to the right when `o2` binds more tightly than `o1` |
| ParserProps.PrefixBindsTighter | Interpreter/Parser/Parser.cs:283-289 | a prefix operator takes only the next operand, before any binary operator |
| ParserProps.ParenthesesRegroup | Interpreter/Parser/Parser.cs:291-303 | parentheses reparse their contents at Lowest, so `-(a o b)` negates the whole group |
| ParserProps.NoPrefixRuleFails | Interpreter/Parser/Parser.cs:212-216 | an expression starting with a token that has no prefix rule fails with that token's kind |
| ParserProps.LetShape | Interpreter/Parser/Parser.cs:145-165 | a parsed `let` names the identifier after `let`, holds the expression after `=`, and ends on a semicolon |
| ParserProps.LetFailures | Interpreter/Parser/Parser.cs:148-163 | a `let` fails on a missing identifier, a missing `=` or a missing `;`, each with its own expectation |
| ParserProps.ReturnShape | Interpreter/Parser/Parser.cs:167-178 | a parsed `return` holds the expression after it and ends on a semicolon |
| ParserProps.ReturnNeedsSemicolon | Interpreter/Parser/Parser.cs:173-176 | a `return` without a semicolon fails |
| ParserProps.ExpressionStatementSemicolonOptional | Interpreter/Parser/Parser.cs:180-189 | an expression statement consumes a following semicolon if there is one and parses the same either way |
| ParserProps.OneStatementBlock | Interpreter/Parser/Parser.cs:191-208 | a block holding one statement collects it and ends at `}` |
| ParserProps.IfWithoutElse | Interpreter/Parser/Parser.cs:315-350 | `if (a) { b }` has no alternative |
| ParserProps.IfWithElse | Interpreter/Parser/Parser.cs:315-350 | `if (a) { b } else { c }` carries the `else` block as its alternative |
| ParserProps.IfFailures | Interpreter/Parser/Parser.cs:315-350 | `if` not followed by `(` fails, and so does a parenthesised condition not followed by `{`, each reporting the token found |
| ParserProps.FunctionFailures | Interpreter/Parser/Parser.cs:254-278 | `fn` not followed by `(` fails, and so does a parameter list not followed by `{`, each reporting the token found |
| ParserProps.EmptyFunction | Interpreter/Parser/Parser.cs:251-281 | `fn() {}` has no parameters and an empty body |
| ParserProps.ParameterSeparatorsUnchecked | Interpreter/Parser/Parser.cs:264-271 | whatever token stands between two parameter names is skipped |
| ParserProps.UnterminatedParameterList | Interpreter/Parser/Parser.cs:264-271 | a parameter list cut off by EOF is an error |
| ParserProps.CallNeedsComma | Interpreter/Parser/Parser.cs:351-377 | call arguments not separated by a comma fail |
| ParserProps.CallWithArguments | Interpreter/Parser/Parser.cs:351-377 | `f(a, b)` is a call of `f` with both arguments in order |
| ParserProps.ArrayClosingUnchecked | Interpreter/Parser/Parser.cs:393-412 | the token after the last array element is taken as the closing bracket whatever it is |
| ParserProps.TwoElementArray | Interpreter/Parser/Parser.cs:393-412 | `[a, b]` is a two-element array in order |
| ParserProps.IndexRule | Interpreter/Parser/Parser.cs:378-392 | an index expression is `left [ expr ]`, and it fails without the `]` |
| ParserProps.EmptyHash | Interpreter/Parser/Parser.cs:413-449 | `{}` is the empty hash literal |
| ParserProps.OnePairHash | Interpreter/Parser/Parser.cs:413-449 | `{a: b}` is a hash literal with one pair |
| ParserProps.HashNeedsColon | Interpreter/Parser/Parser.cs:413-449 | a key not followed by `:` fails |
| ParserProps.UnclosedHashFails | Interpreter/Parser/Parser.cs:413-449 | a hash literal cut off before `}` fails |
| ParserLists.StatementNotAtBrace | Interpreter/Parser/Parser.cs:132-143 | no statement starts on `}`: it is read as an expression, and `}` has no prefix rule |
| ParserLists.BlockStatements | Interpreter/Parser/Parser.cs:191-208 | a block body is exactly the statements read one after another, each from the token after the previous one, up to the first `}` that starts no statement |
| ParserLists.UnclosedBlockFails | Interpreter/Parser/Parser.cs:191-208 | a block whose statements, whatever they are, run into EOF fails with the unclosed-block error |
| ParserLists.BlockNeedsClosingBrace | Interpreter/Parser/Parser.cs:191-208 | a block with no `}` after its `{` cannot parse |
| ParserLists.ProgramStatements | Interpreter/Parser/Parser.cs:116-130 | the program loop yields exactly the statements read one after another up to EOF |
| ParserLists.ProgramIsStatements | Interpreter/Parser/Parser.cs:116-130 | a program is exactly the sequence of statements read from the first token up to EOF |
| ParserLists.ElementLoopCollects | Interpreter/Parser/Parser.cs:393-412 | the element loop yields exactly the expressions parsed after each `,`, in order, until no `,` follows |
| ParserLists.ArrayIsElements | Interpreter/Parser/Parser.cs:393-412 | a non-empty array literal is its first element followed by the elements after it, in order |
| ParserLists.ArgLoopCollects | Interpreter/Parser/Parser.cs:351-377 | the argument loop yields exactly the expressions parsed after each `,`, in order, until `)` follows |
| ParserLists.CallIsArguments | Interpreter/Parser/Parser.cs:351-377 | a call with arguments passes its first argument followed by the ones after it, in order |
| ParserLists.CallEndsAtParen | Interpreter/Parser/Parser.cs:351-377 | a parsed call ends on a `)` |
| ParserLists.PairLoopCollects | Interpreter/Parser/Parser.cs:413-449 | the pair loop yields exactly the pairs parsed two tokens after the end of the previous one, in order, until `}` follows |
| ParserLists.HashIsPairs | Interpreter/Parser/Parser.cs:413-449 | a non-empty hash literal is its first pair followed by the pairs after it, in order |
| ParserLists.ParamLoopCollects | Interpreter/Parser/Parser.cs:264-271 | the parameter loop yields exactly the literals two tokens apart, in order, up to the FIRST `)` found where a separator is looked for |
| ParserLists.ParamsAre | Interpreter/Parser/Parser.cs:258-273 | a parameter list is empty exactly when `)` follows `(`; otherwise it is the token after `(` followed by the names after it up to the first `)` |
| ParserLists.NoCloseBeforeEnd | Interpreter/Parser/Parser.cs:264 | no separator slot inside a parameter list holds a `)` |
| ParserLists.FirstCloseEndsParams | Interpreter/Parser/Parser.cs:258-273 | `( x ) y )` has the single parameter `x` |
| ParserLists.HashEndsAtBrace | Interpreter/Parser/Parser.cs:413-449 | a parsed non-empty hash literal ends on `}` |
| ParserLists.GroupNeedsClosing | Interpreter/Parser/Parser.cs:291-303 | a parenthesised expression not followed by `)` fails, naming the token found; followed by `)`, it is its contents and ends on the `)` |
| Ast.RenderExprs | Interpreter/Parser/CallExpression.cs:41-42 | the argument texts are the arguments' renderings, one each, in order |
| Ast.RenderPairs | Interpreter/Parser/HashLiteral.cs:36-39 | the pair texts are the pairs' `key: value` renderings, one each, in order |
| Ast.RenderLines | Interpreter/Parser/Program.cs:24-33 | the program's lines are the statements' renderings, each followed by a newline, in order |
| AstProps.PrefixGroup | Interpreter/Parser/PrefixExpression.cs:26-29 | a prefix node's rendering is one parenthesised group when its operand's rendering is balanced |
| AstProps.InfixGroup | Interpreter/Parser/InfixExpression.cs:34-37 | an infix node's rendering is one parenthesised group when its operands' renderings are balanced |
| AstProps.OperatorTreeGroups | Interpreter/Parser/InfixExpression.cs:34-37 | every tree of prefix and infix operators renders with balanced parentheses, and each operator node as a single group enclosing its operands |
| AstProps.ProductInsideSum | Interpreter/Parser/InfixExpression.cs:34-37 | `a + b * c` parses and renders as `(a + (b * c))` |
| AstProps.SumsAssociateLeft | Interpreter/Parser/InfixExpression.cs:34-37 | `a + b + c` parses and renders as `((a + b) + c)` |
| AstProps.NegationBeforeSum | Interpreter/Parser/PrefixExpression.cs:26-29 | `-a + b` parses and renders as `((-a) + b)` |
| AstProps.NegatedGroup | Interpreter/Parser/PrefixExpression.cs:26-29 | `-(a + b)` parses and renders as `(-(a + b))` |
| AstProps.BlockRendering | Interpreter/Parser/BlockStatement.cs:31-42 | a block renders its statements back to back between `{ ` and ` }` |
| AstProps.ProgramRendering | Interpreter/Parser/Program.cs:24-33 | a program renders one statement per line |
| Values.TypeOf | Interpreter/Evaluator/EvalBuiltIn.cs:11 | every value has a type tag except a built-in, whose tag is unavailable |
| Values.IntegerHashCode | Interpreter/Evaluator/EvalInteger.cs:23-26 | an integer's hash code is its value |
| Values.Lookup | Interpreter/Evaluator/Evaluator.cs:496-500 | a key is found exactly when some stored key matches it, and the value returned is that entry's |
| Values.Insert | Interpreter/Evaluator/Evaluator.cs:514 | storing keeps every existing key in place; it appends exactly when no stored key matches, and the appended entry is the new pair |
| ValuesProps.EqualsByValue | Interpreter/Evaluator/EvalInteger.cs:28-35 | for integers, booleans, strings, Null and built-ins, `Equals` is equality of content |
| ValuesProps.ArrayEqualsNothing | Interpreter/Evaluator/EvalArray.cs:30-37 | an array equals nothing, not even itself, on either side of `Equals` |
| ValuesProps.ReferencesEqualNothing | Interpreter/Evaluator/EvalFunctionObject.cs:10-24 | functions and return signals have no value equality |
| ValuesProps.HashEqualsPairwise | Interpreter/Evaluator/EvalHash.cs:40-47 | two hashes are equal exactly when they have the same length and their entries are equal position by position, with either side's pairs as the receivers |
| ValuesProps.EqualsSymmetric | Interpreter/Evaluator/EvalHash.cs:44 | `Equals` is symmetric, so the receiver of the entry comparison does not matter |
| ValuesProps.HashWithArrayNotSelfEqual | Interpreter/Evaluator/EvalHash.cs:40-47 | a hash holding an array is unequal to itself |
| ValuesProps.KeyMatchesIsIdentity | Interpreter/Evaluator/Evaluator.cs:496 | a stored key is found again exactly when it is content-hashed and equal to the probe |
| ValuesProps.LookupAfterInsert | Interpreter/Evaluator/Evaluator.cs:514 | after a store, a matching probe reads the stored value and every other probe reads what it read before |
| ValuesProps.InsertKeepsKeysDistinct | Interpreter/Evaluator/Evaluator.cs:514 | storing keeps the keys distinct |
| Values.InspectEntries | Interpreter/Evaluator/EvalHash.cs:23-26 | the entry texts are the entries' `key: value` renderings, one each, in order |
| ValuesProps.InspectIntegerRoundTrip | Interpreter/Evaluator/EvalInteger.cs:12-15 | a non-negative integer's rendering is a numeral that `int.Parse` reads back as the same integer |
| ValuesProps.InspectNegativeInteger | Interpreter/Evaluator/EvalInteger.cs:12-15 | a negative integer renders with a leading minus sign |
| ValuesProps.InspectArrayTrailingComma | Interpreter/Evaluator/EvalArray.cs:18-28 | every array element is followed by a comma, including the last; the empty array renders as `[]` |
| ValuesProps.InspectHashEntries | Interpreter/Evaluator/EvalHash.cs:18-33 | hash entries render as `key: value` joined by `, ` inside braces; strings render without quotes |
| Environment.NewEnv | Interpreter/Evaluator/Environment.cs:15-18 | a fresh environment is one empty frame |
| Environment.Get | Interpreter/Evaluator/Environment.cs:20-30 | a name is found exactly when some frame of the chain binds it |
| Environment.Set | Interpreter/Evaluator/Evaluator.cs:151 | a write updates the current frame only, and the outer frames are unchanged |
| Environment.PushFrame | Interpreter/Evaluator/Evaluator.cs:423-424 | the new frame becomes current and its outer environment is the old one |
| EnvironmentProps.NewEnvIsEmpty | Interpreter/Evaluator/Environment.cs:15-18 | a fresh environment binds nothing and has no outer environment |
| EnvironmentProps.GetShadows | Interpreter/Evaluator/Environment.cs:22-24 | a binding in the current frame shadows every outer binding |
| EnvironmentProps.GetDelegates | Interpreter/Evaluator/Environment.cs:25-28 | a name the current frame lacks is looked up in the outer environment |
| EnvironmentProps.GetInnermost | Interpreter/Evaluator/Environment.cs:20-30 | the binding found is that of the innermost frame binding the name |
| EnvironmentProps.GetAfterSet | Interpreter/Evaluator/Environment.cs:11 | reading a name back after writing it yields the value written |
| EnvironmentProps.SetLeavesOthers | Interpreter/Evaluator/Environment.cs:11 | a write changes no other name and no outer frame |
| EnvironmentProps.GetAfterPush | Interpreter/Evaluator/Evaluator.cs:423-431 | after a frame is pushed, its names shadow the caller's environment and every other name resolves there |
| Int32.Wrap | Interpreter/Evaluator/Evaluator.cs:261-283 | the wrapped result is congruent to the exact one modulo 2^32 and equals it when it fits |
| Int32.TruncDiv | Interpreter/Evaluator/Evaluator.cs:293 | the remainder is smaller in magnitude than the divisor and has the dividend's sign |
| Int32.Div32 | Interpreter/Evaluator/Evaluator.cs:285-295 | the int32 quotient is the truncated quotient, which fits except for MIN / -1 |
| Int32.ParseInt | Interpreter/Parser/Parser.cs:236-239 | a literal parses exactly when it is a non-empty digit run whose value fits in an int32, and then to that value |
| Int32.ParseIntOfDecimal | Interpreter/Evaluator/EvalInteger.cs:12-15 | the decimal rendering of a non-negative int32 parses back to itself |
| Operators.EvalPrefix | Interpreter/Evaluator/Evaluator.cs:198-208 | `!` and `-` dispatch to their operators, and any other prefix fails as unknown |
| Operators.Bang | Interpreter/Evaluator/Evaluator.cs:210-224 | `!` is defined exactly on booleans, integers and Null, where it yields the negated truthiness |
| Operators.Negate | Interpreter/Evaluator/Evaluator.cs:226-235 | unary minus is defined exactly on integers and negates them modulo 2^32 |
| Operators.EvalInfix | Interpreter/Evaluator/Evaluator.cs:237-259 | arithmetic and comparison need two integers; `==`/`!=` need two integers or two booleans; any other operator fails as unknown |
| Operators.IntegerInfix | Interpreter/Evaluator/Evaluator.cs:261-311 | only `/` fails: by zero, and on MIN / -1 |
| Operators.EvalIndex | Interpreter/Evaluator/Evaluator.cs:470-503 | indexing succeeds exactly on an array with an in-bounds integer or a hash holding the key, and returns that element or value |
| Builtins.BuiltinNamed | Interpreter/Evaluator/Evaluator.cs:27-103 | exactly the six names `len first last rest push print` are built-ins |
| Builtins.CallBuiltin | Interpreter/Evaluator/Evaluator.cs:27-113 | a call with the wrong number of arguments fails with the built-in's own error, and that is the only error a built-in reports |
| BuiltinsProps.LenCounts | Interpreter/Evaluator/Evaluator.cs:27-39 | `len` counts the characters of a string and the elements of an array |
| BuiltinsProps.LenRejectsOthers | Interpreter/Evaluator/Evaluator.cs:27-39 | `len` of anything else fails |
| BuiltinsProps.EmptyArrayEnds | Interpreter/Evaluator/Evaluator.cs:40-81 | on an empty array `first` and `last` yield Null and `rest` an empty array |
| BuiltinsProps.FirstAndRestRebuild | Interpreter/Evaluator/Evaluator.cs:40-81 | the first element followed by the rest rebuilds a non-empty array |
| BuiltinsProps.PushAppends | Interpreter/Evaluator/Evaluator.cs:82-102 | `push` yields the original elements followed by the new one, which `last` returns |
| BuiltinsProps.RestPushCommute | Interpreter/Evaluator/Evaluator.cs:68-102 | on a non-empty array `rest` and `push` commute |
| BuiltinsProps.ArityChecked | Interpreter/Evaluator/Evaluator.cs:27-113 | each built-in rejects a wrong argument count; `print` rejects exactly two and yields Null otherwise |
| BuiltinsProps.ArrayBuiltinsRejectOthers | Interpreter/Evaluator/Evaluator.cs:40-102 | `first`, `last`, `rest` and `push` fail unless their first argument is an array |
| Evaluator.LookupName | Interpreter/Evaluator/Evaluator.cs:369-381 | a name resolves in the environment first, then among the built-ins, and fails exactly when neither has it |
| Evaluator.BindParameters | Interpreter/Evaluator/Evaluator.cs:426-431 | the call frame binds exactly the parameter names |
| Evaluator.Unwrap | Interpreter/Evaluator/Evaluator.cs:398-408 | a value that is not a return signal passes the call unchanged |
| Evaluator.EvalExpr | Interpreter/Evaluator/Evaluator.cs:117-164 | evaluation changes at most the current frame: every outer frame is left as it was |
| Evaluator.EvalExprs | Interpreter/Evaluator/Evaluator.cs:389-397 | argument evaluation yields one value per expression and leaves the outer frames alone |
| Evaluator.EvalPairs | Interpreter/Evaluator/Evaluator.cs:505-517 | building a hash literal changes no outer frame; `EvaluatorProps.HashLiteralKeysDistinct` and `DuplicateKeyOverwrites` state the entries |
| Evaluator.EvalPair | Interpreter/Evaluator/Evaluator.cs:509-513 | evaluating one key, its value and storing the pair changes no outer frame |
| Evaluator.EvalStmt | Interpreter/Evaluator/Evaluator.cs:123-152 | a statement changes at most the current frame; `EvaluatorProps.LetBindsInCurrentFrame` states what `let` binds |
| Evaluator.EvalBlock | Interpreter/Evaluator/Evaluator.cs:182-196 | a block changes at most the current frame; `EvaluatorProps.BlockStopsAtReturn` and `BlockYieldsLastValue` state its value |
| Evaluator.EvalProgram | Interpreter/Evaluator/Evaluator.cs:121-122 | a program changes at most the current frame; `EvaluatorProps.ProgramStopsAtReturn` and `ProgramStep` state its value |
| Evaluator.EvalTopLevel | Interpreter/Evaluator/Evaluator.cs:167-180 | the top-level statement loop changes at most the current frame |
| EvaluatorProps.BlockStopsAtReturn | Interpreter/Evaluator/Evaluator.cs:182-196 | a statement yielding a return signal ends its block, which passes the signal up unopened |
| EvaluatorProps.ProgramStopsAtReturn | Interpreter/Evaluator/Evaluator.cs:167-181 | at the top level a return signal is unwrapped and the program ends |
| EvaluatorProps.BlockYieldsLastValue | Interpreter/Evaluator/Evaluator.cs:182-196 | without a return signal a block's value is that of its last statement, run in the environment the earlier statements left |
| EvaluatorProps.ReturnSkipsRest | Interpreter/Evaluator/Evaluator.cs:167-181 | `return 2 * 5; 9;` yields 10 |
| EvaluatorProps.NestedReturnEscapes | Interpreter/Evaluator/Evaluator.cs:182-196 | a `return` inside nested `if` blocks escapes both blocks and the program |
| EvaluatorProps.FalsyValues | Interpreter/Evaluator/Evaluator.cs:356-367 | exactly Null and false are falsy |
| EvaluatorProps.IfSelectsBranch | Interpreter/Evaluator/Evaluator.cs:340-355 | a truthy condition runs the consequence, a falsy one the alternative, and a falsy one without `else` yields Null |
| EvaluatorProps.ZeroIsTruthy | Interpreter/Evaluator/Evaluator.cs:364-365 | an integer condition is truthy, even zero |
| EvaluatorProps.BangTwice | Interpreter/Evaluator/Evaluator.cs:210-224 | `!` inverts a boolean and `!!` restores it |
| EvaluatorProps.BangFailsOnOthers | Interpreter/Evaluator/Evaluator.cs:210-224 | `!` fails on strings, arrays, hashes and functions |
| EvaluatorProps.NegateMinWraps | Interpreter/Evaluator/Evaluator.cs:226-235 | negating int.MinValue yields int.MinValue |
| EvaluatorProps.ArithmeticWraps | Interpreter/Evaluator/Evaluator.cs:261-283 | `+ - *` yield the exact result when it fits and otherwise the int32 congruent to it |
| EvaluatorProps.AdditionOverflowWraps | Interpreter/Evaluator/Evaluator.cs:261-267 | int.MaxValue + 1 wraps to int.MinValue |
| EvaluatorProps.DivisionTruncates | Interpreter/Evaluator/Evaluator.cs:285-295 | division truncates toward zero: the remainder is smaller than the divisor and takes the dividend's sign |
| EvaluatorProps.DivisionExamples | Interpreter/Evaluator/Evaluator.cs:285-295 | `-7 / 2` is -3, and `3 - 4 / 2` is 1 |
| EvaluatorProps.DivisionFailures | Interpreter/Evaluator/Evaluator.cs:289-292 | division by zero and int.MinValue / -1 are distinct failures |
| EvaluatorProps.EqualityOperators | Interpreter/Evaluator/Evaluator.cs:313-338 | `==` on two integers or two booleans is `Equals`, and `!=` its negation |
| EvaluatorProps.MixedEqualityFails | Interpreter/Evaluator/Evaluator.cs:313-338 | `1 == true` fails |
| EvaluatorProps.ComparisonsMirror | Interpreter/Evaluator/Evaluator.cs:297-311 | `<` and `>` compare integers and swap into each other |
| EvaluatorProps.LetBindsInCurrentFrame | Interpreter/Evaluator/Evaluator.cs:149-152 | `let` yields its value, binds it in the current frame, and changes no outer frame and no other name |
| EvaluatorProps.IdentifierResolution | Interpreter/Evaluator/Evaluator.cs:369-381 | a name resolves to its innermost binding, which shadows a built-in of the same name; an unbound name falls back to the built-ins, and anything else fails |
| EvaluatorProps.ProgramStep | Interpreter/Evaluator/Evaluator.cs:167-181 | each statement of a program runs in the environment the previous one left |
| EvaluatorProps.LetThenUse | Interpreter/Evaluator/Evaluator.cs:149-154 | `let x = 5; x * 2;` yields 10 and leaves `x` bound to 5 |
| EvaluatorProps.BindPositional | Interpreter/Evaluator/Evaluator.cs:426-431 | each parameter is bound to the argument at its position unless a later parameter has the same name |
| EvaluatorProps.LaterDuplicateWins | Interpreter/Evaluator/Evaluator.cs:426-431 | of two parameters with the same name, the later one's argument is bound |
| EvaluatorProps.BindIgnoresSurplus | Interpreter/Evaluator/Evaluator.cs:426-431 | arguments past the last parameter are not bound |
| EvaluatorProps.CallRule | Interpreter/Evaluator/Evaluator.cs:410-434 | a call evaluates the callee, then the arguments, then the body in a frame pushed on the caller's environment, and unwraps a return signal |
| EvaluatorProps.TooFewArgumentsFails | Interpreter/Evaluator/Evaluator.cs:426-431 | a user function given fewer arguments than parameters fails |
| EvaluatorProps.NotCallableFails | Interpreter/Evaluator/Evaluator.cs:467-468 | calling something that is neither a function nor a built-in fails |
| EvaluatorProps.CalleeFailsFirst | Interpreter/Evaluator/Evaluator.cs:413-415 | the callee is evaluated before the arguments, so its failure is the call's |
| EvaluatorProps.FirstArgumentFailsFirst | Interpreter/Evaluator/Evaluator.cs:389-397 | a failing first argument is the failure of the whole list |
| EvaluatorProps.ArgumentsInOrder | Interpreter/Evaluator/Evaluator.cs:389-397 | each argument is evaluated in the environment the previous one left, and the values keep their order |
| EvaluatorProps.FunctionLiteralCapturesNothing | Interpreter/Evaluator/Evaluator.cs:382-387 | a function literal's value is the same whatever the environment |
| EvaluatorProps.DynamicScope | Interpreter/Evaluator/Evaluator.cs:410-434 | a function body sees its caller's bindings: `g` reads the `x` that `h` bound |
| EvaluatorProps.ArrayIndexing | Interpreter/Evaluator/Evaluator.cs:474-489 | array indexing is zero-based and fails past either end |
| EvaluatorProps.IndexOthersFail | Interpreter/Evaluator/Evaluator.cs:502 | indexing anything but an array by an integer or a hash fails |
| EvaluatorProps.IdentityKeysNeverFound | Interpreter/Evaluator/Evaluator.cs:490-500 | an array, hash or function used as an index is never found |
| EvaluatorProps.HashLiteralKeysDistinct | Interpreter/Evaluator/Evaluator.cs:505-517 | building a hash literal keeps its keys distinct |
| EvaluatorProps.DuplicateKeyOverwrites | Interpreter/Evaluator/Evaluator.cs:505-517 | `{"a": 1, "a": 2}` holds one entry, and reading `"a"` yields 2 |
| Interpreter.Run | Interpreter/REPL/REPL.cs:29-36 | a line fails in the lexer or the parser exactly when that stage fails; a successful line yields the parsed program's value in the given environment and changes no outer frame of it |
| Interpreter.Session | Interpreter/REPL/REPL.cs:15-27 | a session prints at most one rendering per line, and a failing line ends it with that line's failure |
| Interpreter.NameTokens | Interpreter/Lexer/Lexer.cs:72-75 | a name that is not a keyword lexes to one identifier token and EOF |
| Interpreter.RunReadsBinding | Interpreter/REPL/REPL.cs:29-36 | a line holding a bound name yields its value and leaves the environment unchanged |
| Interpreter.SessionKeepsBindings | Interpreter/REPL/REPL.cs:19-25 | the lines of a session share one environment: a name bound by one line is read back by the next |
| Interpreter.NumeralOutOfRange | Interpreter/Parser/Parser.cs:236-239 | a numeral too large for an int32 is rejected by the parser |
| Interpreter.RunInspectRoundTrip | Interpreter/Evaluator/EvalInteger.cs:12-15 | running the rendering of a non-negative integer yields that integer |

Model functions without a contract of their own are described by lemma rows:
- `Values.Equals`, `EntriesEqual`, `EntryEquals`: `ValuesProps.EqualsByValue`, `ArrayEqualsNothing`, `ReferencesEqualNothing`, `HashEqualsPairwise`, `EqualsSymmetric`, `HashWithArrayNotSelfEqual`.
- `Values.Inspect`, `InspectElements`, `InspectEntry`: `ValuesProps.InspectIntegerRoundTrip`, `InspectNegativeInteger`, `InspectArrayTrailingComma`, `InspectHashEntries`, `Interpreter.RunInspectRoundTrip`.
- `Ast.RenderExpr`, `RenderPair`, `RenderStmt`, `RenderStmts`, `RenderBlock`, `RenderProgram`: `AstProps.OperatorTreeGroups`, `PrefixGroup`, `InfixGroup`, `ProductInsideSum`, `SumsAssociateLeft`, `NegationBeforeSum`, `NegatedGroup`, `BlockRendering`, `ProgramRendering`.
- `Parser.ParseProgram`, `ProgramLoop`: `ParserLists.ProgramStatements`, `ProgramIsStatements`.
- `Operators.IsTruthy`: `EvaluatorProps.FalsyValues`, `ZeroIsTruthy`.

## Left out

- Console I/O: the REPL's read and print loop, and the text `print` writes. `print` is
  modelled only by its result and its argument-count check.
- The generic delegate dispatch of the built-ins is left out. A built-in is an enumerated
  tag. `EvalBuiltIn.Type`, which throws, is modelled as a missing type tag.
- Object identity:
  - An array key is never found in the source either, not even through the same
    object, because its `Equals` is always false. The model is exact for arrays.
  - Hashes, functions and return signals hash by reference in the source. A function
    or return-signal key is found again through the very same object. A hash key is
    found that way only when its entries are equal to themselves, which is never the
    case when it holds an array (`ValuesProps.HashWithArrayNotSelfEqual`).
  - The model has no references, so such a key is never found.
- The parser keys hash-literal pairs by node identity. They are modelled as an ordered
  list of pairs.
- Two source loops never end, and the model reports an error for each:
  - a string with no closing quote (`Lexer.UnterminatedString`);
  - EOF inside a function parameter list (`Parser.UnterminatedParameters`).
- A NUL character inside the input: the source lexes it as EOF.
  - `Tokenize` stops at the first EOF token.
  - The source parser, which pulls tokens lazily, could read on past it in the places
    where it skips a token unchecked.
- A negative array index: the source's `Count < 0` guard never fires, and the list
  indexer throws its own exception. The model reports `IndexOutOfRange` for it.
- Exceptions become `Result` variants. The model keeps which operation failed, not the
  exception class or its message.
- Evaluator.EvalExpr: evaluation takes `fuel`, which bounds the depth of nested user
  calls. A program that needs more fuel fails with `OutOfFuel`, where the source would
  recurse until its stack runs out.
- Builtins.CallBuiltin: its contract states only the arity failures. What each built-in
  computes is stated in `BuiltinsProps`.
- BuiltinsProps.LenCounts: a length beyond the int32 range, where the source's count
  would wrap, is not covered. A string is a sequence of Unicode scalar values here,
  while C# `Length` counts UTF-16 code units. So `len` of a character outside the Basic
  Multilingual Plane is 1 in the model and 2 in the source.
- LexerProps.OtherCharacterIsIllegal: the source lexer reads UTF-16 code units, so a
  character outside the Basic Multilingual Plane is two ILLEGAL tokens there and one
  here. Parse errors that follow such a character can therefore differ.
- Lexer.NextToken: reads Unicode scalar values, not UTF-16 code units, for the reason
  above.
- Interpreter.Run: the model tokenizes the whole line before parsing, while the source
  parser pulls tokens on demand. On an unterminated string the source lexer never
  returns. When a parse error comes at least two tokens before such a string, the
  source reports the parse error and the model reports a lexer failure.
- Interpreter.Session: the lines are a finite sequence. At end of input the source
  reads an empty line forever.
- Interpreter.Session: the `exit()` test is an ordinal prefix comparison. The source's
  `StartsWith("exit()")` is culture-sensitive and skips ignorable code points, so a
  line such as a soft hyphen followed by `exit()` ends the source session, while the
  model runs that line, which fails to parse.
- The rendering of array literals, `if` and function literals is modelled, but no lemma
  is stated about it.
- The `expressionNode`, `statementNode` and `TokenLiteral` stubs carry no behaviour.

=== FILE: ast.dfy ===
/** The syntax tree the parser builds, and the `ToString` renderings of its nodes. */
module Ast {
  import opened Wrappers
  import Int32
  import opened Text

  datatype Expr =
    | Identifier(name: string)
    | IntegerLiteral(number: Int32.int32)
    | BooleanLiteral(truth: bool)
    | StringLiteral(text: string)
    | ArrayLiteral(elements: seq<Expr>)
      /** Pairs in source order; the source keys them by node identity, so none collide. */
    | HashLiteral(pairs: seq<ExprPair>)
    | PrefixExpr(op: string, right: Expr)
    | InfixExpr(left: Expr, op: string, right: Expr)
    | IfExpr(condition: Expr, consequence: Block, alternative: Option<Block>)
    | FunctionLiteral(params: seq<string>, body: Block)
    | CallExpr(callee: Expr, args: seq<Expr>)
    | IndexExpr(left: Expr, index: Expr)

  datatype ExprPair = ExprPair(key: Expr, value: Expr)

  datatype Stmt =
    | LetStmt(name: string, value: Expr)
    | ReturnStmt(value: Expr)
    | ExprStmt(expr: Expr)

  datatype Block = Block(stmts: seq<Stmt>)

  datatype Program = Program(stmts: seq<Stmt>)

  /** Each node's `ToString`. String literals and index expressions do not override
      it, so they print their class name; an array literal prints a fixed text per
      element instead of the element. */
  function RenderExpr(e: Expr): (r: string)
    decreases e, 1
  {
    match e
    case Identifier(name) => name
    case IntegerLiteral(v) => Int32.Decimal(v as int)
    case BooleanLiteral(b) => if b then "true" else "false"
    case StringLiteral(_) => "Interpreter.Parser.StringLiteral"
    case ArrayLiteral(elements) => "[" + Repeat("elm.ToString(), ", |elements|) + "]"
    case HashLiteral(pairs) => "{" + Join(", ", RenderPairs(pairs)) + "}"
    case PrefixExpr(op, right) => "(" + op + RenderExpr(right) + ")"
    case InfixExpr(left, op, right) => "(" + RenderExpr(left) + " " + op + " " + RenderExpr(right) + ")"
    case IfExpr(c, cons, alt) =>
      "if " + RenderExpr(c) + " " + RenderBlock(cons)
      + (match alt case Some(b) => " else " + RenderBlock(b) case None => "")
    case FunctionLiteral(params, body) => "fn(" + Join(", ", params) + ")" + RenderBlock(body)
    case CallExpr(callee, args) => "(" + RenderExpr(callee) + ")(" + Join(", ", RenderExprs(args)) + ")"
    case IndexExpr(_, _) => "Interpreter.Parser.IndexExpression"
  }

  /** The renderings of the expressions, in order. */
  function RenderExprs(es: seq<Expr>): (r: seq<string>)
    ensures |r| == |es|
    ensures forall k :: 0 <= k < |es| ==> r[k] == RenderExpr(es[k])
    decreases es, 0
  {
    if |es| == 0 then [] else [RenderExpr(es[0])] + RenderExprs(es[1..])
  }

  /** The renderings of the pairs, in order. */
  function RenderPairs(ps: seq<ExprPair>): (r: seq<string>)
    ensures |r| == |ps|
    ensures forall k :: 0 <= k < |ps| ==> r[k] == RenderPair(ps[k])
    decreases ps, 0
  {
    if |ps| == 0 then []
    else [RenderPair(ps[0])] + RenderPairs(ps[1..])
  }

  function RenderPair(p: ExprPair): string
    decreases p, 0
  {
    RenderExpr(p.key) + ": " + RenderExpr(p.value)
  }

  function RenderStmt(s: Stmt): string
    decreases s, 1
  {
    match s
    case LetStmt(name, value) => "let " + name + " = " + RenderExpr(value) + ";"
    case ReturnStmt(value) => "return " + RenderExpr(value) + ";"
    case ExprStmt(e) => RenderExpr(e)
  }

  function RenderStmts(ss: seq<Stmt>): string
    decreases ss, 0
  {
    if |ss| == 0 then "" else RenderStmt(ss[0]) + RenderStmts(ss[1..])
  }

  function RenderBlock(b: Block): string
    decreases b, 2
  {
    "{ " + RenderStmts(b.stmts) + " }"
  }

  /** Every statement followed by a newline. */
  function RenderProgram(p: Program): string {
    Concat(RenderLines(p.stmts))
  }

  /** Each statement's rendering followed by a newline, in order. */
  function RenderLines(ss: seq<Stmt>): (r: seq<string>)
    ensures |r| == |ss|
    ensures forall k :: 0 <= k < |ss| ==> r[k] == RenderStmt(ss[k]) + "\n"
  {
    if |ss| == 0 then [] else [RenderStmt(ss[0]) + "\n"] + RenderLines(ss[1..])
  }
}

=== FILE: ast_props.dfy ===
/** The renderings through which precedence shows: every prefix and infix node is
    parenthesised, so the rendering of a parse spells out its grouping. */
module AstProps {
  import opened Wrappers
  import opened Tokens
  import opened Ast
  import opened Parser
  import ParserProps
  import Text
  import Int32

  // ---------------------------------------------------------------- nesting depth

  /** The change in nesting depth that one character makes. */
  function Step(c: char): int {
    if c == '(' then 1 else if c == ')' then -1 else 0
  }

  /** The nesting depth at the end of `s`, read from depth 0. */
  function Depth(s: string): int
    decreases |s|
  {
    if |s| == 0 then 0 else Step(s[0]) + Depth(s[1..])
  }

  /** Read from depth `d`, `s` never goes below depth `floor`. */
  predicate Above(s: string, d: int, floor: int)
    decreases |s|
  {
    |s| == 0 || (d + Step(s[0]) >= floor && Above(s[1..], d + Step(s[0]), floor))
  }

  /** Read from depth `d`, `s` stays at or above `d` and ends there. */
  predicate Level(s: string, d: int) {
    Depth(s) == 0 && Above(s, d, d)
  }

  /** Every `(` of `s` is closed later in `s`, and no `)` closes nothing. */
  predicate Balanced(s: string) {
    Level(s, 0)
  }

  /** `s` is one parenthesised group: its first `(` is closed by its last character
      and by nothing before it. */
  predicate OneGroup(s: string) {
    2 <= |s| && s[0] == '(' && s[|s| - 1] == ')' && Balanced(s) && Above(s[..|s| - 1], 0, 1)
  }

  predicate ParenFree(s: string) {
    forall k :: 0 <= k < |s| ==> s[k] != '(' && s[k] != ')'
  }

  lemma {:induction false} ParenFreeLevel(s: string, d: int)
    requires ParenFree(s)
    ensures Level(s, d)
    decreases |s|
  {
    if |s| > 0 {
      ParenFreeLevel(s[1..], d);
    }
  }

  lemma {:induction false} ConcatDepth(a: string, b: string)
    ensures Depth(a + b) == Depth(a) + Depth(b)
    decreases |a|
  {
    if |a| == 0 {
      assert a + b == b;
    } else {
      assert (a + b)[1..] == a[1..] + b;
      ConcatDepth(a[1..], b);
    }
  }

  lemma {:induction false} ConcatAbove(a: string, b: string, d: int, floor: int)
    ensures Above(a + b, d, floor) <==> Above(a, d, floor) && Above(b, d + Depth(a), floor)
    decreases |a|
  {
    if |a| == 0 {
      assert a + b == b;
    } else {
      assert (a + b)[0] == a[0] && (a + b)[1..] == a[1..] + b;
      ConcatAbove(a[1..], b, d + Step(a[0]), floor);
    }
  }

  lemma {:induction false} ShiftAbove(s: string, d: int, floor: int, c: int)
    ensures Above(s, d, floor) <==> Above(s, d + c, floor + c)
    decreases |s|
  {
    if |s| > 0 {
      ShiftAbove(s[1..], d + Step(s[0]), floor, c);
    }
  }

  lemma {:induction false} LowerFloor(s: string, d: int, floor: int, lower: int)
    requires lower <= floor && Above(s, d, floor)
    ensures Above(s, d, lower)
    decreases |s|
  {
    if |s| > 0 {
      LowerFloor(s[1..], d + Step(s[0]), floor, lower);
    }
  }

  lemma ConcatLevel(a: string, b: string, d: int)
    requires Level(a, d) && Level(b, d)
    ensures Level(a + b, d)
  {
    ConcatDepth(a, b);
    ConcatAbove(a, b, d, d);
  }

  /** Text that stays level at depth 1 becomes one group inside `(` and `)`. */
  lemma {:induction false} Parenthesised(x: string)
    requires Level(x, 1)
    ensures OneGroup("(" + x + ")")
  {
    var body := "(" + x;
    var s := body + ")";
    ConcatDepth("(", x);
    ConcatAbove("(", x, 0, 1);
    assert Above("(", 0, 1);
    ConcatDepth(body, ")");
    LowerFloor(body, 0, 1, 0);
    ConcatAbove(body, ")", 0, 0);
    assert Above(")", 1, 0);
    assert s[..|s| - 1] == body;
  }

  // ---------------------------------------------------------------- operator trees

  /** Trees of identifiers, integers and booleans under prefix and infix operators,
      where no name or operator spells a parenthesis itself. The lexer's identifiers
      are letters and its operators are symbols other than parentheses. */
  predicate OperatorTree(e: Expr) {
    match e
    case Identifier(name) => ParenFree(name)
    case IntegerLiteral(_) => true
    case BooleanLiteral(_) => true
    case PrefixExpr(op, right) => ParenFree(op) && OperatorTree(right)
    case InfixExpr(left, op, right) => ParenFree(op) && OperatorTree(left) && OperatorTree(right)
    case _ => false
  }

  lemma DecimalParenFree(n: int)
    ensures ParenFree(Int32.Decimal(n))
  {
    var s := Int32.Decimal(n);
    if n < 0 {
      assert s == "-" + Int32.Digits(-n);
      assert forall k :: 1 <= k < |s| ==> s[k] == Int32.Digits(-n)[k - 1];
    }
  }

  /** The rendering of an operator tree is balanced, and a prefix or infix node
      renders as a single parenthesised group. So every operator's operands sit
      inside its own pair of parentheses, and the grouping the parser chose can be
      read off the text. */
  lemma {:induction false} OperatorTreeGroups(e: Expr)
    requires OperatorTree(e)
    ensures Balanced(RenderExpr(e))
    ensures (e.PrefixExpr? || e.InfixExpr?) ==> OneGroup(RenderExpr(e))
  {
    match e
    case Identifier(name) =>
      ParenFreeLevel(name, 0);
    case IntegerLiteral(v) =>
      DecimalParenFree(v as int);
      ParenFreeLevel(Int32.Decimal(v as int), 0);
    case BooleanLiteral(b) =>
      ParenFreeLevel(RenderExpr(e), 0);
    case PrefixExpr(op, right) =>
      OperatorTreeGroups(right);
      PrefixGroup(op, RenderExpr(right));
    case InfixExpr(left, op, right) =>
      OperatorTreeGroups(left);
      OperatorTreeGroups(right);
      InfixGroup(RenderExpr(left), op, RenderExpr(right));
  }

  lemma PrefixGroup(op: string, r: string)
    requires ParenFree(op) && Balanced(r)
    ensures OneGroup("(" + op + r + ")")
  {
    ShiftAbove(r, 0, 0, 1);
    ParenFreeLevel(op, 1);
    ConcatLevel(op, r, 1);
    Parenthesised(op + r);
    assert "(" + op + r + ")" == "(" + (op + r) + ")";
  }

  lemma InfixGroup(l: string, op: string, r: string)
    requires ParenFree(op) && Balanced(l) && Balanced(r)
    ensures OneGroup("(" + l + " " + op + " " + r + ")")
  {
    ShiftAbove(l, 0, 0, 1);
    ShiftAbove(r, 0, 0, 1);
    ParenFreeLevel(" ", 1);
    ParenFreeLevel(op, 1);
    ConcatLevel(l, " ", 1);
    ConcatLevel(l + " ", op, 1);
    ConcatLevel(l + " " + op, " ", 1);
    ConcatLevel(l + " " + op + " ", r, 1);
    Parenthesised(l + " " + op + " " + r);
    assert "(" + l + " " + op + " " + r + ")" == "(" + (l + " " + op + " " + r) + ")";
  }

  /** `a + b * c` renders as `(a + (b * c))`. */
  lemma ProductInsideSum(toks: seq<Token>)
    requires |toks| == 5
    requires toks[0] == Token(Ident, "a") && toks[1] == Token(Plus, "+") && toks[2] == Token(Ident, "b")
    requires toks[3] == Token(Asterisk, "*") && toks[4] == Token(Ident, "c")
    ensures ParseExpression(toks, 0, Lowest).Ok?
    ensures RenderExpr(ParseExpression(toks, 0, Lowest).value.node) == "(a + (b * c))"
  {
    var tree := InfixExpr(Identifier("a"), "+", InfixExpr(Identifier("b"), "*", Identifier("c")));
    ProductTree(toks);
    assert RenderExpr(tree) == "(a + (b * c))";
  }

  lemma ProductTree(toks: seq<Token>)
    requires |toks| == 5
    requires toks[0] == Token(Ident, "a") && toks[1] == Token(Plus, "+") && toks[2] == Token(Ident, "b")
    requires toks[3] == Token(Asterisk, "*") && toks[4] == Token(Ident, "c")
    ensures ParseExpression(toks, 0, Lowest) ==
              Ok(Parsed(InfixExpr(Identifier("a"), "+", InfixExpr(Identifier("b"), "*", Identifier("c"))), 4))
  {
    ParserProps.IdentifierPrefix(toks, 0);
    ParserProps.IdentifierPrefix(toks, 2);
    ParserProps.IdentifierPrefix(toks, 4);
    ParserProps.RightNesting(toks, Lowest, 0, Identifier("a"), 0, Identifier("b"), 2, Identifier("c"), 4);
  }

  /** `a + b + c` renders as `((a + b) + c)`. */
  lemma SumsAssociateLeft(toks: seq<Token>)
    requires |toks| == 5
    requires toks[0] == Token(Ident, "a") && toks[1] == Token(Plus, "+") && toks[2] == Token(Ident, "b")
    requires toks[3] == Token(Plus, "+") && toks[4] == Token(Ident, "c")
    ensures ParseExpression(toks, 0, Lowest).Ok?
    ensures RenderExpr(ParseExpression(toks, 0, Lowest).value.node) == "((a + b) + c)"
  {
    var tree := InfixExpr(InfixExpr(Identifier("a"), "+", Identifier("b")), "+", Identifier("c"));
    SumsTree(toks);
    assert RenderExpr(tree) == "((a + b) + c)";
  }

  lemma SumsTree(toks: seq<Token>)
    requires |toks| == 5
    requires toks[0] == Token(Ident, "a") && toks[1] == Token(Plus, "+") && toks[2] == Token(Ident, "b")
    requires toks[3] == Token(Plus, "+") && toks[4] == Token(Ident, "c")
    ensures ParseExpression(toks, 0, Lowest) ==
              Ok(Parsed(InfixExpr(InfixExpr(Identifier("a"), "+", Identifier("b")), "+", Identifier("c")), 4))
  {
    ParserProps.IdentifierPrefix(toks, 0);
    ParserProps.IdentifierPrefix(toks, 2);
    ParserProps.IdentifierPrefix(toks, 4);
    ParserProps.LeftNesting(toks, Lowest, 0, Identifier("a"), 0, Identifier("b"), 2, Identifier("c"), 4);
  }

  /** `-a + b` renders as `((-a) + b)`. */
  lemma NegationBeforeSum(toks: seq<Token>)
    requires |toks| == 4
    requires toks[0] == Token(Minus, "-") && toks[1] == Token(Ident, "a")
    requires toks[2] == Token(Plus, "+") && toks[3] == Token(Ident, "b")
    ensures ParseExpression(toks, 0, Lowest).Ok?
    ensures RenderExpr(ParseExpression(toks, 0, Lowest).value.node) == "((-a) + b)"
  {
    ParserProps.PrefixBindsTighter(toks);
  }

  /** `-(a + b)` renders as `(-(a + b))`. */
  lemma NegatedGroup(toks: seq<Token>)
    requires |toks| == 6
    requires toks[0] == Token(Minus, "-") && toks[1] == Token(LParen, "(") && toks[2] == Token(Ident, "a")
    requires toks[3] == Token(Plus, "+") && toks[4] == Token(Ident, "b") && toks[5] == Token(RParen, ")")
    ensures ParseExpression(toks, 0, Lowest).Ok?
    ensures RenderExpr(ParseExpression(toks, 0, Lowest).value.node) == "(-(a + b))"
  {
    ParserProps.ParenthesesRegroup(toks);
  }

  /** A block renders its statements back to back between `{ ` and ` }`. */
  lemma BlockRendering(a: Expr, b: Expr)
    ensures RenderBlock(Block([])) == "{  }"
    ensures RenderBlock(Block([ExprStmt(a), ExprStmt(b)])) == "{ " + RenderExpr(a) + RenderExpr(b) + " }"
  {
    var ss := [ExprStmt(a), ExprStmt(b)];
    assert ss[1..] == [ExprStmt(b)] && ss[1..][1..] == [];
    assert RenderStmts(ss[1..]) == RenderExpr(b) + "";
    assert RenderStmts(ss) == RenderExpr(a) + RenderStmts(ss[1..]);
  }

  /** A program renders one statement per line. */
  lemma ProgramRendering(s: Stmt, t: Stmt)
    ensures RenderProgram(Program([s, t])) == RenderStmt(s) + "\n" + RenderStmt(t) + "\n"
  {
    assert RenderLines([s, t]) == [RenderStmt(s) + "\n"] + RenderLines([t]);
    assert RenderLines([t]) == [RenderStmt(t) + "\n"];
    assert Text.Concat([RenderStmt(s) + "\n", RenderStmt(t) + "\n"]) == RenderStmt(s) + "\n" + (RenderStmt(t) + "\n" + "");
  }
}

=== FILE: builtins.dfy ===
/** The built-in functions the evaluator falls back on for names the environment
    does not bind: `len`, `first`, `last`, `rest`, `push` and `print`. */
module Builtins {
  import opened Wrappers
  import opened Int32
  import opened Values
  import opened Operators

  /** The built-in table, keyed by name. */
  function BuiltinNamed(name: string): (r: Option<BuiltinKind>)
    ensures r.Some? <==> name in {"len", "first", "last", "rest", "push", "print"}
  {
    match name
    case "len" => Some(Len)
    case "first" => Some(First)
    case "last" => Some(Last)
    case "rest" => Some(Rest)
    case "push" => Some(Push)
    case "print" => Some(Print)
    case _ => None
  }

  /** The number of arguments each built-in accepts. `print` rejects exactly two
      and accepts every other count. */
  predicate ArityOk(k: BuiltinKind, n: nat) {
    match k
    case Push => n == 2
    case Print => n != 2
    case _ => n == 1
  }

  /** Runs a built-in on already evaluated arguments. The source's `len` returns a
      C# `int` length; a length beyond int32 cannot occur there and wraps here. */
  function CallBuiltin(k: BuiltinKind, args: seq<Value>): (r: Result<Value, RuntimeError>)
    ensures !ArityOk(k, |args|) ==> r == Err(InvalidArguments(k))
    ensures r.Err? ==> r.error == InvalidArguments(k)
  {
    if !ArityOk(k, |args|) then Err(InvalidArguments(k))
    else
      match k
      case Len =>
        (match args[0]
         case Str(s) => Ok(Integer(Wrap(|s|)))
         case Array(es) => Ok(Integer(Wrap(|es|)))
         case _ => Err(InvalidArguments(Len)))
      case First =>
        (match args[0]
         case Array(es) => if |es| <= 0 then Ok(Null) else Ok(es[0])
         case _ => Err(InvalidArguments(First)))
      case Last =>
        (match args[0]
         case Array(es) => if |es| <= 0 then Ok(Null) else Ok(es[|es| - 1])
         case _ => Err(InvalidArguments(Last)))
      case Rest =>
        (match args[0]
         case Array(es) => if |es| <= 1 then Ok(Array([])) else Ok(Array(es[1..]))
         case _ => Err(InvalidArguments(Rest)))
      case Push =>
        (match args[0]
         case Array(es) => Ok(Array(es + [args[1]]))
         case _ => Err(InvalidArguments(Push)))
      case Print =>
        Ok(Null)
  }
}

=== FILE: builtins_props.dfy ===
/** Properties of the built-in functions: what `len` counts, how `first`, `rest`,
    `last` and `push` relate, and which argument counts each one rejects. */
module BuiltinsProps {
  import opened Wrappers
  import opened Int32
  import opened Values
  import opened Operators
  import opened Builtins

  /** `len` counts the characters of a string and the elements of an array. */
  lemma LenCounts(v: Value)
    requires v.Str? || v.Array?
    ensures var n := if v.Str? then |v.text| else |v.elements|;
            n <= MAX ==> CallBuiltin(Len, [v]) == Ok(Integer(n as int32))
  {
  }

  /** `len` of anything else is rejected. */
  lemma LenRejectsOthers(v: Value)
    requires !v.Str? && !v.Array?
    ensures CallBuiltin(Len, [v]) == Err(InvalidArguments(Len))
  {
  }

  /** On an empty array `first` and `last` yield Null and `rest` an empty array. */
  lemma EmptyArrayEnds()
    ensures CallBuiltin(First, [Array([])]) == Ok(Null)
    ensures CallBuiltin(Last, [Array([])]) == Ok(Null)
    ensures CallBuiltin(Rest, [Array([])]) == Ok(Array([]))
  {
  }

  /** `first` and `rest` split a non-empty array: the first element followed by the
      rest is the array again. */
  lemma FirstAndRestRebuild(es: seq<Value>)
    requires 0 < |es|
    ensures var f := CallBuiltin(First, [Array(es)]);
            var r := CallBuiltin(Rest, [Array(es)]);
            f.Ok? && r.Ok? && r.value.Array? && [f.value] + r.value.elements == es
  {
  }

  /** `push` appends: the pushed element is the new last one, the length grows by
      one, and the elements before it are the original array's. */
  lemma PushAppends(es: seq<Value>, x: Value)
    ensures var p := CallBuiltin(Push, [Array(es), x]);
            && p.Ok? && p.value.Array?
            && CallBuiltin(Last, [p.value]) == Ok(x)
            && |p.value.elements| == |es| + 1
            && p.value.elements[..|es|] == es
  {
  }

  /** On a non-empty array, `rest` and `push` commute. */
  lemma RestPushCommute(es: seq<Value>, x: Value)
    requires 0 < |es|
    ensures var pushed := CallBuiltin(Push, [Array(es), x]).value;
            var rested := CallBuiltin(Rest, [Array(es)]).value;
            CallBuiltin(Rest, [pushed]) == CallBuiltin(Push, [rested, x])
  {
    if |es| == 1 {
      assert (es + [x])[1..] == [x];
    } else {
      assert (es + [x])[1..] == es[1..] + [x];
    }
  }

  /** Each built-in rejects a wrong argument count, whatever the arguments; `print`
      rejects exactly two arguments and yields Null for any other count. */
  lemma ArityChecked(k: BuiltinKind, args: seq<Value>)
    ensures k == Print ==> (CallBuiltin(k, args).Err? <==> |args| == 2)
    ensures k == Print && |args| != 2 ==> CallBuiltin(k, args) == Ok(Null)
    ensures k == Push && |args| != 2 ==> CallBuiltin(k, args) == Err(InvalidArguments(Push))
    ensures k != Push && k != Print && |args| != 1 ==> CallBuiltin(k, args) == Err(InvalidArguments(k))
  {
  }

  /** `first`, `last`, `rest` and `push` need an array as their first argument. */
  lemma ArrayBuiltinsRejectOthers(k: BuiltinKind, v: Value, x: Value)
    requires k in {First, Last, Rest, Push} && !v.Array?
    ensures CallBuiltin(k, if k == Push then [v, x] else [v]) == Err(InvalidArguments(k))
  {
  }
}

=== FILE: environment.dfy ===
/** The evaluator's environment: a chain of frames, each a dictionary from names to
    values with an optional outer environment. Nothing in the evaluator ever
    captures an environment, and a call hangs its frame off the caller's, so the
    chain is a stack: the model keeps it as a non-empty sequence of frames, the
    current (innermost) frame last. */
module Environment {
  import opened Wrappers
  import opened Values

  type Frame = map<string, Value>

  type Env = frames: seq<Frame> | 0 < |frames| witness [map[]]

  /** `new Environment()`: one empty frame without an outer environment. */
  function NewEnv(): (env: Env)
    ensures |env| == 1 && env[0] == map[]
  {
    [map[]]
  }

  function Top(env: Env): Frame {
    env[|env| - 1]
  }

  /** The environment `Outer` points to. */
  function Outer(env: Env): seq<Frame> {
    env[..|env| - 1]
  }

  /** A binding anywhere in the chain. */
  predicate BoundIn(frames: seq<Frame>, key: string) {
    exists i :: 0 <= i < |frames| && key in frames[i]
  }

  /** `Get`: the current frame's binding, else the outer environment's answer, else
      nothing (the source's null). */
  function Get(env: Env, key: string): (r: Option<Value>)
    ensures r.Some? <==> BoundIn(env, key)
    decreases |env|
  {
    if key in Top(env) then Some(Top(env)[key])
    else if |env| == 1 then None
    else
      var r := Get(Outer(env), key);
      assert forall i :: 0 <= i < |env| - 1 ==> env[i] == Outer(env)[i];
      r
  }

  /** `Store[key] = value` on the current frame. */
  function Set(env: Env, key: string, value: Value): (r: Env)
    ensures |r| == |env| && Outer(r) == Outer(env)
    ensures Top(r) == Top(env)[key := value]
  {
    Outer(env) + [Top(env)[key := value]]
  }

  /** A new current frame whose outer environment is `env`. */
  function PushFrame(env: Env, frame: Frame): (r: Env)
    ensures |r| == |env| + 1 && Outer(r) == env && Top(r) == frame
  {
    env + [frame]
  }

  /** Two environments agree on every frame but the current one. */
  predicate SameOuter(before: Env, after: Env) {
    |after| == |before| && Outer(after) == Outer(before)
  }
}

=== FILE: environment_props.dfy ===
/** Properties of the frame stack: shadowing, delegation to the outer environment,
    absence, and writes that touch only the current frame. */
module EnvironmentProps {
  import opened Wrappers
  import opened Values
  import opened Environment

  /** A fresh environment binds nothing and has no outer environment. */
  lemma NewEnvIsEmpty(key: string)
    ensures Get(NewEnv(), key) == None
    ensures Outer(NewEnv()) == []
  {
  }

  /** A binding in the current frame shadows every outer binding of the name. */
  lemma GetShadows(env: Env, key: string)
    requires key in Top(env)
    ensures Get(env, key) == Some(Top(env)[key])
  {
  }

  /** A name the current frame does not bind is looked up in the outer environment. */
  lemma GetDelegates(env: Env, key: string)
    requires key !in Top(env) && 1 < |env|
    ensures Get(env, key) == Get(Outer(env), key)
  {
  }

  /** `Get` finds the binding of the innermost frame that binds the name. */
  lemma {:induction false} GetInnermost(env: Env, key: string, i: nat)
    requires i < |env| && key in env[i]
    requires forall j :: i < j < |env| ==> key !in env[j]
    ensures Get(env, key) == Some(env[i][key])
    decreases |env|
  {
    if i < |env| - 1 {
      var outer: Env := Outer(env);
      assert key !in Top(env);
      assert forall j :: i < j < |outer| ==> outer[j] == env[j];
      GetInnermost(outer, key, i);
    }
  }

  /** A write binds the name in the current frame: reading it back yields the value
      written. */
  lemma GetAfterSet(env: Env, key: string, value: Value)
    ensures Get(Set(env, key, value), key) == Some(value)
  {
  }

  /** A write changes no other name and no outer frame. */
  lemma {:induction false} SetLeavesOthers(env: Env, key: string, value: Value, other: string)
    requires other != key
    ensures Get(Set(env, key, value), other) == Get(env, other)
    ensures Outer(Set(env, key, value)) == Outer(env)
  {
    var r := Set(env, key, value);
    if other !in Top(env) && 1 < |env| {
      assert other !in Top(r);
      assert Get(r, other) == Get(Outer(r), other);
    }
  }

  /** After a frame is pushed, its names shadow the enclosing environment and every
      other name is looked up there. */
  lemma GetAfterPush(env: Env, frame: Frame, key: string)
    ensures Get(PushFrame(env, frame), key) == if key in frame then Some(frame[key]) else Get(env, key)
  {
  }
}

=== FILE: evaluator.dfy ===
/** The tree-walking evaluator. The source's environment is mutable and shared;
    here every rule takes the frame stack and returns the stack after it, together
    with the value. Only `let` writes, and only to the current frame, and a call
    evaluates its body on a frame pushed onto the caller's stack and then drops
    it; so evaluation never changes an outer frame (`SameOuter`).
    Evaluation can diverge through user recursion, so it carries fuel, which each
    call of a user function consumes; running out is the separate `OutOfFuel`
    outcome. */
module Evaluator {
  import opened Wrappers
  import opened Ast
  import opened Values
  import opened Environment
  import opened Operators
  import opened Builtins

  /** A value and the environment after computing it. */
  datatype Outcome = Outcome(value: Value, env: Env)

  /** Values of a list of expressions, in order, and the environment after them. */
  datatype Outcomes = Outcomes(values: seq<Value>, env: Env)

  type EvalResult = Result<Outcome, RuntimeError>

  /** `evalIdentifier`: the environment chain first, then the built-in table. */
  function LookupName(env: Env, name: string): (r: Result<Value, RuntimeError>)
    ensures BoundIn(env, name) ==> r == Ok(Get(env, name).value)
    ensures !BoundIn(env, name) && BuiltinNamed(name).Some? ==> r == Ok(Builtin(BuiltinNamed(name).value))
    ensures r.Err? <==> !BoundIn(env, name) && BuiltinNamed(name).None?
    ensures r.Err? ==> r.error == UnboundIdentifier(name)
  {
    match Get(env, name)
    case Some(v) => Ok(v)
    case None =>
      match BuiltinNamed(name)
      case Some(k) => Ok(Builtin(k))
      case None => Err(UnboundIdentifier(name))
  }

  /** The frame of a call: each parameter bound to the argument at its position, a
      later parameter overwriting an earlier one of the same name. Arguments past the
      last parameter are ignored. */
  function BindParameters(params: seq<string>, args: seq<Value>): (frame: Frame)
    requires |params| <= |args|
    ensures frame.Keys == set i | 0 <= i < |params| :: params[i]
  {
    if |params| == 0 then map[]
    else
      var n := |params| - 1;
      BindParameters(params[..n], args)[params[n] := args[n]]
  }

  /** `applyFunction`'s unwrapping: a return signal stops at the call. */
  function Unwrap(v: Value): (r: Value)
    ensures !v.ReturnValue? ==> r == v
  {
    if v.ReturnValue? then v.inner else v
  }

  /** `Eval` on an expression. */
  function EvalExpr(e: Expr, env: Env, fuel: nat): (r: EvalResult)
    ensures r.Ok? ==> SameOuter(env, r.value.env)
    decreases fuel, e
  {
    match e
    case Identifier(name) =>
      var v :- LookupName(env, name);
      Ok(Outcome(v, env))
    case IntegerLiteral(n) => Ok(Outcome(Integer(n), env))
    case BooleanLiteral(b) => Ok(Outcome(Boolean(b), env))
    case StringLiteral(s) => Ok(Outcome(Str(s), env))
    case ArrayLiteral(elements) =>
      var vs :- EvalExprs(elements, env, fuel);
      Ok(Outcome(Array(vs.values), vs.env))
    case HashLiteral(pairs) =>
      var h :- EvalPairs(pairs, [], env, fuel);
      Ok(Outcome(Hash(h.values), h.env))
    case PrefixExpr(op, right) =>
      var o :- EvalExpr(right, env, fuel);
      var v :- EvalPrefix(op, o.value);
      Ok(Outcome(v, o.env))
    case InfixExpr(left, op, right) =>
      var l :- EvalExpr(left, env, fuel);
      var r :- EvalExpr(right, l.env, fuel);
      var v :- EvalInfix(op, l.value, r.value);
      Ok(Outcome(v, r.env))
    case IfExpr(condition, consequence, alternative) =>
      var c :- EvalExpr(condition, env, fuel);
      if IsTruthy(c.value) then EvalBlock(consequence.stmts, c.env, fuel)
      else if alternative.Some? then EvalBlock(alternative.value.stmts, c.env, fuel)
      else Ok(Outcome(Null, c.env))
    case FunctionLiteral(params, body) => Ok(Outcome(Function(params, body), env))
    case CallExpr(callee, args) =>
      var f :- EvalExpr(callee, env, fuel);
      var a :- EvalExprs(args, f.env, fuel);
      var v :- (match f.value
                case Function(params, body) =>
                  if |a.values| < |params| then Err(TooFewArguments(|params|, |a.values|))
                  else if fuel == 0 then Err(OutOfFuel)
                  else
                    var o :- EvalBlock(body.stmts, PushFrame(a.env, BindParameters(params, a.values)), fuel - 1);
                    Ok(Unwrap(o.value))
                case Builtin(k) => CallBuiltin(k, a.values)
                case _ => Err(NotCallable));
      Ok(Outcome(v, a.env))
    case IndexExpr(left, index) =>
      var l :- EvalExpr(left, env, fuel);
      var i :- EvalExpr(index, l.env, fuel);
      var v :- EvalIndex(l.value, i.value);
      Ok(Outcome(v, i.env))
  }

  /** `evalExpressions` and the array literal: left to right, in order. */
  function EvalExprs(es: seq<Expr>, env: Env, fuel: nat): (r: Result<Outcomes, RuntimeError>)
    ensures r.Ok? ==> |r.value.values| == |es| && SameOuter(env, r.value.env)
    decreases fuel, es
  {
    if |es| == 0 then Ok(Outcomes([], env))
    else
      var first :- EvalExpr(es[0], env, fuel);
      var rest :- EvalExprs(es[1..], first.env, fuel);
      Ok(Outcomes([first.value] + rest.values, rest.env))
  }

  /** `evalHashLiteral`: for each pair the key, then the value, stored into the
      entries built so far. */
  function EvalPairs(ps: seq<ExprPair>, acc: seq<Entry>, env: Env, fuel: nat): (r: Result<HashOutcome, RuntimeError>)
    ensures r.Ok? ==> SameOuter(env, r.value.env)
    decreases fuel, ps
  {
    if |ps| == 0 then Ok(HashOutcome(acc, env))
    else
      var h :- EvalPair(ps[0], acc, env, fuel);
      EvalPairs(ps[1..], h.values, h.env, fuel)
  }

  /** One pair of a hash literal: the key, then the value, then the store. */
  function EvalPair(p: ExprPair, acc: seq<Entry>, env: Env, fuel: nat): (r: Result<HashOutcome, RuntimeError>)
    ensures r.Ok? ==> SameOuter(env, r.value.env)
    decreases fuel, p
  {
    var k :- EvalExpr(p.key, env, fuel);
    var v :- EvalExpr(p.value, k.env, fuel);
    Ok(HashOutcome(Insert(acc, k.value, v.value), v.env))
  }

  /** `Eval` on a statement. `let` binds in the current frame and yields the value;
      `return` wraps its value in the return signal. */
  function EvalStmt(s: Stmt, env: Env, fuel: nat): (r: EvalResult)
    ensures r.Ok? ==> SameOuter(env, r.value.env)
    decreases fuel, s
  {
    match s
    case LetStmt(name, value) =>
      var o :- EvalExpr(value, env, fuel);
      Ok(Outcome(o.value, Set(o.env, name, o.value)))
    case ReturnStmt(value) =>
      var o :- EvalExpr(value, env, fuel);
      Ok(Outcome(ReturnValue(o.value), o.env))
    case ExprStmt(e) => EvalExpr(e, env, fuel)
  }

  /** `evalBlockStatement`: the statements in order until one yields a return
      signal, which is passed on still wrapped; an empty block yields Null. */
  function EvalBlock(ss: seq<Stmt>, env: Env, fuel: nat): (r: EvalResult)
    ensures r.Ok? ==> SameOuter(env, r.value.env)
    decreases fuel, ss
  {
    if |ss| == 0 then Ok(Outcome(Null, env))
    else
      var o :- EvalStmt(ss[0], env, fuel);
      if o.value.ReturnValue? || |ss| == 1 then Ok(o)
      else EvalBlock(ss[1..], o.env, fuel)
  }

  /** `evalProgram`: like a block, except that a return signal is unwrapped. */
  function EvalProgram(p: Program, env: Env, fuel: nat): (r: EvalResult)
    ensures r.Ok? ==> SameOuter(env, r.value.env)
  {
    EvalTopLevel(p.stmts, env, fuel)
  }

  function EvalTopLevel(ss: seq<Stmt>, env: Env, fuel: nat): (r: EvalResult)
    ensures r.Ok? ==> SameOuter(env, r.value.env)
  {
    if |ss| == 0 then Ok(Outcome(Null, env))
    else
      var o :- EvalStmt(ss[0], env, fuel);
      if o.value.ReturnValue? then Ok(Outcome(o.value.inner, o.env))
      else if |ss| == 1 then Ok(o)
      else EvalTopLevel(ss[1..], o.env, fuel)
  }

  /** The entries of a hash literal and the environment after building them. */
  datatype HashOutcome = HashOutcome(values: seq<Entry>, env: Env)
}

=== FILE: evaluator_props.dfy ===
/** Properties of the evaluator: return signals, truthiness, operators, `let`,
    name resolution, calls, indexing, hash literals and the built-ins. */
module EvaluatorProps {
  import opened Wrappers
  import opened Int32
  import opened Ast
  import opened Values
  import opened Environment
  import opened Operators
  import opened Builtins
  import opened Evaluator
  import opened ValuesProps
  import opened EnvironmentProps

  // ---------------------------------------------------------------- return signals

  /** A statement that yields a return signal ends its block: the later statements
      are not evaluated and the signal is passed on still wrapped. */
  lemma BlockStopsAtReturn(ss: seq<Stmt>, env: Env, fuel: nat, o: Outcome)
    requires 0 < |ss| && EvalStmt(ss[0], env, fuel) == Ok(o) && o.value.ReturnValue?
    ensures EvalBlock(ss, env, fuel) == Ok(o)
  {
  }

  /** At the top level the return signal is unwrapped and the program ends. */
  lemma ProgramStopsAtReturn(ss: seq<Stmt>, env: Env, fuel: nat, o: Outcome)
    requires 0 < |ss| && EvalStmt(ss[0], env, fuel) == Ok(o) && o.value.ReturnValue?
    ensures EvalProgram(Program(ss), env, fuel) == Ok(Outcome(o.value.inner, o.env))
  {
  }

  /** Without a return signal a block's value is that of its last statement. */
  lemma {:induction false} BlockYieldsLastValue(ss: seq<Stmt>, env: Env, fuel: nat)
    requires 0 < |ss|
    requires EvalBlock(ss, env, fuel).Ok? && !EvalBlock(ss, env, fuel).value.value.ReturnValue?
    ensures EvalBlock(ss, env, fuel) == EvalBlock([ss[|ss| - 1]], LastEnv(ss, env, fuel), fuel)
    decreases |ss|
  {
    if 1 < |ss| {
      var o := EvalStmt(ss[0], env, fuel).value;
      assert ss[1..][|ss[1..]| - 1] == ss[|ss| - 1];
      BlockYieldsLastValue(ss[1..], o.env, fuel);
    }
  }

  /** The environment in which a block's last statement runs. */
  function LastEnv(ss: seq<Stmt>, env: Env, fuel: nat): Env
    requires 0 < |ss|
  {
    if |ss| == 1 then env
    else match EvalStmt(ss[0], env, fuel)
      case Ok(o) => LastEnv(ss[1..], o.env, fuel)
      case Err(_) => env
  }

  /** The rule for an infix expression: the left operand, then the right one in the
      environment the left one left, then the operator. */
  lemma InfixRule(left: Expr, op: string, right: Expr, env: Env, fuel: nat, l: Outcome, r: Outcome, v: Value)
    requires EvalExpr(left, env, fuel) == Ok(l)
    requires EvalExpr(right, l.env, fuel) == Ok(r)
    requires EvalInfix(op, l.value, r.value) == Ok(v)
    ensures EvalExpr(InfixExpr(left, op, right), env, fuel) == Ok(Outcome(v, r.env))
  {
  }

  /** `return 2 * 5; 9;` yields 10. */
  lemma ReturnSkipsRest(env: Env, fuel: nat)
    ensures var p := Program([ReturnStmt(InfixExpr(IntegerLiteral(2), "*", IntegerLiteral(5))),
                              ExprStmt(IntegerLiteral(9))]);
            EvalProgram(p, env, fuel) == Ok(Outcome(Integer(10), env))
  {
    var product := InfixExpr(IntegerLiteral(2), "*", IntegerLiteral(5));
    assert EvalInfix("*", Integer(2), Integer(5)) == Ok(Integer(10)) by {
      assert Wrap(10) == 10;
    }
    InfixRule(IntegerLiteral(2), "*", IntegerLiteral(5), env, fuel,
              Outcome(Integer(2), env), Outcome(Integer(5), env), Integer(10));
    var ss := [ReturnStmt(product), ExprStmt(IntegerLiteral(9))];
    assert EvalStmt(ss[0], env, fuel) == Ok(Outcome(ReturnValue(Integer(10)), env));
    ProgramStopsAtReturn(ss, env, fuel, Outcome(ReturnValue(Integer(10)), env));
  }

  /** A `return` inside nested `if` blocks escapes both blocks and the program:
      `if (10 > 1) { if (10 > 1) { return 10; } return 1; }` yields 10. */
  lemma NestedReturnEscapes(env: Env, fuel: nat)
    ensures var cond := InfixExpr(IntegerLiteral(10), ">", IntegerLiteral(1));
            var inner := IfExpr(cond, Block([ReturnStmt(IntegerLiteral(10))]), None);
            var outer := IfExpr(cond, Block([ExprStmt(inner), ReturnStmt(IntegerLiteral(1))]), None);
            EvalProgram(Program([ExprStmt(outer)]), env, fuel) == Ok(Outcome(Integer(10), env))
  {
    var cond := InfixExpr(IntegerLiteral(10), ">", IntegerLiteral(1));
    InfixRule(IntegerLiteral(10), ">", IntegerLiteral(1), env, fuel,
              Outcome(Integer(10), env), Outcome(Integer(1), env), Boolean(true));
    var signal := Outcome(ReturnValue(Integer(10)), env);
    var innerBlock := [ReturnStmt(IntegerLiteral(10))];
    assert EvalBlock(innerBlock, env, fuel) == Ok(signal) by {
      BlockStopsAtReturn(innerBlock, env, fuel, signal);
    }
    var inner := IfExpr(cond, Block(innerBlock), None);
    IfSelectsBranch(cond, Block(innerBlock), None, env, fuel, Outcome(Boolean(true), env));
    var outerBlock := [ExprStmt(inner), ReturnStmt(IntegerLiteral(1))];
    assert EvalBlock(outerBlock, env, fuel) == Ok(signal) by {
      BlockStopsAtReturn(outerBlock, env, fuel, signal);
    }
    var outer := IfExpr(cond, Block(outerBlock), None);
    IfSelectsBranch(cond, Block(outerBlock), None, env, fuel, Outcome(Boolean(true), env));
    ProgramStopsAtReturn([ExprStmt(outer)], env, fuel, signal);
  }

  // ---------------------------------------------------------------- truthiness and if

  /** Only Null and false are falsy. */
  lemma FalsyValues(v: Value)
    ensures !IsTruthy(v) <==> v == Null || v == Boolean(false)
  {
  }

  /** An `if` runs its consequence on a truthy condition, else its alternative, and
      yields Null when the condition is falsy and there is no alternative. */
  lemma IfSelectsBranch(c: Expr, cons: Block, alt: Option<Block>, env: Env, fuel: nat, o: Outcome)
    requires EvalExpr(c, env, fuel) == Ok(o)
    ensures IsTruthy(o.value) ==> EvalExpr(IfExpr(c, cons, alt), env, fuel) == EvalBlock(cons.stmts, o.env, fuel)
    ensures !IsTruthy(o.value) && alt.Some? ==>
              EvalExpr(IfExpr(c, cons, alt), env, fuel) == EvalBlock(alt.value.stmts, o.env, fuel)
    ensures !IsTruthy(o.value) && alt.None? ==> EvalExpr(IfExpr(c, cons, alt), env, fuel) == Ok(Outcome(Null, o.env))
  {
  }

  /** An integer condition is truthy, even zero: `if (0) { 10 }` yields 10. */
  lemma ZeroIsTruthy(env: Env, fuel: nat)
    ensures EvalExpr(IfExpr(IntegerLiteral(0), Block([ExprStmt(IntegerLiteral(10))]), None), env, fuel)
            == Ok(Outcome(Integer(10), env))
  {
    var ss := [ExprStmt(IntegerLiteral(10))];
    assert EvalStmt(ss[0], env, fuel) == Ok(Outcome(Integer(10), env));
    assert EvalBlock(ss, env, fuel) == Ok(Outcome(Integer(10), env));
    IfSelectsBranch(IntegerLiteral(0), Block(ss), None, env, fuel, Outcome(Integer(0), env));
  }

  // ---------------------------------------------------------------- operators

  /** `!` inverts truthiness where it is defined, and `!!x` restores a Boolean. */
  lemma BangTwice(b: bool)
    ensures EvalPrefix("!", Boolean(b)) == Ok(Boolean(!b))
    ensures EvalPrefix("!", EvalPrefix("!", Boolean(b)).value) == Ok(Boolean(b))
  {
  }

  /** `!` fails on strings, arrays, hashes and functions. */
  lemma BangFailsOnOthers(v: Value)
    requires v.Str? || v.Array? || v.Hash? || v.Function?
    ensures EvalPrefix("!", v).Err?
  {
  }

  /** Unary minus is unchecked: negating int.MinValue yields int.MinValue. */
  lemma NegateMinWraps()
    ensures EvalPrefix("-", Integer(MIN as int32)) == Ok(Integer(MIN as int32))
  {
  }

  /** `+`, `-` and `*` compute the mathematical result when it fits in an int32 and
      otherwise the int32 congruent to it modulo 2^32. */
  lemma {:induction false} ArithmeticWraps(op: string, a: int32, b: int32)
    requires op == "+" || op == "-" || op == "*"
    ensures var exact := if op == "+" then a as int + b as int
                         else if op == "-" then a as int - b as int
                         else a as int * b as int;
            var r := EvalInfix(op, Integer(a), Integer(b));
            && r.Ok? && r.value.Integer?
            && (exact - r.value.number as int) % MODULUS == 0
            && (InRange(exact) ==> r.value.number as int == exact)
  {
    var exact := if op == "+" then a as int + b as int
                 else if op == "-" then a as int - b as int
                 else a as int * b as int;
    assert IntegerInfix(op, a, b) == Ok(Integer(Wrap(exact)));
  }

  /** `int.MaxValue + 1` wraps to `int.MinValue`. */
  lemma AdditionOverflowWraps()
    ensures EvalInfix("+", Integer(MAX as int32), Integer(1)) == Ok(Integer(MIN as int32))
  {
    assert Wrap(MAX + 1) as int == MIN by {
      var m := (MAX + 1 - MIN) % MODULUS;
      assert m == 0;
    }
  }

  /** Division truncates toward zero: the remainder it leaves is smaller than the
      divisor and has the sign of the dividend. */
  lemma {:induction false} DivisionTruncates(a: int32, b: int32)
    requires b != 0 && !(a as int == MIN && b == -1)
    ensures var r := EvalInfix("/", Integer(a), Integer(b));
            && r.Ok? && r.value.Integer?
            && var rem := a as int - r.value.number as int * b as int;
               Abs(rem) < Abs(b as int) && (rem == 0 || (rem < 0 <==> a < 0))
  {
    assert IntegerInfix("/", a, b) == Ok(Integer(Div32(a, b)));
  }

  /** `-7 / 2` is -3, not the Euclidean -4; and `3 - 4 / 2` is 1. */
  lemma DivisionExamples(env: Env, fuel: nat)
    ensures EvalInfix("/", Integer(-7), Integer(2)) == Ok(Integer(-3))
    ensures EvalExpr(InfixExpr(IntegerLiteral(3), "-", InfixExpr(IntegerLiteral(4), "/", IntegerLiteral(2))), env, fuel)
            == Ok(Outcome(Integer(1), env))
  {
    assert Div32(-7, 2) == -3;
    assert EvalInfix("/", Integer(4), Integer(2)) == Ok(Integer(2)) by {
      assert Div32(4, 2) == 2;
    }
    InfixRule(IntegerLiteral(4), "/", IntegerLiteral(2), env, fuel,
              Outcome(Integer(4), env), Outcome(Integer(2), env), Integer(2));
    assert EvalInfix("-", Integer(3), Integer(2)) == Ok(Integer(1)) by {
      assert Wrap(1) == 1;
    }
    InfixRule(IntegerLiteral(3), "-", InfixExpr(IntegerLiteral(4), "/", IntegerLiteral(2)), env, fuel,
              Outcome(Integer(3), env), Outcome(Integer(2), env), Integer(1));
  }

  /** Division by zero and int.MinValue / -1 are distinct failures. */
  lemma DivisionFailures(a: int32)
    ensures EvalInfix("/", Integer(a), Integer(0)) == Err(DivisionByZero)
    ensures EvalInfix("/", Integer(MIN as int32), Integer(-1)) == Err(DivisionOverflow)
  {
  }

  /** `==` on two Integers or two Booleans is the values' `Equals`, and `!=` its
      negation; an Integer never compares with a Boolean. */
  lemma EqualityOperators(l: Value, r: Value)
    requires (l.Integer? && r.Integer?) || (l.Boolean? && r.Boolean?)
    ensures EvalInfix("==", l, r) == Ok(Boolean(Equals(l, r)))
    ensures EvalInfix("!=", l, r) == Ok(Boolean(!Equals(l, r)))
    ensures EvalInfix("==", l, r) == Ok(Boolean(l == r))
  {
    EqualsByValue(l, r);
  }

  /** Mixed operand types fail: `1 == true`. */
  lemma MixedEqualityFails(n: int32, b: bool)
    ensures EvalInfix("==", Integer(n), Boolean(b)) == Err(TypeMismatch("=="))
    ensures EvalInfix("!=", Boolean(b), Integer(n)) == Err(TypeMismatch("!="))
  {
  }

  /** `<` and `>` compare integers and swap into each other. */
  lemma ComparisonsMirror(a: int32, b: int32)
    ensures EvalInfix("<", Integer(a), Integer(b)) == Ok(Boolean(a < b))
    ensures EvalInfix("<", Integer(a), Integer(b)) == EvalInfix(">", Integer(b), Integer(a))
  {
  }

  // ---------------------------------------------------------------- let and names

  /** `let` evaluates its value, binds it in the current frame, yields it, and
      changes no other name and no outer frame. */
  lemma LetBindsInCurrentFrame(name: string, value: Expr, env: Env, fuel: nat, o: Outcome)
    requires EvalExpr(value, env, fuel) == Ok(o)
    ensures var r := EvalStmt(LetStmt(name, value), env, fuel);
            && r.Ok? && r.value.value == o.value
            && Get(r.value.env, name) == Some(o.value)
            && Outer(r.value.env) == Outer(env)
            && forall other :: other != name ==> Get(r.value.env, other) == Get(o.env, other)
  {
    var after := Set(o.env, name, o.value);
    GetAfterSet(o.env, name, o.value);
    forall other | other != name
      ensures Get(after, other) == Get(o.env, other)
    {
      SetLeavesOthers(o.env, name, o.value, other);
    }
  }

  /** A name resolves to its innermost binding, which shadows a built-in of the same
      name; an unbound name falls back to the built-in table; anything else fails. */
  lemma IdentifierResolution(name: string, env: Env, fuel: nat)
    ensures BoundIn(env, name) ==> EvalExpr(Identifier(name), env, fuel) == Ok(Outcome(Get(env, name).value, env))
    ensures !BoundIn(env, name) && BuiltinNamed(name).Some? ==>
              EvalExpr(Identifier(name), env, fuel) == Ok(Outcome(Builtin(BuiltinNamed(name).value), env))
    ensures !BoundIn(env, name) && BuiltinNamed(name).None? ==>
              EvalExpr(Identifier(name), env, fuel) == Err(UnboundIdentifier(name))
  {
  }

  /** A program runs its statements in order, each in the environment the previous
      one left, until one yields a return signal. */
  lemma ProgramStep(ss: seq<Stmt>, env: Env, fuel: nat, o: Outcome)
    requires 1 < |ss| && EvalStmt(ss[0], env, fuel) == Ok(o) && !o.value.ReturnValue?
    ensures EvalProgram(Program(ss), env, fuel) == EvalProgram(Program(ss[1..]), o.env, fuel)
  {
  }

  /** `let x = 5; x * 2;` yields 10 and leaves `x` bound to 5. */
  lemma LetThenUse(env: Env, fuel: nat)
    ensures var p := Program([LetStmt("x", IntegerLiteral(5)),
                              ExprStmt(InfixExpr(Identifier("x"), "*", IntegerLiteral(2)))]);
            var r := EvalProgram(p, env, fuel);
            r.Ok? && r.value.value == Integer(10) && Get(r.value.env, "x") == Some(Integer(5))
  {
    var ss := [LetStmt("x", IntegerLiteral(5)), ExprStmt(InfixExpr(Identifier("x"), "*", IntegerLiteral(2)))];
    LetBindsInCurrentFrame("x", IntegerLiteral(5), env, fuel, Outcome(Integer(5), env));
    var env1 := Set(env, "x", Integer(5));
    assert EvalStmt(ss[0], env, fuel) == Ok(Outcome(Integer(5), env1));
    ProgramStep(ss, env, fuel, Outcome(Integer(5), env1));
    assert EvalInfix("*", Integer(5), Integer(2)) == Ok(Integer(10)) by {
      assert Wrap(10) == 10;
    }
    InfixRule(Identifier("x"), "*", IntegerLiteral(2), env1, fuel,
              Outcome(Integer(5), env1), Outcome(Integer(2), env1), Integer(10));
    assert ss[1..] == [ss[1]];
  }

  // ---------------------------------------------------------------- calls

  /** The frame of a call binds each parameter to the argument at its position,
      unless a later parameter has the same name. */
  lemma {:induction false} BindPositional(params: seq<string>, args: seq<Value>, i: nat)
    requires |params| <= |args| && i < |params|
    requires forall j :: i < j < |params| ==> params[j] != params[i]
    ensures params[i] in BindParameters(params, args)
    ensures BindParameters(params, args)[params[i]] == args[i]
    decreases |params|
  {
    var n := |params| - 1;
    if i < n {
      assert params[..n][i] == params[i];
      BindPositional(params[..n], args, i);
    }
  }

  /** Of two parameters with the same name, the later one's argument is bound:
      `fn(x, x) { x }(1, 2)` sees 2. */
  lemma LaterDuplicateWins(a: Value, b: Value)
    ensures BindParameters(["x", "x"], [a, b]) == map["x" := b]
  {
  }

  /** Arguments past the last parameter are evaluated but not bound. */
  lemma {:induction false} BindIgnoresSurplus(params: seq<string>, args: seq<Value>)
    requires |params| <= |args|
    ensures BindParameters(params, args) == BindParameters(params, args[..|params|])
    decreases |params|
  {
    var n := |params| - 1;
    if 0 < |params| {
      BindIgnoresSurplus(params[..n], args);
      BindIgnoresSurplus(params[..n], args[..|params|]);
      assert args[..|params|][..n] == args[..n];
      assert args[..|params|][n] == args[n];
    }
  }

  /** The rule for calling a user function: callee, then arguments, then the body on
      a new frame over the caller's environment. The call yields the body's value
      with a return signal unwrapped, and the caller's environment is as the
      arguments left it: nothing the body binds survives the call. */
  lemma CallRule(callee: Expr, args: seq<Expr>, env: Env, fuel: nat, f: Outcome, a: Outcomes, o: Outcome)
    requires EvalExpr(callee, env, fuel) == Ok(f) && f.value.Function?
    requires EvalExprs(args, f.env, fuel) == Ok(a)
    requires |f.value.params| <= |a.values| && 0 < fuel
    requires EvalBlock(f.value.body.stmts, PushFrame(a.env, BindParameters(f.value.params, a.values)), fuel - 1) == Ok(o)
    ensures EvalExpr(CallExpr(callee, args), env, fuel) == Ok(Outcome(Unwrap(o.value), a.env))
  {
  }

  /** A call of a user function with fewer arguments than parameters fails once
      callee and arguments are evaluated. */
  lemma TooFewArgumentsFails(callee: Expr, args: seq<Expr>, env: Env, fuel: nat, f: Outcome, a: Outcomes)
    requires EvalExpr(callee, env, fuel) == Ok(f) && f.value.Function?
    requires EvalExprs(args, f.env, fuel) == Ok(a) && |a.values| < |f.value.params|
    ensures EvalExpr(CallExpr(callee, args), env, fuel) == Err(TooFewArguments(|f.value.params|, |a.values|))
  {
  }

  /** A call of a value that is neither a function nor a built-in fails once callee
      and arguments are evaluated. */
  lemma NotCallableFails(callee: Expr, args: seq<Expr>, env: Env, fuel: nat, f: Outcome, a: Outcomes)
    requires EvalExpr(callee, env, fuel) == Ok(f) && !f.value.Function? && !f.value.Builtin?
    requires EvalExprs(args, f.env, fuel) == Ok(a)
    ensures EvalExpr(CallExpr(callee, args), env, fuel) == Err(NotCallable)
  {
  }

  /** The callee is evaluated before the arguments: its failure is the call's. */
  lemma CalleeFailsFirst(callee: Expr, args: seq<Expr>, env: Env, fuel: nat)
    requires EvalExpr(callee, env, fuel).Err?
    ensures EvalExpr(CallExpr(callee, args), env, fuel) == Err(EvalExpr(callee, env, fuel).error)
  {
  }

  /** Arguments are evaluated left to right: a failing first argument is the
      list's failure, whatever the later ones would do. */
  lemma FirstArgumentFailsFirst(es: seq<Expr>, env: Env, fuel: nat)
    requires 0 < |es| && EvalExpr(es[0], env, fuel).Err?
    ensures EvalExprs(es, env, fuel) == Err(EvalExpr(es[0], env, fuel).error)
  {
  }

  /** Arguments are evaluated left to right: each one in the environment the
      previous one left, the first value first. */
  lemma ArgumentsInOrder(es: seq<Expr>, env: Env, fuel: nat, first: Outcome, rest: Outcomes)
    requires 0 < |es| && EvalExpr(es[0], env, fuel) == Ok(first)
    requires EvalExprs(es[1..], first.env, fuel) == Ok(rest)
    ensures EvalExprs(es, env, fuel) == Ok(Outcomes([first.value] + rest.values, rest.env))
    ensures EvalExprs(es, env, fuel).value.values[0] == first.value
  {
  }

  /** A function literal captures no environment: its value is the same wherever
      it is evaluated, and evaluating it changes nothing. */
  lemma FunctionLiteralCapturesNothing(params: seq<string>, body: Block, env1: Env, env2: Env, fuel: nat)
    ensures EvalExpr(FunctionLiteral(params, body), env1, fuel).Ok?
    ensures EvalExpr(FunctionLiteral(params, body), env1, fuel).value.value
            == EvalExpr(FunctionLiteral(params, body), env2, fuel).value.value
    ensures EvalExpr(FunctionLiteral(params, body), env1, fuel).value.env == env1
  {
  }

  /** A one-argument list evaluates to the argument's value. */
  lemma SingleArgument(e: Expr, env: Env, fuel: nat, o: Outcome)
    requires EvalExpr(e, env, fuel) == Ok(o)
    ensures EvalExprs([e], env, fuel) == Ok(Outcomes([o.value], o.env))
  {
    var es := [e];
    assert es[0] == e && es[1..] == [];
    assert EvalExprs(es[1..], o.env, fuel) == Ok(Outcomes([], o.env));
    assert [o.value] + [] == [o.value];
  }

  /** The body `{ x }` of `g` in `DynamicScope`. */
  function ReadX(): Block {
    Block([ExprStmt(Identifier("x"))])
  }

  /** The body `{ g(0) }` of `h` in `DynamicScope`. */
  function CallG(): Block {
    Block([ExprStmt(CallExpr(Identifier("g"), [IntegerLiteral(0)]))])
  }

  /** Wherever `g` and `x` are visible, `g(0)` yields the caller's `x`. */
  lemma CallOfG(env: Env, fuel: nat, x: Value)
    requires 1 <= fuel
    requires Get(env, "g") == Some(Function(["y"], ReadX())) && Get(env, "x") == Some(x) && !x.ReturnValue?
    ensures EvalExpr(CallExpr(Identifier("g"), [IntegerLiteral(0)]), env, fuel) == Ok(Outcome(x, env))
  {
    var gv := Function(["y"], ReadX());
    SingleArgument(IntegerLiteral(0), env, fuel, Outcome(Integer(0), env));
    var frame := BindParameters(["y"], [Integer(0)]);
    assert frame == map["y" := Integer(0)];
    var inner := PushFrame(env, frame);
    GetAfterPush(env, frame, "x");
    assert EvalStmt(ReadX().stmts[0], inner, fuel - 1) == Ok(Outcome(x, inner));
    assert EvalBlock(ReadX().stmts, inner, fuel - 1) == Ok(Outcome(x, inner));
    CallRule(Identifier("g"), [IntegerLiteral(0)], env, fuel,
             Outcome(gv, env), Outcomes([Integer(0)], env), Outcome(x, inner));
  }

  /** Wherever `h` and `g` are visible, `h(5)` yields 5: `h`'s parameter `x` is what
      `g` reads. */
  lemma CallOfH(env: Env, fuel: nat)
    requires 2 <= fuel
    requires Get(env, "h") == Some(Function(["x"], CallG())) && Get(env, "g") == Some(Function(["y"], ReadX()))
    ensures EvalExpr(CallExpr(Identifier("h"), [IntegerLiteral(5)]), env, fuel) == Ok(Outcome(Integer(5), env))
  {
    var hv := Function(["x"], CallG());
    SingleArgument(IntegerLiteral(5), env, fuel, Outcome(Integer(5), env));
    var frame := BindParameters(["x"], [Integer(5)]);
    assert frame == map["x" := Integer(5)];
    var inner := PushFrame(env, frame);
    GetAfterPush(env, frame, "x");
    GetAfterPush(env, frame, "g");
    CallOfG(inner, fuel - 1, Integer(5));
    assert EvalStmt(CallG().stmts[0], inner, fuel - 1) == Ok(Outcome(Integer(5), inner));
    assert EvalBlock(CallG().stmts, inner, fuel - 1) == Ok(Outcome(Integer(5), inner));
    CallRule(Identifier("h"), [IntegerLiteral(5)], env, fuel,
             Outcome(hv, env), Outcomes([Integer(5)], env), Outcome(Integer(5), inner));
  }

  /** Scoping is dynamic: a function body sees the bindings of whoever calls it.
      With `let g = fn(y) { x }; let h = fn(x) { g(0) };` the call `h(5)` yields 5,
      since `g`'s frame hangs off `h`'s frame, which binds `x`; nothing binds `x`
      where `g` was defined. */
  lemma DynamicScope(fuel: nat)
    requires 2 <= fuel
    ensures var p := Program([LetStmt("g", FunctionLiteral(["y"], ReadX())),
                              LetStmt("h", FunctionLiteral(["x"], CallG())),
                              ExprStmt(CallExpr(Identifier("h"), [IntegerLiteral(5)]))]);
            EvalProgram(p, NewEnv(), fuel).Ok? && EvalProgram(p, NewEnv(), fuel).value.value == Integer(5)
  {
    var ss := [LetStmt("g", FunctionLiteral(["y"], ReadX())),
               LetStmt("h", FunctionLiteral(["x"], CallG())),
               ExprStmt(CallExpr(Identifier("h"), [IntegerLiteral(5)]))];
    var env0 := NewEnv();
    var gv := Function(["y"], ReadX());
    var hv := Function(["x"], CallG());
    var env1 := Set(env0, "g", gv);
    var env2 := Set(env1, "h", hv);
    assert EvalStmt(ss[0], env0, fuel) == Ok(Outcome(gv, env1));
    ProgramStep(ss, env0, fuel, Outcome(gv, env1));
    assert EvalStmt(ss[1], env1, fuel) == Ok(Outcome(hv, env2));
    ProgramStep(ss[1..], env1, fuel, Outcome(hv, env2));
    assert ss[1..][1..] == [ss[2]];
    GetAfterSet(env1, "h", hv);
    SetLeavesOthers(env1, "h", hv, "g");
    GetAfterSet(env0, "g", gv);
    CallOfH(env2, fuel);
  }

  // ---------------------------------------------------------------- indexing and hash literals

  /** Array indexing is zero-based and bounds-checked on both sides. */
  lemma ArrayIndexing(a: Value, b: Value, c: Value)
    ensures EvalIndex(Array([a, b, c]), Integer(0)) == Ok(a)
    ensures EvalIndex(Array([a, b, c]), Integer(2)) == Ok(c)
    ensures EvalIndex(Array([a, b, c]), Integer(3)) == Err(IndexOutOfRange(3))
    ensures EvalIndex(Array([a, b, c]), Integer(-1)) == Err(IndexOutOfRange(-1))
  {
  }

  /** Indexing anything but an Array by an Integer or a Hash fails. */
  lemma IndexOthersFail(left: Value, index: Value)
    requires !(left.Array? && index.Integer?) && !left.Hash?
    ensures EvalIndex(left, index) == Err(TypeMismatch("[]"))
  {
  }

  /** An array, hash or function used as an index is never found. An array's
      `Equals` is always false, so no stored key matches it, even the same object.
      A hash or function is hashed by identity: the source would find it only
      through the very reference that was stored, which a value-based model never
      holds. */
  lemma IdentityKeysNeverFound(es: seq<Entry>, probe: Value)
    requires probe.Array? || probe.Hash? || probe.Function?
    ensures EvalIndex(Hash(es), probe) == Err(KeyNotFound)
  {
    forall i | 0 <= i < |es|
      ensures !KeyMatches(es[i].key, probe)
    {
      KeyMatchesIsIdentity(es[i].key, probe);
    }
  }

  /** Building a hash literal keeps its keys distinct: a repeated key overwrites the
      earlier entry instead of adding one. */
  lemma {:induction false} HashLiteralKeysDistinct(ps: seq<ExprPair>, acc: seq<Entry>, env: Env, fuel: nat)
    requires DistinctKeys(acc)
    ensures EvalPairs(ps, acc, env, fuel).Ok? ==> DistinctKeys(EvalPairs(ps, acc, env, fuel).value.values)
    decreases |ps|
  {
    if 0 < |ps| && EvalPair(ps[0], acc, env, fuel).Ok? {
      var h := EvalPair(ps[0], acc, env, fuel).value;
      var k := EvalExpr(ps[0].key, env, fuel).value;
      var v := EvalExpr(ps[0].value, k.env, fuel).value;
      InsertKeepsKeysDistinct(acc, k.value, v.value);
      HashLiteralKeysDistinct(ps[1..], h.values, h.env, fuel);
    }
  }

  /** `{"a": 1, "a": 2}` holds one entry, and `["a"]` on it yields 2. */
  lemma DuplicateKeyOverwrites(env: Env, fuel: nat)
    ensures var lit := HashLiteral([ExprPair(StringLiteral("a"), IntegerLiteral(1)),
                                    ExprPair(StringLiteral("a"), IntegerLiteral(2))]);
            var r := EvalExpr(lit, env, fuel);
            && r == Ok(Outcome(Hash([Entry(Str("a"), Integer(2))]), env))
            && EvalIndex(r.value.value, Str("a")) == Ok(Integer(2))
  {
    var ps := [ExprPair(StringLiteral("a"), IntegerLiteral(1)), ExprPair(StringLiteral("a"), IntegerLiteral(2))];
    var one := [Entry(Str("a"), Integer(1))];
    assert EvalPair(ps[0], [], env, fuel) == Ok(HashOutcome(one, env));
    assert KeyMatches(Str("a"), Str("a"));
    assert Insert(one, Str("a"), Integer(2)) == [Entry(Str("a"), Integer(2))];
    assert EvalPair(ps[1], one, env, fuel) == Ok(HashOutcome([Entry(Str("a"), Integer(2))], env));
    assert ps[1..][1..] == [];
    assert EvalPairs(ps[1..], one, env, fuel) == Ok(HashOutcome([Entry(Str("a"), Integer(2))], env));
  }
}

=== FILE: int32.dfy ===
/** The host integer type of the interpreter: C#'s 32-bit `int`.
    Its arithmetic wraps around, its division truncates toward zero, `int.Parse`
    rejects literals that do not fit and `ToString` prints the decimal value. */
module Int32 {
  import opened Wrappers

  const MIN: int := -0x8000_0000
  const MAX: int := 0x7FFF_FFFF
  const MODULUS: int := 0x1_0000_0000

  newtype int32 = x: int | -0x8000_0000 <= x < 0x8000_0000

  predicate InRange(x: int) {
    MIN <= x <= MAX
  }

  function Abs(x: int): nat {
    if x < 0 then -x else x
  }

  /** Unchecked two's-complement wrap-around: the unique int32 congruent to `x`
      modulo 2^32. */
  function Wrap(x: int): (r: int32)
    ensures InRange(x) ==> r as int == x
    ensures (x - r as int) % MODULUS == 0
  {
    var m := (x - MIN) % MODULUS;
    assert x - (m + MIN) == MODULUS * ((x - MIN) / MODULUS);
    (m + MIN) as int32
  }

  /** C#'s integer division, which truncates toward zero (Dafny's `/` is Euclidean).
      The remainder it leaves is smaller than the divisor and carries the sign of
      the dividend. */
  function TruncDiv(a: int, b: int): (q: int)
    requires b != 0
    ensures Abs(a - q * b) < Abs(b)
    ensures a - q * b == 0 || ((a - q * b < 0) <==> (a < 0))
  {
    var q := if (a < 0) == (b < 0) then Abs(a) / Abs(b) else -(Abs(a) / Abs(b));
    TruncDivRemainder(a, b, q);
    q
  }

  /** The remainder left by truncating division has the dividend's sign and the
      magnitude of the Euclidean remainder of the magnitudes. */
  lemma TruncDivRemainder(a: int, b: int, q: int)
    requires b != 0
    requires q == if (a < 0) == (b < 0) then Abs(a) / Abs(b) else -(Abs(a) / Abs(b))
    ensures a - q * b == (if a < 0 then -(Abs(a) % Abs(b)) else Abs(a) % Abs(b))
  {
    var n, d := Abs(a), Abs(b);
    var q0, r0 := n / d, n % d;
    var x := q0 * d;
    assert n == x + r0;
    SignedProduct(q0, b);
    assert q0 * b == (if b < 0 then -x else x);
    assert (-q0) * b == -(q0 * b);
  }

  /** How a product changes with the sign of either factor. */
  lemma SignedProduct(q: int, b: int)
    ensures q * b == (if b < 0 then -(q * Abs(b)) else q * Abs(b))
    ensures (-q) * b == -(q * b)
  {
  }

  /** The quotient of two int32 values fits in an int32 except for MIN / -1, the one
      case where the CLR raises an overflow instead of wrapping. */
  function Div32(a: int32, b: int32): (q: int32)
    requires b != 0 && !(a as int == MIN && b == -1)
    ensures q as int == TruncDiv(a as int, b as int)
  {
    QuotientBound(a as int, b as int);
    TruncDiv(a as int, b as int) as int32
  }

  /** The truncated quotient is no larger in magnitude than the dividend, and equals
      2^31 only for MIN / -1. */
  lemma QuotientBound(a: int, b: int)
    requires b != 0 && InRange(a) && InRange(b) && !(a == MIN && b == -1)
    ensures InRange(TruncDiv(a, b))
  {
    var n, d := Abs(a), Abs(b);
    var m := n / d;
    QuotientShrinks(n, d);
    assert m <= n;
    if (a < 0) == (b < 0) && n == 0x8000_0000 {
      assert d >= 2;
      assert m <= 0x4000_0000;
    }
  }

  /** Dividing by at least one does not grow a natural number, and dividing by at
      least two halves it. */
  lemma QuotientShrinks(n: nat, d: nat)
    requires d >= 1
    ensures n / d <= n
    ensures d >= 2 ==> n / d <= n / 2
  {
    var m := n / d;
    assert m * d + n % d == n;
    assert m * d <= n;
    ProductGrows(m, d, 1);
    if d >= 2 {
      ProductGrows(m, d, 2);
    }
  }

  lemma ProductGrows(m: nat, d: nat, k: nat)
    requires k <= d
    ensures m * k <= m * d
  {
    assert m * d - m * k == m * (d - k);
  }

  predicate IsDigit(c: char) {
    '0' <= c <= '9'
  }

  predicate AllDigits(s: string) {
    forall i :: 0 <= i < |s| ==> IsDigit(s[i])
  }

  function DigitChar(d: nat): (c: char)
    requires d < 10
    ensures IsDigit(c)
  {
    ('0' as int + d) as char
  }

  function DigitValue(c: char): (d: nat)
    requires IsDigit(c)
    ensures d < 10
  {
    c as int - '0' as int
  }

  /** The number a string of decimal digits denotes, most significant digit first. */
  function DigitsValue(s: string): nat
    requires AllDigits(s)
  {
    if |s| == 0 then 0 else DigitsValue(s[..|s| - 1]) * 10 + DigitValue(s[|s| - 1])
  }

  /** The shortest decimal spelling of a natural number. */
  function Digits(n: nat): (s: string)
    ensures 0 < |s| && AllDigits(s)
    ensures n < 10 <==> |s| == 1
  {
    if n < 10 then [DigitChar(n)] else Digits(n / 10) + [DigitChar(n % 10)]
  }

  /** `int.ToString()`: a minus sign for negative values, then the digits. */
  function Decimal(n: int): (s: string)
    ensures 0 < |s|
    ensures n < 0 <==> s[0] == '-'
  {
    if n < 0 then "-" + Digits(-n) else Digits(n)
  }

  /** `int.Parse` applied to the literal of an integer token: a non-empty run of
      decimal digits, rejected when its value does not fit in an int32. */
  function ParseInt(s: string): (r: Option<int32>)
    ensures r.Some? <==> 0 < |s| && AllDigits(s) && DigitsValue(s) <= MAX
    ensures r.Some? ==> r.value as int == DigitsValue(s)
  {
    if |s| == 0 || !AllDigits(s) then None
    else if DigitsValue(s) > MAX then None
    else Some(DigitsValue(s) as int32)
  }

  /** Reading back the digits of `n` yields `n`. */
  lemma {:induction false} DigitsValueOfDigits(n: nat)
    ensures DigitsValue(Digits(n)) == n
  {
    if n >= 10 {
      var s := Digits(n);
      assert s[..|s| - 1] == Digits(n / 10);
      DigitsValueOfDigits(n / 10);
      assert DigitValue(s[|s| - 1]) == n % 10;
    }
  }

  /** The decimal rendering of a non-negative int32 parses back to itself: an
      integer literal survives a print/parse round trip. */
  lemma ParseIntOfDecimal(n: int)
    requires 0 <= n <= MAX
    ensures ParseInt(Decimal(n)) == Some(n as int32)
  {
    DigitsValueOfDigits(n);
  }
}

=== FILE: interpreter.dfy ===
/** The REPL: each input line is tokenized, parsed and evaluated in the one
    environment the session keeps, and the value's rendering is printed. */
module Interpreter {
  import opened Wrappers
  import opened Int32
  import opened Tokens
  import opened Lexer
  import opened Ast
  import opened Parser
  import opened Values
  import opened Environment
  import opened Operators
  import opened Evaluator
  import LexerProps
  import ParserProps

  datatype Failure =
    | LexFailure(lex: LexError)
    | ParseFailure(parse: ParseError)
    | RuntimeFailure(runtime: RuntimeError)

  /** `interpret`: tokenize, parse and evaluate `input` in `env`; `fuel` bounds the
      depth of user calls. The outcome carries the environment the next line sees. */
  function Run(input: string, env: Env, fuel: nat): (r: Result<Outcome, Failure>)
    ensures r.Err? && r.error.LexFailure? <==> Tokenize(input).Err?
    ensures r.Err? && r.error.ParseFailure? <==>
              Tokenize(input).Ok? && ParseProgram(Tokenize(input).value).Err?
    ensures r.Ok? ==> exists p :: ParseProgram(Tokenize(input).value) == Ok(p)
                                  && EvalProgram(p, env, fuel) == Ok(r.value)
    ensures r.Ok? ==> SameOuter(env, r.value.env)
  {
    match Tokenize(input)
    case Err(e) => Err(LexFailure(e))
    case Ok(toks) =>
      match ParseProgram(toks)
      case Err(e) => Err(ParseFailure(e))
      case Ok(p) =>
        match EvalProgram(p, env, fuel)
        case Err(e) => Err(RuntimeFailure(e))
        case Ok(o) => Ok(o)
  }

  predicate StartsWith(s: string, prefix: string) {
    |prefix| <= |s| && s[..|prefix|] == prefix
  }

  /** What a session prints, one rendering per line run, and the failure that ended
      it, if any. */
  datatype Transcript = Transcript(printed: seq<string>, failure: Option<Failure>)

  /** The REPL loop over `lines`: one environment for the whole session, a line
      starting with `exit()` ends it, and a failing line ends it with its failure
      (the source lets the exception escape `Main`). */
  function Session(lines: seq<string>, env: Env, fuel: nat): (t: Transcript)
    ensures |t.printed| <= |lines|
    ensures t.failure.Some? ==> |t.printed| < |lines|
    ensures |lines| > 0 && !StartsWith(lines[0], "exit()") && Run(lines[0], env, fuel).Err? ==>
              t == Transcript([], Some(Run(lines[0], env, fuel).error))
    decreases |lines|
  {
    if |lines| == 0 || StartsWith(lines[0], "exit()") then
      Transcript([], None)
    else
      match Run(lines[0], env, fuel)
      case Err(f) => Transcript([], Some(f))
      case Ok(o) =>
        var rest := Session(lines[1..], o.env, fuel);
        Transcript([Inspect(o.value)] + rest.printed, rest.failure)
  }

  /** A name that is not a keyword tokenizes to one identifier token followed by EOF. */
  lemma NameTokens(name: string)
    requires 0 < |name| && (forall k :: 0 <= k < |name| ==> IsLetter(name[k])) && !IsKeyword(name)
    ensures Tokenize(name) == Ok([Token(Ident, name), EofToken])
  {
    LexerProps.RescanLetters(name);
    LexerProps.EndOfInputIsEof(name, |name|);
    assert TokenizeFrom(name, |name|) == Ok([EofToken]);
    assert TokenizeFrom(name, 0) == Ok([Token(Ident, name)] + [EofToken]);
    assert [Token(Ident, name)] + [EofToken] == [Token(Ident, name), EofToken];
  }

  /** An identifier token alone is a program of one expression statement. */
  lemma NameProgram(name: string)
    ensures ParseProgram([Token(Ident, name), EofToken]) == Ok(Program([ExprStmt(Identifier(name))]))
  {
    var toks := [Token(Ident, name), EofToken];
    ParserProps.IdentifierExpression(toks, 0, Lowest);
    assert ParseStatement(toks, 0) == Ok(Parsed(ExprStmt(Identifier(name)), 0));
    assert ProgramLoop(toks, 1) == Ok([]);
    assert [ExprStmt(Identifier(name))] + [] == [ExprStmt(Identifier(name))];
    assert ProgramLoop(toks, 0) == Ok([ExprStmt(Identifier(name))]);
  }

  /** The value a program yields when its statement produced `v`: a return signal
      is unwrapped at the top level. */
  function Unwrapped(v: Value): Value {
    if v.ReturnValue? then v.inner else v
  }

  /** A line holding just a name that is bound yields the bound value (a bound
      return signal is unwrapped, as at the end of any program) and leaves the
      environment as it was. */
  lemma RunReadsBinding(name: string, env: Env, fuel: nat)
    requires 0 < |name| && (forall k :: 0 <= k < |name| ==> IsLetter(name[k])) && !IsKeyword(name)
    requires BoundIn(env, name)
    ensures Run(name, env, fuel) == Ok(Outcome(Unwrapped(Get(env, name).value), env))
  {
    NameTokens(name);
    NameProgram(name);
    var ss := [ExprStmt(Identifier(name))];
    assert EvalStmt(ss[0], env, fuel) == Ok(Outcome(Get(env, name).value, env));
    assert EvalTopLevel(ss, env, fuel) == Ok(Outcome(Unwrapped(Get(env, name).value), env));
  }

  /** The session shares one environment between lines: a name the first line
      binds is read back by the next line. */
  lemma SessionKeepsBindings(first: string, name: string, env: Env, fuel: nat, o: Outcome)
    requires !StartsWith(first, "exit()") && Run(first, env, fuel) == Ok(o)
    requires 0 < |name| && (forall k :: 0 <= k < |name| ==> IsLetter(name[k])) && !IsKeyword(name)
    requires BoundIn(o.env, name)
    ensures Session([first, name], env, fuel) ==
              Transcript([Inspect(o.value), Inspect(Unwrapped(Get(o.env, name).value))], None)
  {
    RunReadsBinding(name, o.env, fuel);
    var lines := [first, name];
    assert lines[1..] == [name] && lines[1..][1..] == [];
    assert !StartsWith(name, "exit()") by {
      assert |name| < 6 || name[..6][4] != '(';
    }
    assert Session([name], o.env, fuel) == Transcript([Inspect(Unwrapped(Get(o.env, name).value))] + [], None);
  }

  /** A decimal numeral tokenizes to one integer token followed by EOF. */
  lemma NumeralTokens(digits: string)
    requires 0 < |digits| && AllDigits(digits)
    ensures Tokenize(digits) == Ok([Token(Int, digits), EofToken])
  {
    LexerProps.RescanDigits(digits);
    LexerProps.EndOfInputIsEof(digits, |digits|);
    assert TokenizeFrom(digits, |digits|) == Ok([EofToken]);
    assert TokenizeFrom(digits, 0) == Ok([Token(Int, digits)] + [EofToken]);
    assert [Token(Int, digits)] + [EofToken] == [Token(Int, digits), EofToken];
  }

  /** A numeral that fits in an int32 is a program of one expression statement. */
  lemma NumeralProgram(digits: string, n: int32)
    requires ParseInt(digits) == Some(n)
    ensures ParseProgram([Token(Int, digits), EofToken]) == Ok(Program([ExprStmt(IntegerLiteral(n))]))
  {
    var toks := [Token(Int, digits), EofToken];
    assert Tok(toks, 0).kind == Int;
    assert ParsePrefix(toks, 0) == Ok(Parsed(IntegerLiteral(n), 0));
    assert Peek(toks, 0).kind == Eof;
    ParserProps.PrefixThenStop(toks, 0, Lowest, IntegerLiteral(n), 0);
    assert ParseExpressionStatement(toks, 0) == Ok(Parsed(ExprStmt(IntegerLiteral(n)), 0));
    assert ParseStatement(toks, 0) == Ok(Parsed(ExprStmt(IntegerLiteral(n)), 0));
    assert Tok(toks, 1).kind == Eof;
    assert ProgramLoop(toks, 1) == Ok([]);
    assert Next(toks, 0) == 1;
    assert [ExprStmt(IntegerLiteral(n))] + [] == [ExprStmt(IntegerLiteral(n))];
    assert ProgramLoop(toks, 0) == Ok([ExprStmt(IntegerLiteral(n))]);
  }

  /** A numeral too large for an int32 is rejected by the parser. */
  lemma NumeralOutOfRange(digits: string)
    requires 0 < |digits| && AllDigits(digits) && MAX < DigitsValue(digits)
    ensures forall env: Env, fuel: nat :: Run(digits, env, fuel) == Err(ParseFailure(IntegerOutOfRange(digits)))
  {
    NumeralTokens(digits);
    var toks := [Token(Int, digits), EofToken];
    assert Tok(toks, 0) == Token(Int, digits);
    assert ParseInt(digits).None?;
    assert ParsePrefix(toks, 0) == Err(IntegerOutOfRange(digits));
    assert ParseExpression(toks, 0, Lowest) == Err(IntegerOutOfRange(digits));
    assert ParseExpressionStatement(toks, 0) == Err(IntegerOutOfRange(digits));
    assert ParseStatement(toks, 0) == Err(IntegerOutOfRange(digits));
    assert ProgramLoop(toks, 0) == Err(IntegerOutOfRange(digits));
  }

  /** Running the rendering of a non-negative integer yields that integer: `Inspect`
      and the lex–parse–evaluate round-trip. */
  lemma RunInspectRoundTrip(n: int32, env: Env, fuel: nat)
    requires 0 <= n
    ensures Run(Inspect(Integer(n)), env, fuel) == Ok(Outcome(Integer(n), env))
  {
    var digits := Decimal(n as int);
    ParseIntOfDecimal(n as int);
    NumeralTokens(digits);
    NumeralProgram(digits, n);
    var ss := [ExprStmt(IntegerLiteral(n))];
    assert EvalStmt(ss[0], env, fuel) == Ok(Outcome(Integer(n), env));
  }
}

=== FILE: lexer.dfy ===
/** The character scanner. The source keeps a cursor inside a Lexer object; here the
    cursor is an explicit position and `NextToken` returns the token together with
    the position after it. Positions past the end of the input read as the NUL
    character, exactly like the source's `readChar`. */
module Lexer {
  import opened Wrappers
  import opened Tokens
  import Int32

  /** The source loops forever on a string with no closing quote; the model reports it. */
  datatype LexError = UnterminatedString(start: nat)

  /** A token and the position of the first character after it. */
  datatype Scanned = Scanned(token: Token, next: nat)

  const NUL: char := '\0'

  function CharAt(input: string, pos: nat): char {
    if pos < |input| then input[pos] else NUL
  }

  predicate IsLetter(c: char) {
    'a' <= c <= 'z' || 'A' <= c <= 'Z' || c == '_'
  }

  predicate IsDigit(c: char) {
    Int32.IsDigit(c)
  }

  predicate IsWhitespace(c: char) {
    c == ' ' || c == '\t' || c == '\n' || c == '\r'
  }

  /** The kinds that a single character determines on its own. */
  function SymbolKind(c: char): Option<TokenKind> {
    match c
    case '=' => Some(Assign)
    case ';' => Some(Semicolon)
    case '(' => Some(LParen)
    case ')' => Some(RParen)
    case ',' => Some(Comma)
    case '+' => Some(Plus)
    case '-' => Some(Minus)
    case '*' => Some(Asterisk)
    case '/' => Some(Slash)
    case '!' => Some(Bang)
    case '<' => Some(Less)
    case '>' => Some(Greater)
    case '{' => Some(LBrace)
    case '}' => Some(RBrace)
    case '[' => Some(LBracket)
    case ']' => Some(RBracket)
    case ':' => Some(Colon)
    case _ => None
  }

  predicate IsKeyword(id: string) {
    id in {"fn", "let", "true", "false", "if", "else", "return"}
  }

  function LookupKeyword(id: string): (k: TokenKind)
    ensures k == Ident <==> !IsKeyword(id)
  {
    match id
    case "fn" => FunctionKw
    case "let" => LetKw
    case "true" => TrueKw
    case "false" => FalseKw
    case "if" => IfKw
    case "else" => ElseKw
    case "return" => ReturnKw
    case _ => Ident
  }

  /** The first position at or after `pos` that does not hold whitespace. */
  function SkipWhitespace(input: string, pos: nat): (p: nat)
    ensures pos <= p
    ensures forall k :: pos <= k < p ==> IsWhitespace(CharAt(input, k))
    ensures !IsWhitespace(CharAt(input, p))
    decreases |input| - pos
  {
    if IsWhitespace(CharAt(input, pos)) then SkipWhitespace(input, pos + 1) else pos
  }

  /** The end of the maximal run of characters of a class starting at `pos`. */
  function RunEnd(input: string, pos: nat, inClass: char -> bool): (end: nat)
    requires pos <= |input|
    ensures pos <= end <= |input|
    ensures forall k :: pos <= k < end ==> inClass(input[k])
    ensures end == |input| || !inClass(input[end])
    decreases |input| - pos
  {
    if pos < |input| && inClass(input[pos]) then RunEnd(input, pos + 1, inClass) else pos
  }

  /** The first double quote at or after `pos`, if any. */
  function FindQuote(input: string, pos: nat): (r: Option<nat>)
    requires pos <= |input|
    ensures r.Some? ==> pos <= r.value < |input| && input[r.value] == '"'
    ensures r.Some? ==> forall k :: pos <= k < r.value ==> input[k] != '"'
    ensures r.None? ==> forall k :: pos <= k < |input| ==> input[k] != '"'
    decreases |input| - pos
  {
    if pos == |input| then None
    else if input[pos] == '"' then Some(pos)
    else FindQuote(input, pos + 1)
  }

  /** Skips whitespace, then reads one token: a symbol (taking `==` and `!=` by
      longest match), EOF at the end of input or at a NUL character, an identifier
      or keyword, a digit run, a quoted string, or an ILLEGAL token for anything else. */
  function NextToken(input: string, pos: nat): (r: Result<Scanned, LexError>)
    ensures r.Ok? ==> pos < r.value.next
    ensures r.Ok? && r.value.token.kind != Eof ==> r.value.next <= |input|
  {
    var p := SkipWhitespace(input, pos);
    var c := CharAt(input, p);
    match SymbolKind(c)
    case Some(kind) =>
      if kind == Bang && CharAt(input, p + 1) == '=' then
        Ok(Scanned(Token(NotEq, "!="), p + 2))
      else if kind == Assign && CharAt(input, p + 1) == '=' then
        Ok(Scanned(Token(Eq, "=="), p + 2))
      else
        Ok(Scanned(Token(kind, [c]), p + 1))
    case None =>
      if c == NUL then
        Ok(Scanned(EofToken, p + 1))
      else if IsLetter(c) then
        var end := RunEnd(input, p, IsLetter);
        var id := input[p..end];
        Ok(Scanned(Token(LookupKeyword(id), id), end))
      else if IsDigit(c) then
        var end := RunEnd(input, p, IsDigit);
        Ok(Scanned(Token(Int, input[p..end]), end))
      else if c == '"' then
        match FindQuote(input, p + 1)
        case None => Err(UnterminatedString(p))
        case Some(q) => Ok(Scanned(Token(Str, input[p + 1..q]), q + 1))
      else
        Ok(Scanned(Token(Illegal, ""), p + 1))
  }

  /** All tokens from `pos` up to and including the first EOF token. */
  function TokenizeFrom(input: string, pos: nat): (r: Result<seq<Token>, LexError>)
    requires pos <= |input|
    ensures r.Ok? ==> 0 < |r.value| && r.value[|r.value| - 1].kind == Eof
    decreases |input| - pos
  {
    var s :- NextToken(input, pos);
    if s.token.kind == Eof then
      Ok([s.token])
    else
      var rest :- TokenizeFrom(input, s.next);
      Ok([s.token] + rest)
  }

  function Tokenize(input: string): (r: Result<seq<Token>, LexError>)
    ensures r.Ok? ==> 0 < |r.value| && r.value[|r.value| - 1].kind == Eof
  {
    TokenizeFrom(input, 0)
  }
}

=== FILE: lexer_props.dfy ===
/** Properties of the scanner: what each kind of token consumes and carries. */
module LexerProps {
  import opened Wrappers
  import opened Tokens
  import opened Lexer

  /** Every single-character symbol yields its own kind with the character as its
      literal and consumes exactly that character, unless it is an `=` or `!` that
      starts `==` or `!=`. */
  lemma SingleCharSymbol(input: string, pos: nat)
    requires pos < |input| && SymbolKind(input[pos]).Some?
    requires input[pos] in "=!" ==> CharAt(input, pos + 1) != '='
    ensures NextToken(input, pos) ==
            Ok(Scanned(Token(SymbolKind(input[pos]).value, [input[pos]]), pos + 1))
  {
  }

  /** `==` and `!=` are read by longest match. */
  lemma TwoCharOperators(input: string, pos: nat)
    requires pos + 1 < |input| && input[pos + 1] == '='
    ensures input[pos] == '=' ==> NextToken(input, pos) == Ok(Scanned(Token(Eq, "=="), pos + 2))
    ensures input[pos] == '!' ==> NextToken(input, pos) == Ok(Scanned(Token(NotEq, "!="), pos + 2))
  {
  }

  /** An identifier token is the maximal run of letters starting at `pos`; it is a
      keyword kind exactly when that run spells a keyword. */
  lemma IdentifierIsMaximalRun(input: string, pos: nat)
    requires pos < |input| && IsLetter(input[pos])
    ensures NextToken(input, pos).Ok?
    ensures var s := NextToken(input, pos).value;
            && pos < s.next <= |input|
            && s.token.literal == input[pos..s.next]
            && (forall k :: pos <= k < s.next ==> IsLetter(input[k]))
            && !IsLetter(CharAt(input, s.next))
            && (s.token.kind == Ident <==> !IsKeyword(s.token.literal))
  {
  }

  /** An integer token is the maximal run of digits starting at `pos`. */
  lemma IntegerIsMaximalRun(input: string, pos: nat)
    requires pos < |input| && IsDigit(input[pos])
    ensures NextToken(input, pos).Ok?
    ensures var s := NextToken(input, pos).value;
            && s.token.kind == Int
            && pos < s.next <= |input|
            && s.token.literal == input[pos..s.next]
            && (forall k :: pos <= k < s.next ==> IsDigit(input[k]))
            && !IsDigit(CharAt(input, s.next))
  {
  }

  /** A string token carries the text strictly between its quotes, with no escape
      processing, and consumes both quotes; without a closing quote scanning fails. */
  lemma StringBetweenQuotes(input: string, pos: nat)
    requires pos < |input| && input[pos] == '"'
    ensures NextToken(input, pos).Ok? <==> '"' in input[pos + 1..]
    ensures NextToken(input, pos).Ok? ==>
            var s := NextToken(input, pos).value;
            && s.token.kind == Str
            && pos + 2 <= s.next <= |input|
            && input[s.next - 1] == '"'
            && s.token.literal == input[pos + 1..s.next - 1]
            && '"' !in s.token.literal
  {
    var r := FindQuote(input, pos + 1);
    if r.Some? {
      assert input[pos + 1..][r.value - pos - 1] == '"';
      var lit := input[pos + 1..r.value];
      forall k | 0 <= k < |lit| ensures lit[k] != '"' {
        assert lit[k] == input[pos + 1 + k];
      }
    } else {
      var tail := input[pos + 1..];
      forall k | 0 <= k < |tail| ensures tail[k] != '"' {
        assert tail[k] == input[pos + 1 + k];
      }
    }
  }

  /** Whitespace before a token is skipped. */
  lemma WhitespaceIsSkipped(input: string, pos: nat)
    requires IsWhitespace(CharAt(input, pos))
    ensures NextToken(input, pos) == NextToken(input, pos + 1)
  {
  }

  /** At the end of the input the scanner yields EOF with an empty literal. */
  lemma EndOfInputIsEof(input: string, pos: nat)
    requires |input| <= pos
    ensures NextToken(input, pos) == Ok(Scanned(EofToken, pos + 1))
  {
  }

  /** Any other character yields an ILLEGAL token with an empty literal and consumes
      exactly that character. */
  lemma OtherCharacterIsIllegal(input: string, pos: nat)
    requires pos < |input|
    requires var c := input[pos];
             SymbolKind(c).None? && !IsWhitespace(c) && !IsLetter(c) && !IsDigit(c)
             && c != '"' && c != NUL
    ensures NextToken(input, pos) == Ok(Scanned(Token(Illegal, ""), pos + 1))
  {
  }

  /** The source text a token stands for: its literal, quoted for strings. */
  function Spelling(t: Token): string {
    if t.kind == Str then "\"" + t.literal + "\"" else t.literal
  }

  /** A run of letters is read back as one identifier or keyword token. */
  lemma RescanLetters(id: string)
    requires 0 < |id| && forall k :: 0 <= k < |id| ==> IsLetter(id[k])
    ensures NextToken(id, 0) == Ok(Scanned(Token(LookupKeyword(id), id), |id|))
  {
    var c := id[0];
    assert IsLetter(c);
    assert SymbolKind(c).None? && c != NUL && !IsWhitespace(c);
    assert SkipWhitespace(id, 0) == 0;
    assert RunEnd(id, 0, IsLetter) == |id|;
    assert id[0..|id|] == id;
  }

  /** A run of digits is read back as one integer token. */
  lemma RescanDigits(digits: string)
    requires 0 < |digits| && forall k :: 0 <= k < |digits| ==> IsDigit(digits[k])
    ensures NextToken(digits, 0) == Ok(Scanned(Token(Int, digits), |digits|))
  {
    var c := digits[0];
    assert IsDigit(c);
    assert SymbolKind(c).None? && c != NUL && !IsWhitespace(c) && !IsLetter(c);
    assert SkipWhitespace(digits, 0) == 0;
    assert RunEnd(digits, 0, IsDigit) == |digits|;
    assert digits[0..|digits|] == digits;
  }

  /** The quote search stops at the first quote. */
  lemma {:induction false} FindQuoteFirst(input: string, pos: nat, q: nat)
    requires pos <= q < |input| && input[q] == '"'
    requires forall k :: pos <= k < q ==> input[k] != '"'
    ensures FindQuote(input, pos) == Some(q)
    decreases q - pos
  {
    if pos < q {
      FindQuoteFirst(input, pos + 1, q);
    }
  }

  /** Quoted text without an inner quote is read back as one string token. */
  lemma RescanQuoted(text: string)
    requires '"' !in text
    ensures var sp := "\"" + text + "\"";
            NextToken(sp, 0) == Ok(Scanned(Token(Str, text), |sp|))
  {
    var sp := "\"" + text + "\"";
    assert SkipWhitespace(sp, 0) == 0;
    assert forall k :: 1 <= k < |sp| - 1 ==> sp[k] == text[k - 1];
    FindQuoteFirst(sp, 1, |sp| - 1);
    assert sp[1..|sp| - 1] == text;
  }

  /** The kinds whose spelling is a run of letters. */
  predicate IsWordKind(k: TokenKind) {
    k in {Ident, FunctionKw, LetKw, TrueKw, FalseKw, IfKw, ElseKw, ReturnKw}
  }

  /** The shape of every token the scanner can produce apart from EOF and ILLEGAL:
      a word spelled by letters whose kind is its keyword lookup, a digit run, a
      quote-free string, `==`, `!=`, or one symbol character of its own kind. */
  predicate WellFormed(t: Token) {
    if IsWordKind(t.kind) then
      0 < |t.literal| && (forall k :: 0 <= k < |t.literal| ==> IsLetter(t.literal[k]))
      && LookupKeyword(t.literal) == t.kind
    else if t.kind == Int then
      0 < |t.literal| && forall k :: 0 <= k < |t.literal| ==> IsDigit(t.literal[k])
    else if t.kind == Str then
      '"' !in t.literal
    else if t.kind == Eq then
      t.literal == "=="
    else if t.kind == NotEq then
      t.literal == "!="
    else
      |t.literal| == 1 && SymbolKind(t.literal[0]) == Some(t.kind)
  }

  /** Whitespace skipping is idempotent, so scanning may start at the first
      non-blank character. */
  lemma ScanFromFirstNonBlank(input: string, pos: nat)
    ensures NextToken(input, pos) == NextToken(input, SkipWhitespace(input, pos))
  {
    var p := SkipWhitespace(input, pos);
    assert SkipWhitespace(input, p) == p;
  }

  /** The kinds a single character determines are punctuation and operators only. */
  lemma SymbolKindIsPunctuation(c: char)
    requires SymbolKind(c).Some?
    ensures var k := SymbolKind(c).value;
            !IsWordKind(k) && k !in {Int, Str, Eq, NotEq, Eof, Illegal}
  {
  }

  /** A symbol character yields a well-formed symbol, `==` or `!=` token. */
  lemma SymbolTokenWellFormed(input: string, p: nat)
    requires SymbolKind(CharAt(input, p)).Some?
    ensures NextToken(input, p).Ok? && WellFormed(NextToken(input, p).value.token)
  {
    var c := CharAt(input, p);
    SymbolKindIsPunctuation(c);
    if c in "=!" && CharAt(input, p + 1) == '=' {
      TwoCharOperators(input, p);
    } else {
      SingleCharSymbol(input, p);
      assert [c][0] == c;
    }
  }

  /** Every token the scanner produces, apart from EOF and ILLEGAL, is well formed. */
  lemma ScannedTokenWellFormed(input: string, pos: nat)
    requires NextToken(input, pos).Ok?
    requires NextToken(input, pos).value.token.kind !in {Eof, Illegal}
    ensures WellFormed(NextToken(input, pos).value.token)
  {
    var p := SkipWhitespace(input, pos);
    var c := CharAt(input, p);
    ScanFromFirstNonBlank(input, pos);
    if SymbolKind(c).Some? {
      SymbolTokenWellFormed(input, p);
    } else if IsLetter(c) {
      IdentifierIsMaximalRun(input, p);
    } else if IsDigit(c) {
      IntegerIsMaximalRun(input, p);
    } else if c == '"' {
      StringBetweenQuotes(input, p);
    } else {
      assert false;
    }
  }

  /** A one-character symbol is read back from its own spelling. */
  lemma RescanSymbol(t: Token)
    requires |t.literal| == 1 && SymbolKind(t.literal[0]) == Some(t.kind)
    ensures NextToken(t.literal, 0) == Ok(Scanned(t, 1))
  {
    assert !IsWhitespace(t.literal[0]);
    assert SkipWhitespace(t.literal, 0) == 0;
    assert t.literal == [t.literal[0]];
  }

  /** Every well-formed token is read back unchanged from its spelling, which it
      consumes completely. */
  lemma RescanWellFormed(t: Token)
    requires WellFormed(t)
    ensures NextToken(Spelling(t), 0) == Ok(Scanned(t, |Spelling(t)|))
  {
    if IsWordKind(t.kind) {
      RescanLetters(t.literal);
    } else if t.kind == Int {
      RescanDigits(t.literal);
    } else if t.kind == Str {
      RescanQuoted(t.literal);
    } else if t.kind == Eq || t.kind == NotEq {
      assert SkipWhitespace(t.literal, 0) == 0;
    } else {
      RescanSymbol(t);
    }
  }

  /** Every token the scanner produces, apart from EOF and ILLEGAL, is read back
      unchanged from its own spelling, which it consumes completely. */
  lemma RescanSpelling(input: string, pos: nat)
    requires NextToken(input, pos).Ok?
    requires NextToken(input, pos).value.token.kind !in {Eof, Illegal}
    ensures var t := NextToken(input, pos).value.token;
            NextToken(Spelling(t), 0) == Ok(Scanned(t, |Spelling(t)|))
  {
    ScannedTokenWellFormed(input, pos);
    RescanWellFormed(NextToken(input, pos).value.token);
  }

  /** Only the last token of a token stream is EOF. */
  lemma {:induction false} OnlyLastTokenIsEof(input: string, pos: nat)
    requires pos <= |input| && TokenizeFrom(input, pos).Ok?
    ensures var toks := TokenizeFrom(input, pos).value;
            forall i :: 0 <= i < |toks| - 1 ==> toks[i].kind != Eof
    decreases |input| - pos
  {
    var s := NextToken(input, pos).value;
    if s.token.kind != Eof {
      OnlyLastTokenIsEof(input, s.next);
      var rest := TokenizeFrom(input, s.next).value;
      var toks := TokenizeFrom(input, pos).value;
      assert toks == [s.token] + rest;
      forall i | 0 <= i < |toks| - 1 ensures toks[i].kind != Eof {
        if i > 0 {
          assert toks[i] == rest[i - 1];
        }
      }
    }
  }
}

=== FILE: operators.dfy ===
/** The evaluator's operators on values: truthiness, the prefix operators `!` and
    `-`, the eight infix operators, and indexing. Every exception the source
    throws from these helpers is a `RuntimeError`. */
module Operators {
  import opened Wrappers
  import opened Int32
  import opened Values

  datatype RuntimeError =
      /** An operator applied to operands of the wrong types. */
    | TypeMismatch(op: string)
      /** An operator the evaluator has no case for. */
    | UnknownOperator(op: string)
      /** `DivideByZeroException`. */
    | DivisionByZero
      /** The CLR's `OverflowException` for int.MinValue / -1. */
    | DivisionOverflow
      /** An identifier bound neither in the environment nor as a built-in. */
    | UnboundIdentifier(name: string)
      /** A call of something that is neither a function nor a built-in. */
    | NotCallable
      /** A call with fewer arguments than the function has parameters. */
    | TooFewArguments(expected: nat, given: nat)
      /** An array index outside the array. */
    | IndexOutOfRange(index: int)
      /** A hash lookup for a key the hash does not hold. */
    | KeyNotFound
      /** A built-in called with the wrong number or kinds of arguments. */
    | InvalidArguments(builtin: BuiltinKind)
      /** The evaluation needed more nested calls than the fuel allowed. */
    | OutOfFuel

  /** `isTruthy`: Null and false are falsy, everything else is truthy. */
  predicate IsTruthy(v: Value) {
    match v
    case Null => false
    case Boolean(b) => b
    case _ => true
  }

  /** `evalPrefixExpression`. */
  function EvalPrefix(op: string, v: Value): (r: Result<Value, RuntimeError>)
    ensures op == "!" ==> r == Bang(v)
    ensures op == "-" ==> r == Negate(v)
    ensures op != "!" && op != "-" ==> r == Err(UnknownOperator(op))
  {
    if op == "!" then Bang(v)
    else if op == "-" then Negate(v)
    else Err(UnknownOperator(op))
  }

  /** `evalBangOperatorExpression`: defined on Booleans, Integers and Null, where it
      is the negation of truthiness. */
  function Bang(v: Value): (r: Result<Value, RuntimeError>)
    ensures r.Ok? <==> v.Boolean? || v.Integer? || v.Null?
    ensures r.Ok? ==> r.value == Boolean(!IsTruthy(v))
    ensures r.Err? ==> r.error == TypeMismatch("!")
  {
    match v
    case Boolean(b) => Ok(Boolean(!b))
    case Integer(_) => Ok(Boolean(false))
    case Null => Ok(Boolean(true))
    case _ => Err(TypeMismatch("!"))
  }

  /** `evalMinusOperatorExpression`: unchecked negation, so -MIN is MIN again. */
  function Negate(v: Value): (r: Result<Value, RuntimeError>)
    ensures r.Ok? <==> v.Integer?
    ensures r.Ok? ==> r.value.Integer? && (r.value.number as int + v.number as int) % MODULUS == 0
    ensures r.Ok? && v.number as int != MIN ==> r.value.number as int == -(v.number as int)
    ensures r.Err? ==> r.error == TypeMismatch("-")
  {
    match v
    case Integer(n) => Ok(Integer(Wrap(-(n as int))))
    case _ => Err(TypeMismatch("-"))
  }

  predicate IsArithmetic(op: string) {
    op == "+" || op == "-" || op == "*" || op == "/"
  }

  predicate IsComparison(op: string) {
    op == "<" || op == ">"
  }

  predicate IsEquality(op: string) {
    op == "==" || op == "!="
  }

  /** `evalInfixExpression`. Arithmetic and comparisons need two Integers; `==` and
      `!=` accept two Integers or two Booleans. `+ - *` wrap around, `/` truncates
      toward zero and fails on a zero divisor and on MIN / -1. */
  function EvalInfix(op: string, left: Value, right: Value): (r: Result<Value, RuntimeError>)
    ensures !IsArithmetic(op) && !IsComparison(op) && !IsEquality(op) ==> r == Err(UnknownOperator(op))
    ensures (IsArithmetic(op) || IsComparison(op)) && !(left.Integer? && right.Integer?) ==>
              r == Err(TypeMismatch(op))
    ensures IsEquality(op) ==>
              (r.Ok? <==> (left.Integer? && right.Integer?) || (left.Boolean? && right.Boolean?))
  {
    if IsArithmetic(op) || IsComparison(op) then
      if left.Integer? && right.Integer? then IntegerInfix(op, left.number, right.number)
      else Err(TypeMismatch(op))
    else if IsEquality(op) then
      if (left.Integer? && right.Integer?) || (left.Boolean? && right.Boolean?) then
        var same := if left.Integer? then left.number == right.number else left.truth == right.truth;
        Ok(Boolean(if op == "==" then same else !same))
      else Err(TypeMismatch(op))
    else Err(UnknownOperator(op))
  }

  /** The integer operators. */
  function IntegerInfix(op: string, a: int32, b: int32): (r: Result<Value, RuntimeError>)
    requires IsArithmetic(op) || IsComparison(op)
    ensures r.Err? <==> op == "/" && (b == 0 || (a as int == MIN && b == -1))
    ensures r.Err? ==> r.error == (if b == 0 then DivisionByZero else DivisionOverflow)
    ensures r.Ok? && IsArithmetic(op) ==> r.value.Integer?
    ensures r.Ok? && IsComparison(op) ==> r.value.Boolean?
  {
    match op
    case "+" => Ok(Integer(Wrap(a as int + b as int)))
    case "-" => Ok(Integer(Wrap(a as int - b as int)))
    case "*" => Ok(Integer(Wrap(a as int * b as int)))
    case "/" =>
      if b == 0 then Err(DivisionByZero)
      else if a as int == MIN && b == -1 then Err(DivisionOverflow)
      else Ok(Integer(Div32(a, b)))
    case "<" => Ok(Boolean(a < b))
    case _ => Ok(Boolean(a > b))
  }

  /** `evalIndexExpression`: an Array indexed by an Integer inside its bounds, or a
      Hash indexed by a key it holds. */
  function EvalIndex(left: Value, index: Value): (r: Result<Value, RuntimeError>)
    ensures r.Ok? <==>
              || (left.Array? && index.Integer? && 0 <= index.number as int < |left.elements|)
              || (left.Hash? && Lookup(left.entries, index).Some?)
    ensures left.Array? && index.Integer? && r.Ok? ==> r.value == left.elements[index.number]
    ensures left.Hash? && r.Ok? ==> Some(r.value) == Lookup(left.entries, index)
    ensures left.Array? && index.Integer? && r.Err? ==> r.error == IndexOutOfRange(index.number as int)
    ensures left.Hash? && r.Err? ==> r.error == KeyNotFound
  {
    if left.Array? && index.Integer? then
      var i := index.number as int;
      if |left.elements| <= i || i < 0 then Err(IndexOutOfRange(i))
      else Ok(left.elements[i])
    else if left.Hash? then
      match Lookup(left.entries, index)
      case None => Err(KeyNotFound)
      case Some(v) => Ok(v)
    else Err(TypeMismatch("[]"))
  }
}

=== FILE: parser.dfy ===
/** The Pratt parser. The source keeps `curToken` and `peekToken` in fields and
    advances them with `nextToken`; here the token sequence is explicit, the current
    token is the one at index `i`, and every parse rule returns its node together with
    the index of the token it stopped on (the source's `curToken` on return). Reading
    past the last token yields EOF again, as the source's lexer does at end of input. */
module Parser {
  import opened Wrappers
  import opened Tokens
  import opened Ast
  import Int32

  /** The source's `CalcPriority`, weakest first. */
  datatype Precedence = Lowest | Equals | LessGreater | Sum | Product | Prefix | Call

  function Rank(p: Precedence): nat {
    match p
    case Lowest => 0
    case Equals => 1
    case LessGreater => 2
    case Sum => 3
    case Product => 4
    case Prefix => 5
    case Call => 6
  }

  /** The precedence table; tokens without an entry count as Lowest. */
  function PrecedenceOf(k: TokenKind): Precedence {
    match k
    case Eq => Equals
    case NotEq => Equals
    case Less => LessGreater
    case Greater => LessGreater
    case Plus => Sum
    case Minus => Sum
    case Asterisk => Product
    case Slash => Product
    case LParen => Call
    case LBracket => Call
    case _ => Lowest
  }

  datatype ParseError =
      /** `expectPeek` found another token than the one the grammar demands. */
    | Expected(expected: TokenKind, found: TokenKind)
      /** An expression starts with a token that has no prefix rule. */
    | NoPrefixRule(found: TokenKind)
      /** End of input inside a block. */
    | UnclosedBlock
      /** `int.Parse` rejects a literal beyond the int32 range. */
    | IntegerOutOfRange(literal: string)
      /** End of input inside a parameter list, where the source never stops reading. */
    | UnterminatedParameters

  /** A parsed node and the index of the last token the rule consumed. */
  datatype Parsed<T> = Parsed(node: T, end: nat)

  type ParseResult<T> = Result<Parsed<T>, ParseError>

  function Tok(toks: seq<Token>, i: nat): Token {
    if i < |toks| then toks[i] else EofToken
  }

  function Peek(toks: seq<Token>, i: nat): Token {
    Tok(toks, i + 1)
  }

  /** `nextToken`: one step forward, staying on the implicit EOF past the end. */
  function Next(toks: seq<Token>, i: nat): (j: nat)
    requires i <= |toks|
    ensures j <= |toks|
    ensures i < |toks| ==> j == i + 1
  {
    if i < |toks| then i + 1 else i
  }

  /** `expectPeek`: advance onto the next token when it has kind `k`, fail otherwise. */
  function ExpectPeek(toks: seq<Token>, i: nat, k: TokenKind): (r: Result<nat, ParseError>)
    requires k != Eof
    ensures r.Ok? <==> Peek(toks, i).kind == k
    ensures r.Ok? ==> r.value == i + 1 < |toks| && toks[i + 1].kind == k
    ensures r.Err? ==> r.error == Expected(k, Peek(toks, i).kind)
  {
    if Peek(toks, i).kind == k then Ok(i + 1) else Err(Expected(k, Peek(toks, i).kind))
  }

  // ---------------------------------------------------------------- expressions

  /** `parseExpression`: a prefix rule, then infix rules for as long as the next
      token binds tighter than `prec` and is not a semicolon. */
  function ParseExpression(toks: seq<Token>, i: nat, prec: Precedence): (r: ParseResult<Expr>)
    requires i <= |toks|
    ensures r.Ok? ==> i <= r.value.end <= |toks|
    decreases |toks| - i, 2
  {
    var left :- ParsePrefix(toks, i);
    InfixLoop(toks, left.node, left.end, prec)
  }

  /** The loop of `parseExpression`, with `left` ending at index `j`. */
  function InfixLoop(toks: seq<Token>, left: Expr, j: nat, prec: Precedence): (r: ParseResult<Expr>)
    requires j <= |toks|
    ensures r.Ok? ==> j <= r.value.end <= |toks|
    decreases |toks| - j, 1
  {
    var op := Peek(toks, j);
    if op.kind == Semicolon || Rank(PrecedenceOf(op.kind)) <= Rank(prec) then
      Ok(Parsed(left, j))
    else
      var next :- ParseInfixRule(toks, left, j + 1);
      InfixLoop(toks, next.node, next.end, prec)
  }

  /** The prefix-rule table. */
  function ParsePrefix(toks: seq<Token>, i: nat): (r: ParseResult<Expr>)
    requires i <= |toks|
    ensures r.Ok? ==> i <= r.value.end <= |toks|
    decreases |toks| - i, 1
  {
    var t := Tok(toks, i);
    match t.kind
    case Ident => Ok(Parsed(Identifier(t.literal), i))
    case Int =>
      (match Int32.ParseInt(t.literal)
       case None => Err(IntegerOutOfRange(t.literal))
       case Some(n) => Ok(Parsed(IntegerLiteral(n), i)))
    case TrueKw => Ok(Parsed(BooleanLiteral(true), i))
    case FalseKw => Ok(Parsed(BooleanLiteral(false), i))
    case Str => Ok(Parsed(StringLiteral(t.literal), i))
    case Bang => ParsePrefixExpr(toks, i)
    case Minus => ParsePrefixExpr(toks, i)
    case LParen => ParseGrouped(toks, i)
    case IfKw => ParseIf(toks, i)
    case FunctionKw => ParseFunction(toks, i)
    case LBracket => ParseArray(toks, i)
    case LBrace => ParseHash(toks, i)
    case _ => Err(NoPrefixRule(t.kind))
  }

  /** `parsePrefixExpression`: the operand is parsed at Prefix precedence. */
  function ParsePrefixExpr(toks: seq<Token>, i: nat): (r: ParseResult<Expr>)
    requires i < |toks|
    ensures r.Ok? ==> i < r.value.end <= |toks|
    decreases |toks| - i, 0
  {
    var right :- ParseExpression(toks, i + 1, Prefix);
    Ok(Parsed(PrefixExpr(toks[i].literal, right.node), right.end))
  }

  /** `parseGroupedExpression`: the contents at Lowest, then a mandatory `)`. */
  function ParseGrouped(toks: seq<Token>, i: nat): (r: ParseResult<Expr>)
    requires i < |toks|
    ensures r.Ok? ==> i < r.value.end <= |toks|
    decreases |toks| - i, 0
  {
    var inner :- ParseExpression(toks, i + 1, Lowest);
    var close :- ExpectPeek(toks, inner.end, RParen);
    Ok(Parsed(inner.node, close))
  }

  /** `parseIfExpression`: `if`, a parenthesised condition, a block, and an optional
      `else` block. */
  function ParseIf(toks: seq<Token>, i: nat): (r: ParseResult<Expr>)
    requires i < |toks|
    ensures r.Ok? ==> i < r.value.end <= |toks|
    decreases |toks| - i, 0
  {
    var open :- ExpectPeek(toks, i, LParen);
    var cond :- ParseGrouped(toks, open);
    var brace :- ExpectPeek(toks, cond.end, LBrace);
    var cons :- ParseBlock(toks, brace);
    if Peek(toks, cons.end).kind == ElseKw then
      // the source's `expectPeek(ELSE)` here cannot fail: the peek was just checked
      var elseAt := cons.end + 1;
      var brace2 :- ExpectPeek(toks, elseAt, LBrace);
      var alt :- ParseBlock(toks, brace2);
      Ok(Parsed(IfExpr(cond.node, cons.node, Some(alt.node)), alt.end))
    else
      Ok(Parsed(IfExpr(cond.node, cons.node, None), cons.end))
  }

  /** `parseFunction`: `fn`, `(`, the parameter list, `)`, then a block. */
  function ParseFunction(toks: seq<Token>, i: nat): (r: ParseResult<Expr>)
    requires i < |toks|
    ensures r.Ok? ==> i < r.value.end <= |toks|
    decreases |toks| - i, 0
  {
    var open :- ExpectPeek(toks, i, LParen);
    var params :- ParseParams(toks, open);
    var brace :- ExpectPeek(toks, params.end + 1, LBrace);
    var body :- ParseBlock(toks, brace);
    Ok(Parsed(FunctionLiteral(params.node, body.node), body.end))
  }

  /** The parameter names after the `(` at index `open`. Each name is the literal of
      the token it lands on, and the token between two names is skipped unchecked.
      The list stops at the first `)` found where a separator is looked for; on
      success that `)` is the next token. */
  function ParseParams(toks: seq<Token>, open: nat): (r: ParseResult<seq<string>>)
    requires open < |toks|
    ensures r.Ok? ==> open <= r.value.end && r.value.end + 1 < |toks|
    ensures r.Ok? ==> toks[r.value.end + 1].kind == RParen
    ensures Peek(toks, open).kind == RParen ==> r == Ok(Parsed([], open))
    ensures r.Ok? && Peek(toks, open).kind != RParen ==> |r.value.node| > 0 && r.value.end + 1 == open + 2 * |r.value.node|
    ensures r.Ok? ==> forall m :: 0 <= m < |r.value.node| ==> r.value.node[m] == toks[open + 1 + 2 * m].literal
  {
    if Peek(toks, open).kind == RParen then
      Ok(Parsed([], open))
    else
      var first := Next(toks, open);
      var rest :- ParamLoop(toks, first);
      Ok(Parsed([Tok(toks, first).literal] + rest.node, rest.end))
  }

  /** Further names after the one at index `j`: every second token. */
  function ParamLoop(toks: seq<Token>, j: nat): (r: ParseResult<seq<string>>)
    requires j <= |toks|
    ensures r.Ok? ==> j <= r.value.end && r.value.end + 1 < |toks|
    ensures r.Ok? ==> toks[r.value.end + 1].kind == RParen
    ensures r.Ok? ==> r.value.end == j + 2 * |r.value.node|
    ensures r.Ok? ==> forall m :: 0 <= m < |r.value.node| ==> r.value.node[m] == toks[j + 2 + 2 * m].literal
    decreases |toks| - j
  {
    if Peek(toks, j).kind == RParen then
      Ok(Parsed([], j))
    else
      var k := Next(toks, Next(toks, j));
      if k <= j then
        Err(UnterminatedParameters)
      else
        var rest :- ParamLoop(toks, k);
        Ok(Parsed([Tok(toks, k).literal] + rest.node, rest.end))
  }

  /** `parseArrayLiteral`: comma-separated elements; the token after the last
      element is taken as the closing bracket without being checked. */
  function ParseArray(toks: seq<Token>, i: nat): (r: ParseResult<Expr>)
    requires i < |toks|
    ensures r.Ok? ==> i < r.value.end <= |toks|
    decreases |toks| - i, 0
  {
    if Peek(toks, i).kind == RBracket then
      Ok(Parsed(ArrayLiteral([]), i + 1))
    else
      var first :- ParseExpression(toks, i + 1, Lowest);
      var rest :- ElementLoop(toks, first.end);
      Ok(Parsed(ArrayLiteral([first.node] + rest.node), Next(toks, rest.end)))
  }

  /** Further `, element` items after the element ending at `j`. */
  function ElementLoop(toks: seq<Token>, j: nat): (r: ParseResult<seq<Expr>>)
    requires j <= |toks|
    ensures r.Ok? ==> j <= r.value.end <= |toks|
    ensures r.Ok? ==> Peek(toks, r.value.end).kind != Comma
    decreases |toks| - j, 0
  {
    if Peek(toks, j).kind == Comma then
      var e :- ParseExpression(toks, j + 2, Lowest);
      var rest :- ElementLoop(toks, e.end);
      Ok(Parsed([e.node] + rest.node, rest.end))
    else
      Ok(Parsed([], j))
  }

  /** `parseHashLiteral`: `key : value` pairs; the separator between pairs is
      skipped unchecked, and the literal ends at `}`. */
  function ParseHash(toks: seq<Token>, i: nat): (r: ParseResult<Expr>)
    requires i < |toks|
    ensures r.Ok? ==> i < r.value.end <= |toks|
    decreases |toks| - i, 0
  {
    if Peek(toks, i).kind == RBrace then
      Ok(Parsed(HashLiteral([]), i + 1))
    else
      var first :- ParseHashPair(toks, i + 1);
      var rest :- PairLoop(toks, first.end);
      // the closing `expectPeek(RIGHT_BRACE)` cannot fail: the loop stops only at `}`
      Ok(Parsed(HashLiteral([first.node] + rest.node), rest.end + 1))
  }

  /** One `key : value` pair whose key starts at index `j`. */
  function ParseHashPair(toks: seq<Token>, j: nat): (r: ParseResult<ExprPair>)
    requires j <= |toks|
    ensures r.Ok? ==> j < r.value.end <= |toks|
    decreases |toks| - j, 3
  {
    var key :- ParseExpression(toks, j, Lowest);
    var colon :- ExpectPeek(toks, key.end, Colon);
    var value :- ParseExpression(toks, colon + 1, Lowest);
    Ok(Parsed(ExprPair(key.node, value.node), value.end))
  }

  /** Further pairs until the next token is `}`. Past the end of the tokens the next
      key would start at EOF, which has no prefix rule. */
  function PairLoop(toks: seq<Token>, j: nat): (r: ParseResult<seq<ExprPair>>)
    requires j <= |toks|
    ensures r.Ok? ==> j <= r.value.end <= |toks|
    ensures r.Ok? ==> Peek(toks, r.value.end).kind == RBrace
    decreases |toks| - j, 0
  {
    if Peek(toks, j).kind == RBrace then
      Ok(Parsed([], j))
    else
      var k := Next(toks, Next(toks, j));
      if k <= j then
        Err(NoPrefixRule(Eof))
      else
        var p :- ParseHashPair(toks, k);
        var rest :- PairLoop(toks, p.end);
        Ok(Parsed([p.node] + rest.node, rest.end))
  }

  /** The infix-rule table, applied with the operator at index `k`. */
  function ParseInfixRule(toks: seq<Token>, left: Expr, k: nat): (r: ParseResult<Expr>)
    requires k < |toks|
    ensures r.Ok? ==> k <= r.value.end <= |toks|
    decreases |toks| - k, 1
  {
    match toks[k].kind
    case LParen => ParseCall(toks, left, k)
    case LBracket => ParseIndex(toks, left, k)
    case _ => ParseInfix(toks, left, k)
  }

  /** `parseInfixExpression`: the right operand is parsed at the operator's own
      precedence, which makes operators of equal precedence associate to the left. */
  function ParseInfix(toks: seq<Token>, left: Expr, k: nat): (r: ParseResult<Expr>)
    requires k < |toks|
    ensures r.Ok? ==> k < r.value.end <= |toks|
    decreases |toks| - k, 0
  {
    var right :- ParseExpression(toks, k + 1, PrecedenceOf(toks[k].kind));
    Ok(Parsed(InfixExpr(left, toks[k].literal, right.node), right.end))
  }

  /** `parseCallExpression`: comma-separated arguments at Lowest, then `)`. */
  function ParseCall(toks: seq<Token>, callee: Expr, k: nat): (r: ParseResult<Expr>)
    requires k < |toks|
    ensures r.Ok? ==> k < r.value.end <= |toks|
    decreases |toks| - k, 0
  {
    if Peek(toks, k).kind == RParen then
      Ok(Parsed(CallExpr(callee, []), k + 1))
    else
      var first :- ParseExpression(toks, k + 1, Lowest);
      var rest :- ArgLoop(toks, first.end);
      Ok(Parsed(CallExpr(callee, [first.node] + rest.node), rest.end + 1))
  }

  /** Further `, argument` items until the next token is `)`. */
  function ArgLoop(toks: seq<Token>, j: nat): (r: ParseResult<seq<Expr>>)
    requires j <= |toks|
    ensures r.Ok? ==> j <= r.value.end && r.value.end + 1 < |toks|
    ensures r.Ok? ==> toks[r.value.end + 1].kind == RParen
    decreases |toks| - j, 0
  {
    if Peek(toks, j).kind == RParen then
      Ok(Parsed([], j))
    else
      var comma :- ExpectPeek(toks, j, Comma);
      var a :- ParseExpression(toks, comma + 1, Lowest);
      var rest :- ArgLoop(toks, a.end);
      Ok(Parsed([a.node] + rest.node, rest.end))
  }

  /** `parseIndexExpression`: the index at Lowest, then a mandatory `]`. */
  function ParseIndex(toks: seq<Token>, left: Expr, k: nat): (r: ParseResult<Expr>)
    requires k < |toks|
    ensures r.Ok? ==> k < r.value.end <= |toks|
    decreases |toks| - k, 0
  {
    var index :- ParseExpression(toks, k + 1, Lowest);
    var close :- ExpectPeek(toks, index.end, RBracket);
    Ok(Parsed(IndexExpr(left, index.node), close))
  }

  // ---------------------------------------------------------------- statements

  /** `parseBlockStatement`, with the `{` at index `i`: statements until `}`. */
  function ParseBlock(toks: seq<Token>, i: nat): (r: ParseResult<Block>)
    requires i < |toks|
    ensures r.Ok? ==> i < r.value.end < |toks| && toks[r.value.end].kind == RBrace
    decreases |toks| - i, 0
  {
    var body :- BlockLoop(toks, i + 1);
    Ok(Parsed(Block(body.node), body.end))
  }

  function BlockLoop(toks: seq<Token>, j: nat): (r: ParseResult<seq<Stmt>>)
    requires j <= |toks|
    ensures r.Ok? ==> j <= r.value.end < |toks| && toks[r.value.end].kind == RBrace
    decreases |toks| - j, 5
  {
    var t := Tok(toks, j);
    if t.kind == RBrace then
      Ok(Parsed([], j))
    else if t.kind == Eof then
      Err(UnclosedBlock)
    else
      var s :- ParseStatement(toks, j);
      var rest :- BlockLoop(toks, Next(toks, s.end));
      Ok(Parsed([s.node] + rest.node, rest.end))
  }

  /** `parseStatement`: dispatch on `let`, `return`, or an expression statement. */
  function ParseStatement(toks: seq<Token>, i: nat): (r: ParseResult<Stmt>)
    requires i <= |toks|
    ensures r.Ok? ==> i <= r.value.end <= |toks|
    decreases |toks| - i, 4
  {
    match Tok(toks, i).kind
    case LetKw => ParseLet(toks, i)
    case ReturnKw => ParseReturn(toks, i)
    case _ => ParseExpressionStatement(toks, i)
  }

  /** `parseLetStatement`: `let IDENT = expr ;`. */
  function ParseLet(toks: seq<Token>, i: nat): (r: ParseResult<Stmt>)
    requires i < |toks|
    ensures r.Ok? ==> i < r.value.end <= |toks|
    decreases |toks| - i, 3
  {
    var name :- ExpectPeek(toks, i, Ident);
    var assign :- ExpectPeek(toks, name, Assign);
    var value :- ParseExpression(toks, assign + 1, Lowest);
    var semi :- ExpectPeek(toks, value.end, Semicolon);
    Ok(Parsed(LetStmt(toks[name].literal, value.node), semi))
  }

  /** `parseReturnStatement`: `return expr ;`. */
  function ParseReturn(toks: seq<Token>, i: nat): (r: ParseResult<Stmt>)
    requires i < |toks|
    ensures r.Ok? ==> i < r.value.end <= |toks|
    decreases |toks| - i, 3
  {
    var value :- ParseExpression(toks, i + 1, Lowest);
    var semi :- ExpectPeek(toks, value.end, Semicolon);
    Ok(Parsed(ReturnStmt(value.node), semi))
  }

  /** `parseExpressionStatement`: an expression and an optional `;`. */
  function ParseExpressionStatement(toks: seq<Token>, i: nat): (r: ParseResult<Stmt>)
    requires i <= |toks|
    ensures r.Ok? ==> i <= r.value.end <= |toks|
    decreases |toks| - i, 3
  {
    var e :- ParseExpression(toks, i, Lowest);
    if Peek(toks, e.end).kind == Semicolon then
      Ok(Parsed(ExprStmt(e.node), e.end + 1))
    else
      Ok(Parsed(ExprStmt(e.node), e.end))
  }

  /** `ParseProgram`: statements until the current token is EOF. */
  function ParseProgram(toks: seq<Token>): Result<Program, ParseError> {
    var stmts :- ProgramLoop(toks, 0);
    Ok(Program(stmts))
  }

  function ProgramLoop(toks: seq<Token>, j: nat): Result<seq<Stmt>, ParseError>
    requires j <= |toks|
    decreases |toks| - j
  {
    if Tok(toks, j).kind == Eof then
      Ok([])
    else
      var s :- ParseStatement(toks, j);
      var rest :- ProgramLoop(toks, Next(toks, s.end));
      Ok([s.node] + rest)
  }
}

=== FILE: parser_lists.dfy ===
/** What the parser's list loops collect: the statements of a program or a block,
    the elements of an array literal, the arguments of a call and the pairs of a
    hash literal. Each loop is related, for all inputs, to a reference predicate
    that reads the list off the tokens one item at a time. */
module ParserLists {
  import opened Wrappers
  import opened Tokens
  import opened Ast
  import opened Parser
  import ParserProps

  // ---------------------------------------------------------------- statements

  /** `ss` are the statements that `ParseStatement` reads one after the other from
      index `j`, each starting on the token after the previous one ends, until the
      current token has kind `closer`. A statement never starts on `closer` or EOF. */
  predicate StatementsUntil(toks: seq<Token>, j: nat, ss: seq<Stmt>, closer: TokenKind)
    requires j <= |toks|
    decreases |ss|
  {
    if |ss| == 0 then
      Tok(toks, j).kind == closer
    else
      Tok(toks, j).kind != closer && Tok(toks, j).kind != Eof &&
      var s := ParseStatement(toks, j);
      s.Ok? && s.value.node == ss[0] && StatementsUntil(toks, Next(toks, s.value.end), ss[1..], closer)
  }

  /** A statement cannot start on `}`: it falls through to an expression statement,
      and `}` has no prefix rule. */
  lemma StatementNotAtBrace(toks: seq<Token>, j: nat)
    requires j <= |toks| && Tok(toks, j).kind == RBrace
    ensures ParseStatement(toks, j) == Err(NoPrefixRule(RBrace))
  {
    ParserProps.NoPrefixRuleFails(toks, j, Lowest);
  }

  /** The statements of a block body are exactly the successive statements up to
      the first `}` that a statement does not consume. */
  lemma {:induction false} BlockStatements(toks: seq<Token>, j: nat, ss: seq<Stmt>)
    requires j <= |toks|
    ensures (BlockLoop(toks, j).Ok? && BlockLoop(toks, j).value.node == ss) <==> StatementsUntil(toks, j, ss, RBrace)
    decreases |toks| - j
  {
    var t := Tok(toks, j);
    if t.kind != RBrace && t.kind != Eof {
      var s := ParseStatement(toks, j);
      if s.Ok? {
        var n := Next(toks, s.value.end);
        if |ss| > 0 {
          BlockStatements(toks, n, ss[1..]);
          if BlockLoop(toks, n).Ok? {
            var rest := BlockLoop(toks, n).value.node;
            assert BlockLoop(toks, j).value.node == [s.value.node] + rest;
            assert ([s.value.node] + rest == ss) <==> (s.value.node == ss[0] && rest == ss[1..]);
          }
        }
      }
    }
  }

  /** A block whose statements run into the end of input fails, whatever those
      statements are: the body reaches EOF before any `}`. */
  lemma {:induction false} UnclosedBlockFails(toks: seq<Token>, i: nat, ss: seq<Stmt>)
    requires i < |toks| && StatementsUntil(toks, i + 1, ss, Eof)
    ensures ParseBlock(toks, i) == Err(UnclosedBlock)
  {
    UnclosedBodyFails(toks, i + 1, ss);
  }

  lemma {:induction false} UnclosedBodyFails(toks: seq<Token>, j: nat, ss: seq<Stmt>)
    requires j <= |toks| && StatementsUntil(toks, j, ss, Eof)
    ensures BlockLoop(toks, j) == Err(UnclosedBlock)
    decreases |ss|
  {
    if |ss| > 0 {
      if Tok(toks, j).kind == RBrace {
        StatementNotAtBrace(toks, j);
        assert false;
      }
      var s := ParseStatement(toks, j);
      UnclosedBodyFails(toks, Next(toks, s.value.end), ss[1..]);
    }
  }

  /** A block with no `}` anywhere after its `{` cannot parse. */
  lemma BlockNeedsClosingBrace(toks: seq<Token>, i: nat)
    requires i < |toks| && forall k :: i < k < |toks| ==> toks[k].kind != RBrace
    ensures ParseBlock(toks, i).Err?
  {
  }

  /** The statements of a program are exactly the successive statements up to EOF. */
  lemma {:induction false} ProgramStatements(toks: seq<Token>, j: nat, ss: seq<Stmt>)
    requires j <= |toks|
    ensures ProgramLoop(toks, j) == Ok(ss) <==> StatementsUntil(toks, j, ss, Eof)
    decreases |toks| - j
  {
    if Tok(toks, j).kind != Eof {
      var s := ParseStatement(toks, j);
      if s.Ok? {
        var n := Next(toks, s.value.end);
        if |ss| > 0 {
          ProgramStatements(toks, n, ss[1..]);
          if ProgramLoop(toks, n).Ok? {
            var rest := ProgramLoop(toks, n).value;
            assert ProgramLoop(toks, j).value == [s.value.node] + rest;
            assert ([s.value.node] + rest == ss) <==> (s.value.node == ss[0] && rest == ss[1..]);
          }
        }
      }
    }
  }

  /** `ParseProgram` yields the statements read from the first token up to EOF. */
  lemma ProgramIsStatements(toks: seq<Token>, ss: seq<Stmt>)
    ensures ParseProgram(toks) == Ok(Program(ss)) <==> StatementsUntil(toks, 0, ss, Eof)
  {
    ProgramStatements(toks, 0, ss);
  }

  // ---------------------------------------------------------------- array elements

  /** `es` are the expressions that follow the element ending at `j`, each after a
      `,` and parsed at Lowest, until the next token is not a `,`. */
  predicate ElementsAfter(toks: seq<Token>, j: nat, es: seq<Expr>)
    requires j <= |toks|
    decreases |es|
  {
    if |es| == 0 then
      Peek(toks, j).kind != Comma
    else
      Peek(toks, j).kind == Comma && j + 2 <= |toks| &&
      var e := ParseExpression(toks, j + 2, Lowest);
      e.Ok? && e.value.node == es[0] && ElementsAfter(toks, e.value.end, es[1..])
  }

  lemma {:induction false} ElementLoopCollects(toks: seq<Token>, j: nat, es: seq<Expr>)
    requires j <= |toks|
    ensures (ElementLoop(toks, j).Ok? && ElementLoop(toks, j).value.node == es) <==> ElementsAfter(toks, j, es)
    decreases |toks| - j
  {
    if Peek(toks, j).kind == Comma {
      var e := ParseExpression(toks, j + 2, Lowest);
      if e.Ok? && |es| > 0 {
        ElementLoopCollects(toks, e.value.end, es[1..]);
        if ElementLoop(toks, e.value.end).Ok? {
          var rest := ElementLoop(toks, e.value.end).value.node;
          assert ElementLoop(toks, j).value.node == [e.value.node] + rest;
          assert ([e.value.node] + rest == es) <==> (e.value.node == es[0] && rest == es[1..]);
        }
      }
    }
  }

  /** A non-empty array literal holds its first element followed by the elements
      after it, in order. */
  lemma ArrayIsElements(toks: seq<Token>, i: nat, es: seq<Expr>)
    requires i < |toks| && Peek(toks, i).kind != RBracket
    ensures (ParseArray(toks, i).Ok? && ParseArray(toks, i).value.node == ArrayLiteral(es)) <==>
            (|es| > 0 &&
             var first := ParseExpression(toks, i + 1, Lowest);
             first.Ok? && first.value.node == es[0] && ElementsAfter(toks, first.value.end, es[1..]))
  {
    var first := ParseExpression(toks, i + 1, Lowest);
    if first.Ok? && |es| > 0 {
      ElementLoopCollects(toks, first.value.end, es[1..]);
      if ElementLoop(toks, first.value.end).Ok? {
        var rest := ElementLoop(toks, first.value.end).value.node;
        assert ([first.value.node] + rest == es) <==> (first.value.node == es[0] && rest == es[1..]);
      }
    }
  }

  // ---------------------------------------------------------------- call arguments

  /** `args` are the expressions that follow the argument ending at `j`, each after a
      `,` and parsed at Lowest, until the next token is `)`. */
  predicate ArgsAfter(toks: seq<Token>, j: nat, args: seq<Expr>)
    requires j <= |toks|
    decreases |args|
  {
    if |args| == 0 then
      Peek(toks, j).kind == RParen
    else
      Peek(toks, j).kind == Comma && j + 2 <= |toks| &&
      var a := ParseExpression(toks, j + 2, Lowest);
      a.Ok? && a.value.node == args[0] && ArgsAfter(toks, a.value.end, args[1..])
  }

  lemma {:induction false} ArgLoopCollects(toks: seq<Token>, j: nat, args: seq<Expr>)
    requires j <= |toks|
    ensures (ArgLoop(toks, j).Ok? && ArgLoop(toks, j).value.node == args) <==> ArgsAfter(toks, j, args)
    decreases |toks| - j
  {
    if Peek(toks, j).kind == Comma {
      var a := ParseExpression(toks, j + 2, Lowest);
      if a.Ok? && |args| > 0 {
        ArgLoopCollects(toks, a.value.end, args[1..]);
        if ArgLoop(toks, a.value.end).Ok? {
          var rest := ArgLoop(toks, a.value.end).value.node;
          assert ArgLoop(toks, j).value.node == [a.value.node] + rest;
          assert ([a.value.node] + rest == args) <==> (a.value.node == args[0] && rest == args[1..]);
        }
      }
    }
  }

  /** A call with a non-empty argument list passes its first argument followed by
      the arguments after it, in order. */
  lemma CallIsArguments(toks: seq<Token>, callee: Expr, k: nat, args: seq<Expr>)
    requires k < |toks| && Peek(toks, k).kind != RParen
    ensures (ParseCall(toks, callee, k).Ok? && ParseCall(toks, callee, k).value.node == CallExpr(callee, args)) <==>
            (|args| > 0 &&
             var first := ParseExpression(toks, k + 1, Lowest);
             first.Ok? && first.value.node == args[0] && ArgsAfter(toks, first.value.end, args[1..]))
  {
    var first := ParseExpression(toks, k + 1, Lowest);
    if first.Ok? && |args| > 0 {
      ArgLoopCollects(toks, first.value.end, args[1..]);
      if ArgLoop(toks, first.value.end).Ok? {
        var rest := ArgLoop(toks, first.value.end).value.node;
        assert ParseCall(toks, callee, k).value.node == CallExpr(callee, [first.value.node] + rest);
        assert ([first.value.node] + rest == args) <==> (first.value.node == args[0] && rest == args[1..]);
      }
    }
  }

  /** A call that parses ends on a `)`. */
  lemma CallEndsAtParen(toks: seq<Token>, callee: Expr, k: nat)
    requires k < |toks|
    ensures ParseCall(toks, callee, k).Ok? ==> toks[ParseCall(toks, callee, k).value.end].kind == RParen
  {
  }

  // ---------------------------------------------------------------- parameters

  /** `names` follow the name at index `j` in a parameter list: each is two tokens
      after the one before, a `)` ends the list, and it ends at the first `)` found
      where a separator is looked for. */
  predicate NamesAfter(toks: seq<Token>, j: nat, names: seq<string>)
    requires j <= |toks|
    decreases |names|
  {
    if |names| == 0 then Peek(toks, j).kind == RParen
    else
      Peek(toks, j).kind != RParen && j + 2 < |toks| && toks[j + 2].literal == names[0] &&
      NamesAfter(toks, j + 2, names[1..])
  }

  lemma {:induction false} ParamLoopCollects(toks: seq<Token>, j: nat, names: seq<string>)
    requires j <= |toks|
    ensures (ParamLoop(toks, j).Ok? && ParamLoop(toks, j).value.node == names) <==> NamesAfter(toks, j, names)
    decreases |toks| - j
  {
    if Peek(toks, j).kind != RParen && j + 2 < |toks| && |names| > 0 {
      ParamLoopCollects(toks, j + 2, names[1..]);
      if ParamLoop(toks, j + 2).Ok? {
        var rest := ParamLoop(toks, j + 2).value.node;
        assert ParamLoop(toks, j).value.node == [toks[j + 2].literal] + rest;
        assert ([toks[j + 2].literal] + rest == names) <==> (toks[j + 2].literal == names[0] && rest == names[1..]);
      }
    }
  }

  /** The parameter list after the `(` at `open` is `names` exactly when either `)`
      follows at once and there are none, or the first name follows and the rest
      come after it up to the first `)` where a separator is looked for. */
  lemma ParamsAre(toks: seq<Token>, open: nat, names: seq<string>)
    requires open < |toks|
    ensures (ParseParams(toks, open).Ok? && ParseParams(toks, open).value.node == names) <==>
            if Peek(toks, open).kind == RParen then names == []
            else |names| > 0 && open + 1 < |toks| && toks[open + 1].literal == names[0] &&
                 NamesAfter(toks, open + 1, names[1..])
  {
    if Peek(toks, open).kind != RParen && open + 1 < |toks| && |names| > 0 {
      ParamLoopCollects(toks, open + 1, names[1..]);
      if ParamLoop(toks, open + 1).Ok? {
        var rest := ParamLoop(toks, open + 1).value.node;
        assert ParseParams(toks, open).value.node == [toks[open + 1].literal] + rest;
        assert ([toks[open + 1].literal] + rest == names) <==> (toks[open + 1].literal == names[0] && rest == names[1..]);
      }
    }
  }

  /** Every separator slot of a parameter list comes before its first `)`. */
  lemma {:induction false} NoCloseBeforeEnd(toks: seq<Token>, j: nat, names: seq<string>)
    requires j <= |toks| && NamesAfter(toks, j, names)
    ensures forall m :: 0 <= m < |names| ==> Peek(toks, j + 2 * m).kind != RParen
    decreases |names|
  {
    if |names| > 0 {
      NoCloseBeforeEnd(toks, j + 2, names[1..]);
      forall m | 0 < m < |names|
        ensures Peek(toks, j + 2 * m).kind != RParen
      {
        assert j + 2 * m == (j + 2) + 2 * (m - 1);
      }
    }
  }

  /** In `( x ) y )` the list is `x` alone: it stops at the first `)`. */
  lemma FirstCloseEndsParams(toks: seq<Token>)
    requires |toks| == 5
    requires toks[0].kind == LParen && toks[1] == Token(Ident, "x") && toks[2].kind == RParen
    requires toks[3] == Token(Ident, "y") && toks[4].kind == RParen
    ensures ParseParams(toks, 0) == Ok(Parsed(["x"], 1))
  {
    assert Peek(toks, 0).kind == Ident && Next(toks, 0) == 1;
    assert ParamLoop(toks, 1) == Ok(Parsed([], 1));
    assert [Tok(toks, 1).literal] + [] == ["x"];
  }

  // ---------------------------------------------------------------- hash pairs

  /** `ps` are the `key : value` pairs that follow the pair ending at `j`, each
      starting two tokens on (the separator is skipped unchecked), until the next
      token is `}`. */
  predicate PairsAfter(toks: seq<Token>, j: nat, ps: seq<ExprPair>)
    requires j <= |toks|
    decreases |ps|
  {
    if |ps| == 0 then
      Peek(toks, j).kind == RBrace
    else
      Peek(toks, j).kind != RBrace && j + 2 <= |toks| &&
      var p := ParseHashPair(toks, j + 2);
      p.Ok? && p.value.node == ps[0] && PairsAfter(toks, p.value.end, ps[1..])
  }

  lemma {:induction false} PairLoopCollects(toks: seq<Token>, j: nat, ps: seq<ExprPair>)
    requires j <= |toks|
    ensures (PairLoop(toks, j).Ok? && PairLoop(toks, j).value.node == ps) <==> PairsAfter(toks, j, ps)
    decreases |toks| - j
  {
    if Peek(toks, j).kind != RBrace {
      if j + 2 > |toks| {
        if j < |toks| {
          ParserProps.NoPrefixRuleFails(toks, |toks|, Lowest);
          assert ParseHashPair(toks, |toks|).Err?;
        }
      } else {
        var p := ParseHashPair(toks, j + 2);
        if p.Ok? && |ps| > 0 {
          PairLoopCollects(toks, p.value.end, ps[1..]);
          if PairLoop(toks, p.value.end).Ok? {
            var rest := PairLoop(toks, p.value.end).value.node;
            assert PairLoop(toks, j).value.node == [p.value.node] + rest;
            assert ([p.value.node] + rest == ps) <==> (p.value.node == ps[0] && rest == ps[1..]);
          }
        }
      }
    }
  }

  /** A non-empty hash literal holds its first pair followed by the pairs after it,
      in order, and ends at the `}` after the last one. */
  lemma HashIsPairs(toks: seq<Token>, i: nat, ps: seq<ExprPair>)
    requires i < |toks| && Peek(toks, i).kind != RBrace
    ensures (ParseHash(toks, i).Ok? && ParseHash(toks, i).value.node == HashLiteral(ps)) <==>
            (|ps| > 0 &&
             var first := ParseHashPair(toks, i + 1);
             first.Ok? && first.value.node == ps[0] && PairsAfter(toks, first.value.end, ps[1..]))
  {
    var first := ParseHashPair(toks, i + 1);
    if first.Ok? && |ps| > 0 {
      PairLoopCollects(toks, first.value.end, ps[1..]);
      if PairLoop(toks, first.value.end).Ok? {
        var rest := PairLoop(toks, first.value.end).value.node;
        assert ParseHash(toks, i).value.node == HashLiteral([first.value.node] + rest);
        assert ([first.value.node] + rest == ps) <==> (first.value.node == ps[0] && rest == ps[1..]);
      }
    }
  }

  /** A non-empty hash literal that parses ends on a `}`. */
  lemma HashEndsAtBrace(toks: seq<Token>, i: nat)
    requires i < |toks| && Peek(toks, i).kind != RBrace
    ensures ParseHash(toks, i).Ok? ==> toks[ParseHash(toks, i).value.end].kind == RBrace
  {
  }

  // ---------------------------------------------------------------- grouping

  /** A parenthesised expression needs its `)`: when the token after the contents
      is anything else, the whole expression fails with that token as the culprit;
      when it is `)`, the group is its contents and ends there. */
  lemma GroupNeedsClosing(toks: seq<Token>, i: nat, prec: Precedence, e: Expr, k: nat)
    requires i < |toks| && toks[i].kind == LParen
    requires ParseExpression(toks, i + 1, Lowest) == Ok(Parsed(e, k))
    ensures Peek(toks, k).kind != RParen ==> ParseExpression(toks, i, prec) == Err(Expected(RParen, Peek(toks, k).kind))
    ensures Peek(toks, k).kind == RParen ==> ParsePrefix(toks, i) == Ok(Parsed(e, k + 1))
  {
    assert Tok(toks, i).kind == LParen;
    assert ParsePrefix(toks, i) == ParseGrouped(toks, i);
    if Peek(toks, k).kind != RParen {
      assert ParseGrouped(toks, i) == Err(Expected(RParen, Peek(toks, k).kind));
    }
  }
}

=== FILE: parser_props.dfy ===
/** Properties of the Pratt parser: precedence, associativity, grouping, and the
    shapes and failures of the statement and literal rules. */
module ParserProps {
  import opened Wrappers
  import opened Tokens
  import opened Ast
  import opened Parser

  /** The eight tokens that `parseInfixExpression` handles. */
  predicate IsBinaryOperator(k: TokenKind) {
    k in {Plus, Minus, Asterisk, Slash, Eq, NotEq, Less, Greater}
  }

  /** The precedence levels grow strictly from equality through comparison, sums and
      products to prefix operators and calls, and every binary operator binds more
      tightly than Lowest but less tightly than a prefix operator. */
  lemma PrecedenceLadder(k: TokenKind)
    ensures Rank(Lowest) < Rank(Equals) < Rank(LessGreater) < Rank(Sum) < Rank(Product)
            < Rank(Prefix) < Rank(Call)
    ensures (k == Eq || k == NotEq) <==> PrecedenceOf(k) == Equals
    ensures (k == Less || k == Greater) <==> PrecedenceOf(k) == LessGreater
    ensures (k == Plus || k == Minus) <==> PrecedenceOf(k) == Sum
    ensures (k == Asterisk || k == Slash) <==> PrecedenceOf(k) == Product
    ensures (k == LParen || k == LBracket) <==> PrecedenceOf(k) == Call
    ensures IsBinaryOperator(k) ==> Rank(Lowest) < Rank(PrecedenceOf(k)) < Rank(Prefix)
  {
  }

  /** An identifier is a complete prefix expression on its own. */
  lemma IdentifierPrefix(toks: seq<Token>, i: nat)
    requires i < |toks| && toks[i].kind == Ident
    ensures ParsePrefix(toks, i) == Ok(Parsed(Identifier(toks[i].literal), i))
  {
  }

  /** The infix loop returns its left operand unchanged when the next token is a
      semicolon or does not bind more tightly than `prec`. */
  lemma LoopStops(toks: seq<Token>, left: Expr, j: nat, prec: Precedence)
    requires j <= |toks|
    requires Peek(toks, j).kind == Semicolon || Rank(PrecedenceOf(Peek(toks, j).kind)) <= Rank(prec)
    ensures InfixLoop(toks, left, j, prec) == Ok(Parsed(left, j))
  {
  }

  /** A complete prefix expression followed by a token that does not bind more
      tightly than `prec` is the whole expression. */
  lemma PrefixThenStop(toks: seq<Token>, i: nat, prec: Precedence, e: Expr, j: nat)
    requires i <= j <= |toks| && ParsePrefix(toks, i) == Ok(Parsed(e, j))
    requires Peek(toks, j).kind == Semicolon || Rank(PrecedenceOf(Peek(toks, j).kind)) <= Rank(prec)
    ensures ParseExpression(toks, i, prec) == Ok(Parsed(e, j))
  {
    LoopStops(toks, e, j, prec);
  }

  /** An identifier followed by a token that does not bind more tightly than `prec`
      is parsed as that identifier alone. */
  lemma IdentifierExpression(toks: seq<Token>, i: nat, prec: Precedence)
    requires i < |toks| && toks[i].kind == Ident
    requires Rank(PrecedenceOf(Peek(toks, i).kind)) <= Rank(prec)
    ensures ParseExpression(toks, i, prec) == Ok(Parsed(Identifier(toks[i].literal), i))
  {
    IdentifierPrefix(toks, i);
    LoopStops(toks, Identifier(toks[i].literal), i, prec);
  }

  /** A binary operator at index `k` followed by a complete prefix expression `b`,
      after which comes a token binding no more tightly than the operator, yields
      one infix node whose right operand is `b`: the right operand is parsed at the
      operator's own level. */
  lemma OneInfixStep(toks: seq<Token>, left: Expr, k: nat, b: Expr, m: nat)
    requires k < |toks| && IsBinaryOperator(toks[k].kind)
    requires ParsePrefix(toks, k + 1) == Ok(Parsed(b, m))
    requires Peek(toks, m).kind == Semicolon || Rank(PrecedenceOf(Peek(toks, m).kind)) <= Rank(PrecedenceOf(toks[k].kind))
    ensures ParseInfixRule(toks, left, k) == Ok(Parsed(InfixExpr(left, toks[k].literal, b), m))
  {
    PrefixThenStop(toks, k + 1, PrecedenceOf(toks[k].kind), b, m);
  }

  /** An expression is its prefix rule's result carried through the operator loop. */
  lemma ExpressionFromPrefix(toks: seq<Token>, i: nat, prec: Precedence, a: Expr, j: nat)
    requires i <= |toks| && ParsePrefix(toks, i) == Ok(Parsed(a, j))
    ensures j <= |toks| && ParseExpression(toks, i, prec) == InfixLoop(toks, a, j, prec)
  {
  }

  /** The operator loop takes one more step when the next token binds more tightly
      than `prec`. */
  lemma LoopContinues(toks: seq<Token>, left: Expr, j: nat, prec: Precedence, next: Expr, k: nat)
    requires j + 1 < |toks| && toks[j + 1].kind != Semicolon
    requires Rank(prec) < Rank(PrecedenceOf(toks[j + 1].kind))
    requires ParseInfixRule(toks, left, j + 1) == Ok(Parsed(next, k))
    ensures k <= |toks| && InfixLoop(toks, left, j, prec) == InfixLoop(toks, next, k, prec)
  {
  }

  /** `a o1 b o2 c`, where the operands are complete prefix expressions, nests to
      the left when `o1` binds at least as tightly as `o2`: with equal levels this is
      left associativity. The expression is parsed at `prec`, which both operators
      exceed, and ends before a token that binds no more tightly than `prec`. */
  lemma {:induction false} LeftNesting(toks: seq<Token>, prec: Precedence,
                                       i: nat, a: Expr, j: nat, b: Expr, m: nat, c: Expr, n: nat)
    requires i <= |toks| && ParsePrefix(toks, i) == Ok(Parsed(a, j))
    requires j + 1 < |toks| && IsBinaryOperator(toks[j + 1].kind)
    requires ParsePrefix(toks, j + 2) == Ok(Parsed(b, m))
    requires m + 1 < |toks| && IsBinaryOperator(toks[m + 1].kind)
    requires ParsePrefix(toks, m + 2) == Ok(Parsed(c, n))
    requires Rank(prec) < Rank(PrecedenceOf(toks[m + 1].kind)) <= Rank(PrecedenceOf(toks[j + 1].kind))
    requires Peek(toks, n).kind == Semicolon || Rank(PrecedenceOf(Peek(toks, n).kind)) <= Rank(prec)
    ensures ParseExpression(toks, i, prec) ==
              Ok(Parsed(InfixExpr(InfixExpr(a, toks[j + 1].literal, b), toks[m + 1].literal, c), n))
  {
    var ab := InfixExpr(a, toks[j + 1].literal, b);
    var abc := InfixExpr(ab, toks[m + 1].literal, c);
    FirstOperation(toks, prec, i, a, j, b, m);
    LastOperation(toks, prec, ab, m, c, n);
  }

  /** The operator loop applies a last operator to `left` when the token after its
      right operand binds no more tightly than `prec`. */
  lemma {:induction false} LastOperation(toks: seq<Token>, prec: Precedence, left: Expr, m: nat, c: Expr, n: nat)
    requires m + 1 < |toks| && IsBinaryOperator(toks[m + 1].kind)
    requires ParsePrefix(toks, m + 2) == Ok(Parsed(c, n))
    requires Rank(prec) < Rank(PrecedenceOf(toks[m + 1].kind))
    requires Peek(toks, n).kind == Semicolon || Rank(PrecedenceOf(Peek(toks, n).kind)) <= Rank(prec)
    ensures InfixLoop(toks, left, m, prec) == Ok(Parsed(InfixExpr(left, toks[m + 1].literal, c), n))
  {
    var lc := InfixExpr(left, toks[m + 1].literal, c);
    OneInfixStep(toks, left, m + 1, c, n);
    LoopContinues(toks, left, m, prec, lc, n);
    LoopStops(toks, lc, n, prec);
  }

  /** `a o1 b o2 c`, where the operands are complete prefix expressions, nests to
      the right when `o2` binds more tightly than `o1`. */
  lemma {:induction false} RightNesting(toks: seq<Token>, prec: Precedence,
                                        i: nat, a: Expr, j: nat, b: Expr, m: nat, c: Expr, n: nat)
    requires i <= |toks| && ParsePrefix(toks, i) == Ok(Parsed(a, j))
    requires j + 1 < |toks| && IsBinaryOperator(toks[j + 1].kind)
    requires ParsePrefix(toks, j + 2) == Ok(Parsed(b, m))
    requires m + 1 < |toks| && IsBinaryOperator(toks[m + 1].kind)
    requires ParsePrefix(toks, m + 2) == Ok(Parsed(c, n))
    requires Rank(prec) < Rank(PrecedenceOf(toks[j + 1].kind)) < Rank(PrecedenceOf(toks[m + 1].kind))
    requires Peek(toks, n).kind == Semicolon || Rank(PrecedenceOf(Peek(toks, n).kind)) <= Rank(prec)
    ensures ParseExpression(toks, i, prec) ==
              Ok(Parsed(InfixExpr(a, toks[j + 1].literal, InfixExpr(b, toks[m + 1].literal, c)), n))
  {
    var bc := InfixExpr(b, toks[m + 1].literal, c);
    var abc := InfixExpr(a, toks[j + 1].literal, bc);
    TighterOperand(toks, PrecedenceOf(toks[j + 1].kind), j + 2, b, m, c, n);
    InfixOperand(toks, a, j + 1, bc, n);
    ExpressionFromPrefix(toks, i, prec, a, j);
    LoopContinues(toks, a, j, prec, abc, n);
    LoopStops(toks, abc, n, prec);
  }

  /** When the operator after `a` binds more tightly than `prec` and `b` is a complete
      prefix expression, the loop goes on from the node `a o b`. */
  lemma {:induction false} FirstOperation(toks: seq<Token>, prec: Precedence, i: nat, a: Expr, j: nat, b: Expr, m: nat)
    requires i <= |toks| && ParsePrefix(toks, i) == Ok(Parsed(a, j))
    requires j + 1 < |toks| && IsBinaryOperator(toks[j + 1].kind)
    requires ParsePrefix(toks, j + 2) == Ok(Parsed(b, m))
    requires Rank(prec) < Rank(PrecedenceOf(toks[j + 1].kind))
    requires Peek(toks, m).kind == Semicolon || Rank(PrecedenceOf(Peek(toks, m).kind)) <= Rank(PrecedenceOf(toks[j + 1].kind))
    ensures m <= |toks|
    ensures ParseExpression(toks, i, prec) == InfixLoop(toks, InfixExpr(a, toks[j + 1].literal, b), m, prec)
  {
    ExpressionFromPrefix(toks, i, prec, a, j);
    OneInfixStep(toks, a, j + 1, b, m);
    LoopContinues(toks, a, j, prec, InfixExpr(a, toks[j + 1].literal, b), m);
  }

  /** Read at level `p`, `b o c` is one node when `o` binds more tightly than `p`
      and the token after `c` does not. */
  lemma {:induction false} TighterOperand(toks: seq<Token>, p: Precedence, i: nat, b: Expr, m: nat, c: Expr, n: nat)
    requires i <= |toks| && ParsePrefix(toks, i) == Ok(Parsed(b, m))
    requires m + 1 < |toks| && IsBinaryOperator(toks[m + 1].kind)
    requires ParsePrefix(toks, m + 2) == Ok(Parsed(c, n))
    requires Rank(p) < Rank(PrecedenceOf(toks[m + 1].kind))
    requires Peek(toks, n).kind == Semicolon || Rank(PrecedenceOf(Peek(toks, n).kind)) <= Rank(p)
    ensures ParseExpression(toks, i, p) == Ok(Parsed(InfixExpr(b, toks[m + 1].literal, c), n))
  {
    var bc := InfixExpr(b, toks[m + 1].literal, c);
    OneInfixStep(toks, b, m + 1, c, n);
    ExpressionFromPrefix(toks, i, p, b, m);
    LoopContinues(toks, b, m, p, bc, n);
    LoopStops(toks, bc, n, p);
  }

  /** A binary operator's node takes as its right operand whatever the parser reads
      at the operator's own level. */
  lemma InfixOperand(toks: seq<Token>, left: Expr, k: nat, right: Expr, n: nat)
    requires k < |toks| && IsBinaryOperator(toks[k].kind)
    requires ParseExpression(toks, k + 1, PrecedenceOf(toks[k].kind)) == Ok(Parsed(right, n))
    ensures ParseInfixRule(toks, left, k) == Ok(Parsed(InfixExpr(left, toks[k].literal, right), n))
  {
  }

  /** A prefix operator binds its operand more tightly than any binary operator:
      `!a o b` and `-a o b` apply the prefix operator to `a` alone. */
  lemma {:induction false} PrefixBindsTighter(toks: seq<Token>)
    requires |toks| == 4 && (toks[0].kind == Bang || toks[0].kind == Minus)
    requires toks[1].kind == Ident && IsBinaryOperator(toks[2].kind) && toks[3].kind == Ident
    ensures ParseExpression(toks, 0, Lowest) == Ok(Parsed(
              InfixExpr(PrefixExpr(toks[0].literal, Identifier(toks[1].literal)), toks[2].literal,
                        Identifier(toks[3].literal)), 3))
  {
    var neg := PrefixExpr(toks[0].literal, Identifier(toks[1].literal));
    var whole := InfixExpr(neg, toks[2].literal, Identifier(toks[3].literal));
    PrecedenceLadder(toks[2].kind);
    IdentifierExpression(toks, 1, Prefix);
    assert ParsePrefix(toks, 0) == Ok(Parsed(neg, 1));
    IdentifierPrefix(toks, 3);
    OneInfixStep(toks, neg, 2, Identifier(toks[3].literal), 3);
    LoopStops(toks, whole, 3, Lowest);
    assert InfixLoop(toks, neg, 1, Lowest) == Ok(Parsed(whole, 3));
  }

  /** Parentheses regroup: in `-(a o b)` the prefix operator applies to the whole
      parenthesised infix expression, which ends at the `)`. */
  lemma {:induction false} ParenthesesRegroup(toks: seq<Token>)
    requires |toks| == 6 && (toks[0].kind == Bang || toks[0].kind == Minus) && toks[1].kind == LParen
    requires toks[2].kind == Ident && IsBinaryOperator(toks[3].kind) && toks[4].kind == Ident
    requires toks[5].kind == RParen
    ensures ParseExpression(toks, 0, Lowest) == Ok(Parsed(
              PrefixExpr(toks[0].literal,
                         InfixExpr(Identifier(toks[2].literal), toks[3].literal, Identifier(toks[4].literal))), 5))
  {
    var inner := InfixExpr(Identifier(toks[2].literal), toks[3].literal, Identifier(toks[4].literal));
    var whole := PrefixExpr(toks[0].literal, inner);
    PrecedenceLadder(toks[3].kind);
    assert ParseGrouped(toks, 1) == Ok(Parsed(inner, 5)) by {
      IdentifierPrefix(toks, 2);
      IdentifierPrefix(toks, 4);
      OneInfixStep(toks, Identifier(toks[2].literal), 3, Identifier(toks[4].literal), 4);
      LoopStops(toks, inner, 4, Lowest);
      assert ParseExpression(toks, 2, Lowest) == Ok(Parsed(inner, 4));
    }
    LoopStops(toks, inner, 5, Prefix);
    assert ParseExpression(toks, 1, Prefix) == Ok(Parsed(inner, 5));
    assert ParsePrefix(toks, 0) == Ok(Parsed(whole, 5));
    LoopStops(toks, whole, 5, Lowest);
  }

  /** The tokens that start an expression. */
  predicate HasPrefixRule(k: TokenKind) {
    k in {Ident, Int, TrueKw, FalseKw, Str, Bang, Minus, LParen, IfKw, FunctionKw, LBracket, LBrace}
  }

  /** An expression cannot start with a token outside the prefix table, such as `)`,
      `;` or EOF. */
  lemma NoPrefixRuleFails(toks: seq<Token>, i: nat, prec: Precedence)
    requires i <= |toks| && !HasPrefixRule(Tok(toks, i).kind)
    ensures ParseExpression(toks, i, prec) == Err(NoPrefixRule(Tok(toks, i).kind))
  {
  }

  // ---------------------------------------------------------------- statements

  /** A successful `let` statement is `let IDENT = expr ;`: the identifier names the
      binding and the statement ends on the semicolon. */
  lemma LetShape(toks: seq<Token>, i: nat)
    requires i < |toks| && toks[i].kind == LetKw
    requires ParseStatement(toks, i).Ok?
    ensures var s := ParseStatement(toks, i).value;
            && i + 3 < |toks| && toks[i + 1].kind == Ident && toks[i + 2].kind == Assign
            && s.node.LetStmt? && s.node.name == toks[i + 1].literal
            && i + 3 < s.end < |toks| && toks[s.end].kind == Semicolon
            && ParseExpression(toks, i + 3, Lowest) == Ok(Parsed(s.node.value, s.end - 1))
  {
  }

  /** A `let` fails on a missing identifier, a missing `=`, or a missing `;`. */
  lemma LetFailures(toks: seq<Token>, i: nat)
    requires i < |toks| && toks[i].kind == LetKw
    ensures Peek(toks, i).kind != Ident ==>
              ParseStatement(toks, i) == Err(Expected(Ident, Peek(toks, i).kind))
    ensures Peek(toks, i).kind == Ident && Peek(toks, i + 1).kind != Assign ==>
              ParseStatement(toks, i) == Err(Expected(Assign, Peek(toks, i + 1).kind))
    ensures Peek(toks, i).kind == Ident && Peek(toks, i + 1).kind == Assign ==>
              var v := ParseExpression(toks, i + 3, Lowest);
              v.Ok? && Peek(toks, v.value.end).kind != Semicolon ==>
                ParseStatement(toks, i) == Err(Expected(Semicolon, Peek(toks, v.value.end).kind))
  {
  }

  /** A successful `return` statement ends on a semicolon after its value. */
  lemma ReturnShape(toks: seq<Token>, i: nat)
    requires i < |toks| && toks[i].kind == ReturnKw
    requires ParseStatement(toks, i).Ok?
    ensures var s := ParseStatement(toks, i).value;
            && s.node.ReturnStmt?
            && i + 1 < s.end < |toks| && toks[s.end].kind == Semicolon
            && ParseExpression(toks, i + 1, Lowest) == Ok(Parsed(s.node.value, s.end - 1))
  {
  }

  /** `return expr` without the semicolon fails. */
  lemma ReturnNeedsSemicolon(toks: seq<Token>, i: nat)
    requires i < |toks| && toks[i].kind == ReturnKw
    requires ParseExpression(toks, i + 1, Lowest).Ok?
    requires Peek(toks, ParseExpression(toks, i + 1, Lowest).value.end).kind != Semicolon
    ensures ParseStatement(toks, i).Err?
  {
  }

  /** Any other statement is an expression statement; a semicolon after it is
      consumed when present and not required. */
  lemma ExpressionStatementSemicolonOptional(toks: seq<Token>, i: nat)
    requires i <= |toks| && Tok(toks, i).kind != LetKw && Tok(toks, i).kind != ReturnKw
    requires ParseExpression(toks, i, Lowest).Ok?
    ensures var e := ParseExpression(toks, i, Lowest).value;
            ParseStatement(toks, i) == Ok(Parsed(ExprStmt(e.node),
              if Peek(toks, e.end).kind == Semicolon then e.end + 1 else e.end))
  {
  }

  // ---------------------------------------------------------------- blocks and literals

  /** A block holding one expression statement `b` ends at its `}`. */
  lemma OneStatementBlock(toks: seq<Token>, i: nat)
    requires i + 2 < |toks| && toks[i + 1].kind == Ident && toks[i + 2].kind == RBrace
    ensures ParseBlock(toks, i) == Ok(Parsed(Block([ExprStmt(Identifier(toks[i + 1].literal))]), i + 2))
  {
    IdentifierExpression(toks, i + 1, Lowest);
    var s := ExprStmt(Identifier(toks[i + 1].literal));
    assert ParseStatement(toks, i + 1) == Ok(Parsed(s, i + 1));
    assert BlockLoop(toks, i + 2) == Ok(Parsed([], i + 2));
    assert [s] + [] == [s];
    assert BlockLoop(toks, i + 1) == Ok(Parsed([s], i + 2));
  }

  /** An `if` whose condition and consequence parse and which is not followed by
      `else` has no alternative and ends at the consequence's `}`. */
  lemma IfRuleNoElse(toks: seq<Token>, i: nat, c: Expr, m: nat, cons: Block, n: nat)
    requires i + 1 < |toks| && toks[i + 1].kind == LParen
    requires ParseGrouped(toks, i + 1) == Ok(Parsed(c, m))
    requires Peek(toks, m).kind == LBrace && ParseBlock(toks, m + 1) == Ok(Parsed(cons, n))
    requires Peek(toks, n).kind != ElseKw
    ensures ParseIf(toks, i) == Ok(Parsed(IfExpr(c, cons, None), n))
  {
  }

  /** An `if` whose consequence is followed by `else {`: the `else` block is the
      alternative and the expression ends at its `}`. */
  lemma IfRuleElse(toks: seq<Token>, i: nat, c: Expr, m: nat, cons: Block, n: nat, alt: Block, e: nat)
    requires i + 1 < |toks| && toks[i + 1].kind == LParen
    requires ParseGrouped(toks, i + 1) == Ok(Parsed(c, m))
    requires Peek(toks, m).kind == LBrace && ParseBlock(toks, m + 1) == Ok(Parsed(cons, n))
    requires Peek(toks, n).kind == ElseKw && Peek(toks, n + 1).kind == LBrace
    requires ParseBlock(toks, n + 2) == Ok(Parsed(alt, e))
    ensures ParseIf(toks, i) == Ok(Parsed(IfExpr(c, cons, Some(alt)), e))
  {
  }

  /** `if` is read by the `if`-expression rule. */
  lemma PrefixIsIf(toks: seq<Token>, i: nat)
    requires i < |toks| && toks[i].kind == IfKw
    ensures ParsePrefix(toks, i) == ParseIf(toks, i)
  {
    var t := Tok(toks, i);
    assert t == toks[i];
    match t.kind {
      case IfKw =>
        assert ParsePrefix(toks, i) == ParseIf(toks, i);
    }
  }

  /** `if (a) { b }` without `else` has no alternative. */
  lemma {:induction false} IfWithoutElse(toks: seq<Token>)
    requires |toks| == 7
    requires toks[0].kind == IfKw && toks[1].kind == LParen && toks[2].kind == Ident && toks[3].kind == RParen
    requires toks[4].kind == LBrace && toks[5].kind == Ident && toks[6].kind == RBrace
    ensures ParseExpression(toks, 0, Lowest) == Ok(Parsed(
              IfExpr(Identifier(toks[2].literal), Block([ExprStmt(Identifier(toks[5].literal))]), None), 6))
  {
    var a := Identifier(toks[2].literal);
    var cons := Block([ExprStmt(Identifier(toks[5].literal))]);
    var e := IfExpr(a, cons, None);
    assert ParsePrefix(toks, 0) == Ok(Parsed(e, 6)) by {
      assert ParseGrouped(toks, 1) == Ok(Parsed(a, 3)) by {
        IdentifierExpression(toks, 2, Lowest);
      }
      OneStatementBlock(toks, 4);
      IfRuleNoElse(toks, 0, a, 3, cons, 6);
      PrefixIsIf(toks, 0);
    }
    PrefixThenStop(toks, 0, Lowest, e, 6);
  }

  /** `if (a) { b } else { c }` carries the `else` block as its alternative. */
  lemma {:induction false} IfWithElse(toks: seq<Token>)
    requires |toks| == 11
    requires toks[0].kind == IfKw && toks[1].kind == LParen && toks[2].kind == Ident && toks[3].kind == RParen
    requires toks[4].kind == LBrace && toks[5].kind == Ident && toks[6].kind == RBrace
    requires toks[7].kind == ElseKw && toks[8].kind == LBrace && toks[9].kind == Ident && toks[10].kind == RBrace
    ensures ParseExpression(toks, 0, Lowest) == Ok(Parsed(
              IfExpr(Identifier(toks[2].literal), Block([ExprStmt(Identifier(toks[5].literal))]),
                     Some(Block([ExprStmt(Identifier(toks[9].literal))]))), 10))
  {
    var a := Identifier(toks[2].literal);
    var cons, alt := Block([ExprStmt(Identifier(toks[5].literal))]), Block([ExprStmt(Identifier(toks[9].literal))]);
    var e := IfExpr(a, cons, Some(alt));
    assert ParsePrefix(toks, 0) == Ok(Parsed(e, 10)) by {
      assert ParseGrouped(toks, 1) == Ok(Parsed(a, 3)) by {
        IdentifierExpression(toks, 2, Lowest);
      }
      OneStatementBlock(toks, 4);
      OneStatementBlock(toks, 8);
      IfRuleElse(toks, 0, a, 3, cons, 6, alt, 10);
      PrefixIsIf(toks, 0);
    }
    PrefixThenStop(toks, 0, Lowest, e, 10);
  }

  /** `if` must be followed by `(`, and its condition by `{`. */
  lemma IfFailures(toks: seq<Token>, i: nat)
    requires i < |toks| && toks[i].kind == IfKw
    ensures Peek(toks, i).kind != LParen ==>
              ParsePrefix(toks, i) == Err(Expected(LParen, Peek(toks, i).kind))
    ensures Peek(toks, i).kind == LParen ==>
              var c := ParseGrouped(toks, i + 1);
              c.Ok? && Peek(toks, c.value.end).kind != LBrace ==>
                ParsePrefix(toks, i) == Err(Expected(LBrace, Peek(toks, c.value.end).kind))
  {
  }

  /** `fn` must be followed by `(`, and the parameter list by `{`. */
  lemma FunctionFailures(toks: seq<Token>, i: nat)
    requires i < |toks| && toks[i].kind == FunctionKw
    ensures Peek(toks, i).kind != LParen ==>
              ParsePrefix(toks, i) == Err(Expected(LParen, Peek(toks, i).kind))
    ensures Peek(toks, i).kind == LParen ==>
              var ps := ParseParams(toks, i + 1);
              ps.Ok? && Peek(toks, ps.value.end + 1).kind != LBrace ==>
                ParsePrefix(toks, i) == Err(Expected(LBrace, Peek(toks, ps.value.end + 1).kind))
  {
    PrefixIsFunction(toks, i);
  }

  /** A function literal whose parameter list and body parse. */
  lemma FunctionRule(toks: seq<Token>, i: nat, params: seq<string>, p: nat, body: Block, b: nat)
    requires i + 1 < |toks| && toks[i].kind == FunctionKw && toks[i + 1].kind == LParen
    requires ParseParams(toks, i + 1) == Ok(Parsed(params, p))
    requires Peek(toks, p + 1).kind == LBrace && ParseBlock(toks, p + 2) == Ok(Parsed(body, b))
    ensures ParsePrefix(toks, i) == Ok(Parsed(FunctionLiteral(params, body), b))
  {
    PrefixIsFunction(toks, i);
    assert ExpectPeek(toks, i, LParen) == Ok(i + 1);
    assert ExpectPeek(toks, p + 1, LBrace) == Ok(p + 2);
  }

  /** `fn` is read by the function-literal rule. */
  lemma PrefixIsFunction(toks: seq<Token>, i: nat)
    requires i < |toks| && toks[i].kind == FunctionKw
    ensures ParsePrefix(toks, i) == ParseFunction(toks, i)
  {
    var t := Tok(toks, i);
    assert t == toks[i];
    match t.kind {
      case FunctionKw =>
        assert ParsePrefix(toks, i) == ParseFunction(toks, i);
    }
  }

  /** `fn() {}` has no parameters and an empty body. */
  lemma {:induction false} EmptyFunction(toks: seq<Token>)
    requires |toks| == 5 && toks[0].kind == FunctionKw && toks[1].kind == LParen && toks[2].kind == RParen
    requires toks[3].kind == LBrace && toks[4].kind == RBrace
    ensures ParseExpression(toks, 0, Lowest) == Ok(Parsed(FunctionLiteral([], Block([])), 4))
  {
    var f := FunctionLiteral([], Block([]));
    assert ParsePrefix(toks, 0) == Ok(Parsed(f, 4)) by {
      assert ParseParams(toks, 1) == Ok(Parsed([], 1));
      assert ParseBlock(toks, 3) == Ok(Parsed(Block([]), 4)) by {
        assert BlockLoop(toks, 4) == Ok(Parsed([], 4));
      }
      FunctionRule(toks, 0, [], 1, Block([]), 4);
    }
    PrefixThenStop(toks, 0, Lowest, f, 4);
  }

  /** A parameter list with two names: whatever stands between them is skipped. */
  lemma TwoParameters(toks: seq<Token>, open: nat)
    requires open + 4 < |toks|
    requires toks[open + 1].kind != RParen && toks[open + 2].kind != RParen
    requires toks[open + 3].kind != RParen && toks[open + 4].kind == RParen
    ensures ParseParams(toks, open) == Ok(Parsed([toks[open + 1].literal, toks[open + 3].literal], open + 3))
  {
    var second := toks[open + 3].literal;
    assert ParamLoop(toks, open + 3) == Ok(Parsed([], open + 3));
    assert [second] + [] == [second];
    assert ParamLoop(toks, open + 1) == Ok(Parsed([second], open + 3));
    assert [toks[open + 1].literal] + [second] == [toks[open + 1].literal, second];
  }

  /** The separators between parameters are not checked: the names are the tokens at
      every second position after `(`, so `fn(x y z) {}` has parameters `x` and `z`. */
  lemma {:induction false} ParameterSeparatorsUnchecked(toks: seq<Token>)
    requires |toks| == 8 && toks[0].kind == FunctionKw && toks[1].kind == LParen
    requires toks[2].kind == Ident && toks[3].kind == Ident && toks[4].kind == Ident
    requires toks[5].kind == RParen && toks[6].kind == LBrace && toks[7].kind == RBrace
    ensures ParseExpression(toks, 0, Lowest)
            == Ok(Parsed(FunctionLiteral([toks[2].literal, toks[4].literal], Block([])), 7))
  {
    var f := FunctionLiteral([toks[2].literal, toks[4].literal], Block([]));
    assert ParsePrefix(toks, 0) == Ok(Parsed(f, 7)) by {
      TwoParameters(toks, 1);
      assert ParseBlock(toks, 6) == Ok(Parsed(Block([]), 7)) by {
        assert BlockLoop(toks, 7) == Ok(Parsed([], 7));
      }
      FunctionRule(toks, 0, [toks[2].literal, toks[4].literal], 4, Block([]), 7);
    }
    PrefixThenStop(toks, 0, Lowest, f, 7);
  }

  /** A parameter list cut off by the end of input never closes: `fn(x`. */
  lemma {:induction false} UnterminatedParameterList(toks: seq<Token>)
    requires |toks| == 3 && toks[0].kind == FunctionKw && toks[1].kind == LParen && toks[2].kind == Ident
    ensures ParseExpression(toks, 0, Lowest) == Err(UnterminatedParameters)
  {
    assert ParamLoop(toks, 3) == Err(UnterminatedParameters);
    assert ParamLoop(toks, 2) == Err(UnterminatedParameters);
    assert ParseParams(toks, 1) == Err(UnterminatedParameters);
    assert ParseFunction(toks, 0) == Err(UnterminatedParameters);
    assert ParsePrefix(toks, 0) == Err(UnterminatedParameters);
  }

  /** Call arguments must be separated by commas: `f(a b)` fails. */
  lemma {:induction false} CallNeedsComma(toks: seq<Token>)
    requires |toks| == 5 && toks[0].kind == Ident && toks[1].kind == LParen
    requires toks[2].kind == Ident && toks[3].kind == Ident && toks[4].kind == RParen
    ensures ParseExpression(toks, 0, Lowest) == Err(Expected(Comma, Ident))
  {
    IdentifierExpression(toks, 2, Lowest);
    assert ArgLoop(toks, 2) == Err(Expected(Comma, Ident));
    assert ParseInfixRule(toks, Identifier(toks[0].literal), 1) == Err(Expected(Comma, Ident));
  }

  /** `f(a, b)` is a call with both arguments in order, binding to `f` because a call
      has the highest precedence. */
  lemma {:induction false} CallWithArguments(toks: seq<Token>)
    requires |toks| == 6 && toks[0].kind == Ident && toks[1].kind == LParen && toks[2].kind == Ident
    requires toks[3].kind == Comma && toks[4].kind == Ident && toks[5].kind == RParen
    ensures ParseExpression(toks, 0, Lowest) == Ok(Parsed(
              CallExpr(Identifier(toks[0].literal), [Identifier(toks[2].literal), Identifier(toks[4].literal)]), 5))
  {
    var f, a, b := Identifier(toks[0].literal), Identifier(toks[2].literal), Identifier(toks[4].literal);
    var call := CallExpr(f, [a, b]);
    assert ParseInfixRule(toks, f, 1) == Ok(Parsed(call, 5)) by {
      assert ArgLoop(toks, 2) == Ok(Parsed([b], 4)) by {
        IdentifierExpression(toks, 4, Lowest);
        assert ArgLoop(toks, 4) == Ok(Parsed([], 4));
        assert [b] + [] == [b];
      }
      IdentifierExpression(toks, 2, Lowest);
      assert [a] + [b] == [a, b];
      assert ParseCall(toks, f, 1) == Ok(Parsed(call, 5));
    }
    IdentifierPrefix(toks, 0);
    LoopStops(toks, call, 5, Lowest);
    assert InfixLoop(toks, f, 0, Lowest) == Ok(Parsed(call, 5));
  }

  /** The token after the last array element is taken as the closing bracket
      without being checked: `[a` followed by any token that neither continues the
      element nor is a comma is a one-element array ending at that token. */
  lemma ArrayClosingUnchecked(toks: seq<Token>, i: nat)
    requires i + 1 < |toks| && toks[i].kind == LBracket && toks[i + 1].kind == Ident
    requires Peek(toks, i + 1).kind != Comma && PrecedenceOf(Peek(toks, i + 1).kind) == Lowest
    ensures ParsePrefix(toks, i) == Ok(Parsed(ArrayLiteral([Identifier(toks[i + 1].literal)]), i + 2))
  {
    var a := Identifier(toks[i + 1].literal);
    IdentifierExpression(toks, i + 1, Lowest);
    assert ElementLoop(toks, i + 1) == Ok(Parsed([], i + 1));
    assert [a] + [] == [a];
    assert ParseArray(toks, i) == Ok(Parsed(ArrayLiteral([a]), i + 2));
  }

  /** `[a, b]` is a two-element array. */
  lemma {:induction false} TwoElementArray(toks: seq<Token>)
    requires |toks| == 5 && toks[0].kind == LBracket && toks[1].kind == Ident && toks[2].kind == Comma
    requires toks[3].kind == Ident && toks[4].kind == RBracket
    ensures ParsePrefix(toks, 0)
            == Ok(Parsed(ArrayLiteral([Identifier(toks[1].literal), Identifier(toks[3].literal)]), 4))
  {
    var a, b := Identifier(toks[1].literal), Identifier(toks[3].literal);
    IdentifierExpression(toks, 1, Lowest);
    IdentifierExpression(toks, 3, Lowest);
    assert ElementLoop(toks, 3) == Ok(Parsed([], 3));
    assert [b] + [] == [b];
    assert ElementLoop(toks, 1) == Ok(Parsed([b], 3));
    assert [a] + [b] == [a, b];
    assert ParseArray(toks, 0) == Ok(Parsed(ArrayLiteral([a, b]), 4));
  }

  /** An index expression is `left [ expr ]`; without the `]` it fails. */
  lemma IndexRule(toks: seq<Token>, left: Expr, k: nat)
    requires k < |toks| && toks[k].kind == LBracket
    requires ParseExpression(toks, k + 1, Lowest).Ok?
    ensures var e := ParseExpression(toks, k + 1, Lowest).value;
            ParseInfixRule(toks, left, k) ==
              if Peek(toks, e.end).kind == RBracket then Ok(Parsed(IndexExpr(left, e.node), e.end + 1))
              else Err(Expected(RBracket, Peek(toks, e.end).kind))
  {
  }

  /** `{}` is the empty hash literal. */
  lemma EmptyHash(toks: seq<Token>, i: nat)
    requires i + 1 < |toks| && toks[i].kind == LBrace && toks[i + 1].kind == RBrace
    ensures ParsePrefix(toks, i) == Ok(Parsed(HashLiteral([]), i + 1))
  {
  }

  /** `{a: b}` is a hash literal with one pair. */
  lemma {:induction false} OnePairHash(toks: seq<Token>)
    requires |toks| == 5 && toks[0].kind == LBrace && toks[1].kind == Ident && toks[2].kind == Colon
    requires toks[3].kind == Ident && toks[4].kind == RBrace
    ensures ParsePrefix(toks, 0)
            == Ok(Parsed(HashLiteral([ExprPair(Identifier(toks[1].literal), Identifier(toks[3].literal))]), 4))
  {
    IdentifierExpression(toks, 1, Lowest);
    IdentifierExpression(toks, 3, Lowest);
    var p := ExprPair(Identifier(toks[1].literal), Identifier(toks[3].literal));
    assert ParseHashPair(toks, 1) == Ok(Parsed(p, 3));
    assert PairLoop(toks, 3) == Ok(Parsed([], 3));
    assert [p] + [] == [p];
    assert ParseHash(toks, 0) == Ok(Parsed(HashLiteral([p]), 4));
  }

  /** A key must be followed by `:`. */
  lemma HashNeedsColon(toks: seq<Token>, j: nat)
    requires j <= |toks| && ParseExpression(toks, j, Lowest).Ok?
    requires Peek(toks, ParseExpression(toks, j, Lowest).value.end).kind != Colon
    ensures ParseHashPair(toks, j)
            == Err(Expected(Colon, Peek(toks, ParseExpression(toks, j, Lowest).value.end).kind))
  {
  }

  /** A hash literal cut off before its `}` fails: `{a: b` reads on to EOF, which
      cannot start another key. */
  lemma {:induction false} UnclosedHashFails(toks: seq<Token>)
    requires |toks| == 4 && toks[0].kind == LBrace && toks[1].kind == Ident && toks[2].kind == Colon
    requires toks[3].kind == Ident
    ensures ParsePrefix(toks, 0) == Err(NoPrefixRule(Eof))
  {
    IdentifierExpression(toks, 1, Lowest);
    IdentifierExpression(toks, 3, Lowest);
    assert ParseHashPair(toks, 1) == Ok(Parsed(ExprPair(Identifier(toks[1].literal), Identifier(toks[3].literal)), 3));
    NoPrefixRuleFails(toks, 4, Lowest);
    assert ParseHashPair(toks, 4) == Err(NoPrefixRule(Eof));
    assert PairLoop(toks, 3) == Err(NoPrefixRule(Eof));
    assert ParseHash(toks, 0) == Err(NoPrefixRule(Eof));
  }
}

=== FILE: text.dfy ===
/** String assembly shared by the AST renderer and the value inspector. */
module Text {

  /** `string.Join(sep, parts)`: the parts with `sep` between neighbours. */
  function Join(sep: string, parts: seq<string>): (r: string)
    ensures |parts| == 0 ==> r == ""
    ensures |parts| == 1 ==> r == parts[0]
  {
    if |parts| == 0 then ""
    else if |parts| == 1 then parts[0]
    else parts[0] + sep + Join(sep, parts[1..])
  }

  /** The parts one after another, with nothing between them. */
  function Concat(parts: seq<string>): (r: string)
    ensures |parts| == 0 ==> r == ""
  {
    if |parts| == 0 then "" else parts[0] + Concat(parts[1..])
  }

  /** `n` copies of `s`. */
  function Repeat(s: string, n: nat): (r: string)
    ensures |r| == n * |s|
  {
    if n == 0 then "" else s + Repeat(s, n - 1)
  }
}

=== FILE: tokens.dfy ===
/** Lexical tokens: a kind and the literal text the scanner read for it. */
module Tokens {

  datatype TokenKind =
    | Illegal | Eof
    | Ident | Int | Str
    | Assign | Plus | Minus | Asterisk | Slash | Greater | Less | Bang
    | Eq | NotEq
    | Comma | Semicolon | Colon
    | LParen | RParen | LBrace | RBrace | LBracket | RBracket
    | FunctionKw | LetKw | TrueKw | FalseKw | IfKw | ElseKw | ReturnKw

  datatype Token = Token(kind: TokenKind, literal: string)

  const EofToken: Token := Token(Eof, "")
}

=== FILE: values.dfy ===
/** The runtime values of the evaluator (the source's `EvalObject` classes), with
    their `Equals`, their hash-key behaviour and their `Inspect` rendering.
    The model has no object identity: every value is taken to be its own
    allocation, except Null, the two Booleans and the built-ins, which the source
    keeps as singletons. */
module Values {
  import opened Wrappers
  import opened Int32
  import opened Ast
  import opened Text

  /** The built-in functions; the source stores one delegate object per name. */
  datatype BuiltinKind = Len | First | Last | Rest | Push | Print

  datatype Value =
    | Integer(number: int32)
    | Boolean(truth: bool)
    | Str(text: string)
    | Null
    | Array(elements: seq<Value>)
      /** Entries in the dictionary's enumeration order, which is insertion order. */
    | Hash(entries: seq<Entry>)
      /** A user function; the source stores a null environment with it. */
    | Function(params: seq<string>, body: Block)
    | Builtin(kind: BuiltinKind)
      /** The signal a `return` statement wraps its value in. */
    | ReturnValue(inner: Value)

  datatype Entry = Entry(key: Value, value: Value)

  /** The `ObjectType` tag; a built-in's `Type` throws, so it has none. */
  datatype ObjectType = BooleanType | IntegerType | NullType | ReturnType | FunctionType
                      | StringType | ArrayType | HashType

  function TypeOf(v: Value): (t: Option<ObjectType>)
    ensures t.None? <==> v.Builtin?
  {
    match v
    case Integer(_) => Some(IntegerType)
    case Boolean(_) => Some(BooleanType)
    case Str(_) => Some(StringType)
    case Null => Some(NullType)
    case Array(_) => Some(ArrayType)
    case Hash(_) => Some(HashType)
    case Function(_, _) => Some(FunctionType)
    case Builtin(_) => None
    case ReturnValue(_) => Some(ReturnType)
  }

  // ---------------------------------------------------------------- equality

  /** `self.Equals(other)`. Integers, Booleans and Strings compare their payloads and
      Null equals Null. An array never equals anything: its `Equals` discards the
      result of `SequenceEqual`. A hash compares its entries pairwise in enumeration
      order. Functions and return signals keep reference equality, which distinct
      allocations never satisfy; a built-in is a singleton per name.
      The source's `SequenceEqual` runs over the argument's pairs and calls `Equals`
      on them with the receiver's pairs as arguments. The model recurses on the
      receiver's side instead, which keeps the recursion structural; `Equals` is
      symmetric (`EqualsSymmetric`), so both orders give the same answer. */
  function Equals(self: Value, other: Value): bool
    decreases self, 1
  {
    match self
    case Integer(n) => other.Integer? && other.number == n
    case Boolean(b) => other.Boolean? && other.truth == b
    case Str(s) => other.Str? && other.text == s
    case Null => other.Null?
    case Array(_) => false
    case Hash(es) => other.Hash? && EntriesEqual(es, other.entries)
    case Function(_, _) => false
    case Builtin(k) => other.Builtin? && other.kind == k
    case ReturnValue(_) => false
  }

  /** `SequenceEqual` over key/value pairs, where a pair equals another when both
      its key and its value do. `mine` are the receiver's entries, `theirs` the
      argument's. */
  function EntriesEqual(mine: seq<Entry>, theirs: seq<Entry>): bool
    decreases mine, 0
  {
    if |mine| == 0 || |theirs| == 0 then |mine| == |theirs|
    else EntryEquals(mine[0], theirs[0]) && EntriesEqual(mine[1..], theirs[1..])
  }

  /** Equality of one pair: both the keys and the values are equal. */
  function EntryEquals(mine: Entry, theirs: Entry): bool
    decreases mine, 0
  {
    Equals(mine.key, theirs.key) && Equals(mine.value, theirs.value)
  }

  /** The values whose hash code depends only on their content: an Integer hashes to
      its value, a Boolean and a String to a hash of their payload, and Null and the
      built-ins are singletons. Every other value hashes by identity. */
  predicate HashedByValue(v: Value) {
    v.Integer? || v.Boolean? || v.Str? || v.Null? || v.Builtin?
  }

  /** `EvalInteger.GetHashCode`: the value itself. */
  function IntegerHashCode(n: int32): (h: int)
    ensures h == n as int
  {
    n as int
  }

  /** Whether a dictionary lookup for `probe` finds the entry stored under `stored`:
      the hash codes must agree and `stored.Equals(probe)` must hold. Identity-hashed
      keys are never found again, because each evaluation allocates a new object. */
  predicate KeyMatches(stored: Value, probe: Value) {
    HashedByValue(stored) && Equals(stored, probe)
  }

  /** `dictionary[key]` for reading: the value stored under a matching key. */
  function Lookup(es: seq<Entry>, key: Value): (r: Option<Value>)
    ensures r.Some? <==> exists i :: 0 <= i < |es| && KeyMatches(es[i].key, key)
    ensures r.Some? ==> exists i :: 0 <= i < |es| && KeyMatches(es[i].key, key) && es[i].value == r.value
  {
    if |es| == 0 then None
    else if KeyMatches(es[0].key, key) then Some(es[0].value)
    else
      var r := Lookup(es[1..], key);
      assert forall i :: 1 <= i < |es| ==> es[i] == es[1..][i - 1];
      r
  }

  /** `dictionary[key] = value`: overwrites the value of a matching entry in place,
      otherwise appends a new entry. */
  function Insert(es: seq<Entry>, key: Value, value: Value): (r: seq<Entry>)
    ensures |r| == |es| || |r| == |es| + 1
    ensures forall i :: 0 <= i < |es| ==> r[i].key == es[i].key
    ensures |r| == |es| + 1 <==> forall i :: 0 <= i < |es| ==> !KeyMatches(es[i].key, key)
    ensures |r| == |es| + 1 ==> r[|es|] == Entry(key, value)
  {
    if |es| == 0 then [Entry(key, value)]
    else if KeyMatches(es[0].key, key) then [Entry(es[0].key, value)] + es[1..]
    else
      var rest := Insert(es[1..], key, value);
      assert forall i :: 1 <= i < |es| ==> es[i] == es[1..][i - 1];
      [es[0]] + rest
  }

  // ---------------------------------------------------------------- rendering

  /** `Inspect`. A return signal interpolates its inner object, whose `ToString` is
      not overridden and so yields the object's class name. */
  function Inspect(v: Value): (s: string)
    decreases v, 1
  {
    match v
    case Integer(n) => Decimal(n as int)
    case Boolean(b) => if b then "true" else "false"
    case Str(s) => s
    case Null => "null"
    case Array(es) => "[" + InspectElements(es) + "]"
    case Hash(es) => "{" + Join(", ", InspectEntries(es)) + "}"
    case Function(params, body) => "fn(" + Concat(params) + ")" + RenderBlock(body)
    case Builtin(_) => "built in function"
    case ReturnValue(inner) => "return " + ClassName(inner)
  }

  /** Each element's rendering followed by a comma. */
  function InspectElements(es: seq<Value>): (s: string)
    decreases es, 0
  {
    if |es| == 0 then "" else Inspect(es[0]) + "," + InspectElements(es[1..])
  }

  /** Each entry's `key: value` text, in order. */
  function InspectEntries(es: seq<Entry>): (r: seq<string>)
    ensures |r| == |es|
    ensures forall k :: 0 <= k < |es| ==> r[k] == InspectEntry(es[k])
    decreases es, 0
  {
    if |es| == 0 then [] else [InspectEntry(es[0])] + InspectEntries(es[1..])
  }

  function InspectEntry(e: Entry): string
    decreases e, 0
  {
    Inspect(e.key) + ": " + Inspect(e.value)
  }

  /** The full name of the class that represents a value, which the default
      `ToString` returns. A built-in's class is generic over its result type. */
  function ClassName(v: Value): string {
    match v
    case Integer(_) => "Interpreter.Evaluator.EvalInteger"
    case Boolean(_) => "Interpreter.Evaluator.EvalBoolean"
    case Str(_) => "Interpreter.Evaluator.EvalString"
    case Null => "Interpreter.Evaluator.EvalNull"
    case Array(_) => "Interpreter.Evaluator.EvalArray"
    case Hash(_) => "Interpreter.Evaluator.EvalHash"
    case Function(_, _) => "Interpreter.Evaluator.EvalFunctionObject"
    case Builtin(k) => "Interpreter.Evaluator.EvalBuiltIn`1[Interpreter.Evaluator." + BuiltinResultClass(k) + "]"
    case ReturnValue(_) => "Interpreter.Evaluator.EvalReturnValue"
  }

  /** The declared result type of each built-in's delegate. */
  function BuiltinResultClass(k: BuiltinKind): string {
    match k
    case Len => "EvalInteger"
    case First => "EvalObject"
    case Last => "EvalObject"
    case Rest => "EvalArray"
    case Push => "EvalArray"
    case Print => "EvalNull"
  }
}

=== FILE: values_props.dfy ===
/** Properties of value equality, hash-key lookup and `Inspect`. */
module ValuesProps {
  import opened Wrappers
  import opened Int32
  import opened Values

  /** For the content-hashed values, `Equals` is structural equality: an Integer
      equals exactly the Integer with the same value, a Boolean the Boolean with the
      same truth, a String the String with the same text, Null only Null, and a
      built-in only the same built-in. */
  lemma EqualsByValue(a: Value, b: Value)
    requires HashedByValue(a)
    ensures Equals(a, b) <==> a == b
  {
  }

  /** An array equals nothing, not even itself, on either side of `Equals`. */
  lemma ArrayEqualsNothing(es: seq<Value>, v: Value)
    ensures !Equals(Array(es), v) && !Equals(v, Array(es))
  {
  }

  /** Functions and return signals have no value equality. */
  lemma ReferencesEqualNothing(v: Value, w: Value)
    requires v.Function? || v.ReturnValue?
    ensures !Equals(v, w) && !Equals(w, v)
  {
  }

  /** Two hashes are equal exactly when they have the same number of entries and the
      entries at each position have equal keys and equal values. The second clause
      is the source's own order, in which the argument's pairs receive `Equals`. */
  lemma {:induction false} HashEqualsPairwise(a: seq<Entry>, b: seq<Entry>)
    ensures Equals(Hash(a), Hash(b)) <==>
              |a| == |b| && forall i :: 0 <= i < |a| ==>
                Equals(a[i].key, b[i].key) && Equals(a[i].value, b[i].value)
    ensures Equals(Hash(a), Hash(b)) <==>
              |a| == |b| && forall i :: 0 <= i < |a| ==>
                Equals(b[i].key, a[i].key) && Equals(b[i].value, a[i].value)
  {
    EntriesEqualPairwise(a, b);
    forall i | 0 <= i < |a| && i < |b|
      ensures Equals(a[i].key, b[i].key) == Equals(b[i].key, a[i].key)
      ensures Equals(a[i].value, b[i].value) == Equals(b[i].value, a[i].value)
    {
      EqualsSymmetric(a[i].key, b[i].key);
      EqualsSymmetric(a[i].value, b[i].value);
    }
  }

  lemma {:induction false} EntriesEqualPairwise(a: seq<Entry>, b: seq<Entry>)
    ensures EntriesEqual(a, b) <==>
              |a| == |b| && forall i :: 0 <= i < |a| ==>
                Equals(a[i].key, b[i].key) && Equals(a[i].value, b[i].value)
    decreases |a|
  {
    if |a| > 0 && |b| > 0 {
      EntriesEqualPairwise(a[1..], b[1..]);
      assert forall i :: 1 <= i < |a| ==> a[i] == a[1..][i - 1];
      assert forall i :: 1 <= i < |b| ==> b[i] == b[1..][i - 1];
    }
  }

  /** `Equals` is symmetric, so it does not matter which side of a pair the source's
      `SequenceEqual` calls it on. */
  lemma {:induction false} EqualsSymmetric(a: Value, b: Value)
    ensures Equals(a, b) == Equals(b, a)
    decreases a, 1
  {
    if a.Hash? && b.Hash? {
      EntriesEqualSymmetric(a.entries, b.entries);
    }
  }

  lemma {:induction false} EntriesEqualSymmetric(a: seq<Entry>, b: seq<Entry>)
    ensures EntriesEqual(a, b) == EntriesEqual(b, a)
    decreases a, 0
  {
    if |a| > 0 && |b| > 0 {
      EntryEqualsSymmetric(a[0], b[0]);
      EntriesEqualSymmetric(a[1..], b[1..]);
    }
  }

  lemma {:induction false} EntryEqualsSymmetric(a: Entry, b: Entry)
    ensures EntryEquals(a, b) == EntryEquals(b, a)
    decreases a, 0
  {
    EqualsSymmetric(a.key, b.key);
    EqualsSymmetric(a.value, b.value);
  }

  /** A hash holding an array value is unequal to itself: `Equals` is not
      reflexive. */
  lemma HashWithArrayNotSelfEqual(k: Value, es: seq<Value>)
    ensures !Equals(Hash([Entry(k, Array(es))]), Hash([Entry(k, Array(es))]))
  {
    HashEqualsPairwise([Entry(k, Array(es))], [Entry(k, Array(es))]);
  }

  /** A dictionary finds a key again exactly when the key is content-hashed, and
      then only under an identical key. */
  lemma KeyMatchesIsIdentity(stored: Value, probe: Value)
    ensures KeyMatches(stored, probe) <==> HashedByValue(stored) && stored == probe
  {
  }

  /** Reading a key after storing one: the stored value when the key is found again,
      and the earlier answer for every other key. */
  lemma {:induction false} LookupAfterInsert(es: seq<Entry>, key: Value, value: Value, probe: Value)
    ensures Lookup(Insert(es, key, value), probe)
            == if HashedByValue(key) && key == probe then Some(value) else Lookup(es, probe)
  {
    if |es| > 0 && !KeyMatches(es[0].key, key) {
      LookupAfterInsert(es[1..], key, value, probe);
      var rest := Insert(es[1..], key, value);
      assert Insert(es, key, value) == [es[0]] + rest;
      assert ([es[0]] + rest)[1..] == rest;
    } else if |es| > 0 {
      var r := [Entry(es[0].key, value)] + es[1..];
      assert Insert(es, key, value) == r;
      assert r[1..] == es[1..];
    }
  }

  /** No stored key is found by a probe of another stored key. */
  predicate DistinctKeys(es: seq<Entry>) {
    forall i, j :: 0 <= i < j < |es| ==> !KeyMatches(es[i].key, es[j].key)
  }

  /** Storing keeps the keys distinct, so each key appears at most once: a later
      duplicate in a hash literal overwrites the earlier entry. */
  lemma InsertKeepsKeysDistinct(es: seq<Entry>, key: Value, value: Value)
    requires DistinctKeys(es)
    ensures DistinctKeys(Insert(es, key, value))
  {
    var r := Insert(es, key, value);
    forall i, j | 0 <= i < j < |r|
      ensures !KeyMatches(r[i].key, r[j].key)
    {
      if j == |es| {
        assert r[j].key == key;
      }
    }
  }

  /** The integer rendering is the decimal numeral that the lexer and `int.Parse`
      read back as the same value. */
  lemma InspectIntegerRoundTrip(n: int32)
    requires 0 <= n as int
    ensures ParseInt(Inspect(Integer(n))) == Some(n)
  {
    ParseIntOfDecimal(n as int);
  }

  /** A negative integer renders with a leading minus sign. */
  lemma InspectNegativeInteger(n: int32)
    requires n < 0
    ensures Inspect(Integer(n))[0] == '-'
  {
  }

  /** Every array element is followed by a comma, including the last. */
  lemma InspectArrayTrailingComma()
    ensures Inspect(Array([Integer(1), Integer(2), Integer(4)])) == "[1,2,4,]"
    ensures Inspect(Array([])) == "[]"
  {
    assert Decimal(1) == "1" && Decimal(2) == "2" && Decimal(4) == "4";
  }

  /** Hash entries render as `key: value` joined by `, `; strings render without
      quotes and Booleans and Null in lower case. */
  lemma InspectHashEntries()
    ensures Inspect(Hash([Entry(Integer(1), Boolean(true)), Entry(Str("a"), Null)])) == "{1: true, a: null}"
    ensures Inspect(Hash([])) == "{}"
  {
    assert Decimal(1) == "1";
  }
}

=== FILE: wrappers.dfy ===
/** Failure-compatible wrappers shared by the lexer, the parser and the evaluator.
    The source reports every failure with an exception; here each failure is a value. */
module Wrappers {

  /** The conventional Some/None datatype, used where the source returns a C# null. */
  datatype Option<+T> = None | Some(value: T)

  /** A result carrying either a value or an error; usable with `:-`. */
  datatype Result<+T, +E> = Ok(value: T) | Err(error: E) {

    predicate IsFailure() {
      Err?
    }

    function PropagateFailure<U>(): Result<U, E>
      requires Err?
    {
      Err(error)
    }

    function Extract(): T
      requires Ok?
    {
      value
    }
  }
}
